=== FILE: README.md ===
# Realtime voice assistant core, modelled in Dafny

This project models the deterministic core of a voice assistant built on a
streaming realtime conversation service. It covers five parts:

- **The realtime client protocol** (`realtime/__init__.py`):
  - the typed handler registry (`EventManager`);
  - the conversation store (`ConversationManager`): an ordered item list, an
    id index, and per-item accumulators for text, transcript, audio chunks and
    tool-call arguments;
  - the client state machine (`RealtimeWebSocketClient`, `RealtimeClient`).

  A client is an immutable record. Its socket is an append-only trace of
  effects: events sent, and notifications emitted to handlers. `Outbound`
  projects the trace onto what went over the socket. Every inbound server
  event is a pure transition (`HandleServerEvent`), and a run of frames is
  `HandleAll`. A frame whose type the client has no branch for is
  `Unhandled`, and its tag can never be one of the handled types. The collaborators the client calls but whose code is not
  modelled are fields of a `Runtime` record: the base64 audio codec, the JSON
  parser for tool arguments, and tool handlers.
- **The realtime helpers** (`utils/realtime_helpers.py`): the retry loop
  with exponential backoff and per-type failure counts, the session table,
  the performance counters with their 100-entry response-time window, and
  the PCM16 validator.
- **The realtime configuration** (`config/realtime_config.py`): settings
  from an environment map, the WebSocket URL, headers, validation, and the
  session-config merge.
- **The database connection** (`config/database.py`): the SQLAlchemy URL,
  connect, and the no-engine and SELECT branches of `execute_query`.
- **The motivational interviewing chain** (`app/backend/conversation.py`):
  the fixed prompt tables and the choice of one reply for a context.
  `random.choice` is modelled as a `pick` parameter taken modulo the list
  length.

Clock readings, UUIDs and random draws are parameters. Floating-point
quantities that matter are exact `real`s.

When the server repeats `response.output_item.done` for a function-call
item, the client runs the call and answers it again; `HandleOutputItemDone`
does the same, and `ClientProperties.RepeatedCompletionAnswersAgain` states
it.

Files, one module each:

- `wrappers.dfy`, `json.dfy`, `text.dfy`, `counters.dfy`: shared pieces.
  These are `Option`/`Result`, JSON values and Python truthiness, Python
  string helpers (`strip`, `lower`, `str(int)`), and the
  `d[k] = d.get(k, 0) + 1` tables.
- `event_manager.dfy`, `conversation_manager.dfy`, `realtime_client.dfy`,
  `client_properties.dfy`: the realtime client.
- `retry_handler.dfy`, `session_manager.dfy`, `performance_monitor.dfy`,
  `audio_validator.dfy`: the helpers.
- `realtime_config.dfy`, `database.dfy`, `motivational_chain.dfy`.

## Model

| member | source | states |
|---|---|---|
| EventManager.Register | realtime/__init__.py:71-73 | the handler joins the end of its type's list; every other type's list is unchanged |
| EventManager.RemoveFirst | realtime/__init__.py:75-81 | `list.remove` semantics: one occurrence fewer (as multisets), unchanged when absent |
| EventManager.Remove | realtime/__init__.py:75-81 | removes one occurrence from that type only; a handler not registered for the type leaves every list as it was |
| EventManager.Clear | realtime/__init__.py:83-88 | a truthy type loses all its handlers and no other type changes; no type clears every list |
| EventManager.Emit | realtime/__init__.py:90-99 | every handler of the type is called exactly once, in registration order; each one that raises is caught and its message logged under the event type, and the calls go on; the log is exactly the raising handlers' messages in order |
| EventManager.ErrorLogExactlyRaising | realtime/__init__.py:90-99 | an entry is in the log iff it carries the event type and the message of some handler that raised |
| EventManager.OneShotHandlerLeavesNoTrace | realtime/__init__.py:101-115 | registering a fresh one-shot handler and removing it in `finally` restores every handler list |
| ConversationManager.Reset | realtime/__init__.py:125-133 | the store is empty: no items, no index entries, no pending audio |
| ConversationManager.AddItem | realtime/__init__.py:135-159 | an item without a truthy id is refused with nothing changed; a `null` content, or a `null` text in a text part, raises TypeError (which of the two is reported) and nothing is stored; otherwise it is appended, indexed by its id, with text from its `text`/`input_text` parts, empty transcript and no audio |
| ConversationManager.InlineTextAppend | realtime/__init__.py:149-153 | the formatted text of concatenated content lists is the concatenation of their texts |
| ConversationManager.InlineTextIgnoresOtherParts | realtime/__init__.py:149-153 | parts of other types contribute no text, and their `text` is never read, so a `null` there does not raise |
| ConversationManager.GetItem | realtime/__init__.py:182-184 | an item is found exactly when its id is indexed, and it carries that id |
| ConversationManager.UpdateText | realtime/__init__.py:168-173 | true iff the id is known; the item's text grows by the delta, nothing else changes; an unknown id changes nothing |
| ConversationManager.UpdateTranscript | realtime/__init__.py:175-180 | as UpdateText, for the transcript |
| ConversationManager.UpdateAudio | realtime/__init__.py:161-166 | true iff the id is known; the chunk is appended to the item's audio list and nothing else changes |
| ConversationManager.AppendArguments | realtime/__init__.py:317-332 | the argument accumulator of a known item is created empty and then extended by the delta; an unknown id changes nothing |
| ConversationManager.MarkCompleted | realtime/__init__.py:341-342 | the item's status becomes `completed`; every other item, the index and the pending audio stay |
| ConversationManager.History | realtime/__init__.py:186-188 | a suffix of the items: exactly the last `limit` when 0 < limit <= count, all items otherwise |
| ConversationManager.TextDeltasConcatenate | realtime/__init__.py:168-173 | text deltas applied in order leave the concatenation of the deltas appended |
| RealtimeClient.ServerType | realtime/__init__.py:253-315 | a frame's type tag has a branch exactly when the frame is one of the events the client distinguishes; any other tag is `Unhandled` |
| RealtimeClient.OutboundAppend | realtime/__init__.py:400-412 | the socket log of two traces run back to back is the concatenation of their logs |
| RealtimeClient.FindTool | realtime/__init__.py:358-359 | finds a registered tool with that name, or reports that no tool has it |
| RealtimeClient.ToolSchemas | realtime/__init__.py:419-422 | one schema per tool, in registration order: the definition's keys plus `type: "function"` |
| RealtimeClient.New | realtime/__init__.py:194-202 | no socket, no session, empty conversation, registry and buffer; the configured session settings |
| RealtimeClient.SendEvent | realtime/__init__.py:400-412 | without a socket it raises `NotConnected` and nothing happens; otherwise exactly this event goes out, followed by a `client.<type>` notification |
| RealtimeClient.SendFunctionResult | realtime/__init__.py:381-390 | one `function_call_output` with the given call id, then one `response.create`; raises without a socket |
| RealtimeClient.UpdateSession | realtime/__init__.py:414-429 | the updates are merged even when the send then raises; on an open socket the merged settings go out with every tool schema |
| RealtimeClient.RegisterTool | realtime/__init__.py:459-470 | a missing or falsy name is refused; a list or dict name raises as unhashable; a name that is the same dict key as a registered one (`1`, `1.0`, `True`) is refused; success iff none of these, and then the tool is appended, findable, and no two names are the same key |
| RealtimeClient.NumericNamesCollide | realtime/__init__.py:465-466 | with `1` registered, both `1.0` and `True` are refused as already existing |
| RealtimeClient.ListNameUnhashable | realtime/__init__.py:461-466 | a non-empty list name is refused as unhashable even when nothing is registered |
| RealtimeClient.AddTool | realtime/__init__.py:459-477 | a refused tool (missing, unhashable or already-registered name) leaves the client unchanged and raises the same error as the registry; an accepted one is stored, and a `session.update` listing every tool is sent only when connected |
| RealtimeClient.SendText | realtime/__init__.py:431-440 | one user message holding the text as `input_text`, then `response.create`; the conversation is untouched |
| RealtimeClient.SendUserMessageContent | realtime/__init__.py:523-532 | the content list as one user message, then `response.create` |
| RealtimeClient.CreateResponse | realtime/__init__.py:538-540 | exactly one `response.create`; raises without a socket |
| RealtimeClient.SendAudio | realtime/__init__.py:442-449 | an empty encoding does nothing; otherwise the encoded chunk is appended on the server and the bytes join the input buffer |
| RealtimeClient.CommitAudio | realtime/__init__.py:451-457 | a non-empty buffer is committed, kept as pending audio and cleared; `response.create` is always the last event sent |
| RealtimeClient.DisconnectIdempotent | realtime/__init__.py:487-495 | disconnecting a disconnected client changes nothing |
| RealtimeClient.Disconnect | realtime/__init__.py:487-495 | no socket, no session, empty conversation and buffer; tools, settings and the log survive |
| RealtimeClient.CallOutput | realtime/__init__.py:351-379 | an unknown name, a non-callable handler, unparsable arguments and a raising handler each give an `error` dict; otherwise the handler's return value |
| RealtimeClient.ExecuteFunctionCall | realtime/__init__.py:351-379 | on an open socket exactly one output with the item's call id, then one `response.create`; on a closed one nothing changes |
| RealtimeClient.CompleteItem | realtime/__init__.py:336-345 | the item is marked completed and announced as `conversation.item.completed`; nothing is sent |
| RealtimeClient.HandleOutputItemDone | realtime/__init__.py:334-349 | an unknown or missing item changes nothing; a known one is completed and announced; a function call on an open socket then sends exactly its output and one `response.create`, and nothing is sent otherwise |
| RealtimeClient.OnDelta | realtime/__init__.py:270-332 | a delta with truthy id and content updates the item it names and nothing else; an empty id or delta is ignored; nothing is sent |
| RealtimeClient.OnNotice | realtime/__init__.py:255-312 | `session.created` sets the flag; `conversation.item.created` adds the item, or changes nothing when its content raises; an interruption or error is announced; no event is sent |
| RealtimeClient.Dispatch | realtime/__init__.py:255-312 | the session flag only rises; pending audio is untouched; only `response.output_item.done` can send |
| RealtimeClient.HandleServerEvent | realtime/__init__.py:236-315 | the type-specific effect, then the raw event re-emitted under `server.<type>` whatever its type; the frame leaves the client unchanged exactly when its branch raises, which the receive loop catches and logs |
| RealtimeClient.HandleAll | realtime/__init__.py:237-251 | after a run of frames the session is created iff it already was or one of the frames was `session.created` |
| RealtimeClient.HandleAllAppend | realtime/__init__.py:237-251 | processing frames in two batches is processing them in one |
| RealtimeClient.Connect | realtime/__init__.py:209-235 | the result is true iff a `session.created` frame arrived, and then the last event sent is the full session configuration with its tools; on a timeout the socket stays open |
| RealtimeClient.PushSession | realtime/__init__.py:227-228 | the stored configuration with every tool schema is the last event sent |
| RealtimeClient.LoadInstructions | realtime/__init__.py:507-517 | the stripped file text when the file is readable, otherwise the fixed default sentence; no other setting changes |
| ClientProperties.DeltaStep | realtime/__init__.py:281-332 | one text, transcript or argument delta for a known item grows that stream by exactly the delta |
| ClientProperties.DeltaStepFrame | realtime/__init__.py:281-332 | one such delta leaves every other item alone and sends nothing |
| ClientProperties.DeltasConcatenate | realtime/__init__.py:281-332 | a run of one stream's deltas for a known item appends their concatenation to that stream |
| ClientProperties.DeltasTouchOnlyTheirItem | realtime/__init__.py:281-332 | a run of one stream's deltas for one item leaves every other item alone and sends nothing |
| ClientProperties.AudioDeltasAppendChunks | realtime/__init__.py:270-279 | a run of audio deltas for a known item appends their decoded chunks in arrival order, skipping empty deltas |
| ClientProperties.UnknownItemDeltaChangesNothing | realtime/__init__.py:270-332 | a delta for a missing or unknown id leaves the conversation unchanged and sends nothing |
| ClientProperties.ItemCreatedAppends | realtime/__init__.py:261-268 | a created item without a usable id is refused; one whose content raises changes nothing at all; any other is appended and found by its id |
| ClientProperties.NullContentIgnored | realtime/__init__.py:149-152 | an item with `"content": null`, and one with a `null` text part, are not stored and nothing is emitted for the frame |
| ClientProperties.ItemCreatedAnnounced | realtime/__init__.py:261-268 | a stored new item is announced with no delta before the raw event is re-emitted |
| ClientProperties.FunctionCallAnsweredOnce | realtime/__init__.py:334-390 | a completed function call on an open socket sends exactly one output with the stored call id, then one `response.create` |
| ClientProperties.RepeatedCompletionAnswersAgain | realtime/__init__.py:334-349 | a second completion frame for the same function-call item on an open socket runs the call again: four events go out, the same output and `response.create` twice |
| ClientProperties.OtherCompletionSendsNothing | realtime/__init__.py:334-349 | an unknown item, a non-function item or a closed socket sends nothing on completion |
| ClientProperties.MissingArgumentsReadAsEmptyObject | realtime/__init__.py:354-364 | a call that never received an argument delta is parsed from `"{}"` |
| ClientProperties.CompletionMarksItem | realtime/__init__.py:336-345 | completion sets status `completed` and announces exactly that item first |
| ClientProperties.DeltasKeepFields | realtime/__init__.py:281-332 | a run of one stream's deltas never changes the item's own fields |
| ClientProperties.InterleavedStreams | realtime/__init__.py:253-349 | for any run of frames that does not re-create the item: text, transcript, audio and argument deltas for it, interleaved with each other and with other items' frames, each grow their own stream by exactly the deltas addressed to it, in arrival order; the item keeps its index entry, and of its own fields only the status may change |
| ClientProperties.StreamedItem | realtime/__init__.py:261-332 | a created item followed by its deltas is the newest item, with its fields as sent and its stream equal to the initial text plus every delta |
| ClientProperties.StreamedMessageCompletes | realtime/__init__.py:261-349 | a streamed message that the server finishes is the newest history entry, completed, holding every text delta in order; nothing is sent |
| ClientProperties.StreamedCallAnswered | realtime/__init__.py:317-390 | a streamed function call that the server finishes carries every argument delta in order and is answered exactly once, followed by one `response.create` |
| ClientProperties.HelloThereScenario | realtime/__init__.py:261-349 | deltas "Hi" and " there!" then completion leave the newest history entry reading "Hi there!" with status completed |
| ClientProperties.MalformedArgumentsScenario | realtime/__init__.py:351-379 | a registered tool called with unparsable arguments still gets one output, the parser's error, then one `response.create` |
| RetryHandler.Attempt | utils/realtime_helpers.py:159-176 | calls stop at the first return or after `max_retries + 1` attempts; each failure is counted under its type name; waits are `retry_delay * 2^k`, with none after the last allowed attempt |
| RetryHandler.WithRetry | utils/realtime_helpers.py:157-178 | success iff some call returns, with its value unchanged; otherwise every allowed attempt failed and the last exception is raised; negative `max_retries` makes no call and raises nothing usable |
| RetryHandler.RetryCountsFailures | utils/realtime_helpers.py:164-169 | each type's count grows by exactly the number of failed calls of that type |
| RetryHandler.ErrorStatistics | utils/realtime_helpers.py:180-182 | the snapshot holds exactly the table's names, each with the table's count |
| RetryHandler.ResetErrorCounts | utils/realtime_helpers.py:184-186 | the table is emptied: the statistics hold no name and every count reads zero; the settings stay |
| Counts.Bump | utils/realtime_helpers.py:167-169 | one more for that name, every other name unchanged |
| Counts.TallyCounts | utils/realtime_helpers.py:167-169 | counting a sequence adds each name's number of occurrences |
| Counts.TallyKeys | utils/realtime_helpers.py:167-169 | counting never forgets a name and adds exactly the names counted |
| SessionManager.CreateSession | utils/realtime_helpers.py:27-44 | a new active session with zero counts, created and last active now; every other session unchanged |
| SessionManager.GetSession | utils/realtime_helpers.py:46-48 | found exactly when active |
| SessionManager.UpdateActivity | utils/realtime_helpers.py:50-53 | only the named active session's activity time changes; an inactive id is a no-op |
| SessionManager.IncrementConversationCount | utils/realtime_helpers.py:55-58 | exactly one more conversation for an active session; a no-op otherwise |
| SessionManager.AddAudioDuration | utils/realtime_helpers.py:60-63 | the duration is added for an active session; a no-op otherwise |
| SessionManager.EndSession | utils/realtime_helpers.py:65-77 | true iff active; the session moves to the history stamped with its end and length; otherwise nothing changes |
| SessionManager.EndTwice | utils/realtime_helpers.py:65-77 | a second end of the same session returns false and changes nothing |
| SessionManager.CleanupOldSessions | utils/realtime_helpers.py:79-92 | exactly the sessions idle since before the cutoff are ended and counted; every other active session stays as it was |
| PerformanceMonitor.Fresh | utils/realtime_helpers.py:252-265 | every counter zero, every list and the error table empty, started now; attempts balance and the window bound holds |
| PerformanceMonitor.RecordConnectionAttempt | utils/realtime_helpers.py:267-273 | one more attempt and one more success or failure; the balance is kept |
| PerformanceMonitor.AttemptsBalance | utils/realtime_helpers.py:267-273 | after any run of attempts, attempts equal successes plus failures, which count the true and false outcomes |
| PerformanceMonitor.RecordMessage | utils/realtime_helpers.py:275-280 | "sent" and "received" each bump their counter; any other direction changes nothing |
| PerformanceMonitor.RecordAudioChunk | utils/realtime_helpers.py:282-284 | one more chunk, nothing else |
| PerformanceMonitor.RecordResponseTime | utils/realtime_helpers.py:286-294 | at most 100 kept, and the newest is the one just recorded |
| PerformanceMonitor.WindowKeepsNewest | utils/realtime_helpers.py:286-294 | however many arrive, the window is exactly the newest 100 in arrival order |
| PerformanceMonitor.RecordSessionDuration | utils/realtime_helpers.py:296-298 | the duration is appended |
| PerformanceMonitor.RecordError | utils/realtime_helpers.py:300-302 | one more of that type, others unchanged |
| PerformanceMonitor.ResetMetrics | utils/realtime_helpers.py:322-332 | every counter zero, every list and table empty, restarted now |
| AudioValidator.ValidateAudioFormat | utils/realtime_helpers.py:98-112 | only `pcm16` is accepted; bytes are valid iff their length is even; arrays must be int16 or float32 |
| AudioValidator.SampleCount | utils/realtime_helpers.py:119-125 | `len // 2` for bytes, the array length for arrays |
| AudioValidator.ValidBytesAreWholeSamples | utils/realtime_helpers.py:99-121 | valid PCM16 bytes are exactly two bytes per sample |
| AudioValidator.EstimateDuration | utils/realtime_helpers.py:114-130 | duration times rate equals the sample count; unsupported input gives 0 |
| RealtimeConfig.LoadSettings | config/realtime_config.py:24-33 | Azure is on iff USE_AZURE lower-cases to "true"; the endpoint is AZURE_OPENAI_URL or else AZURE_OPENAI_ENDPOINT, the key is AZURE_OPENAI_API_KEY; a truthy OPENAI_DEPLOYMENT_NAME_REALTIME wins over a set AZURE_OPENAI_DEPLOYMENT, else `gpt-4o-mini-realtime-preview`; the API version is AZURE_API_VERSION or its default |
| RealtimeConfig.ConnectionFor | config/realtime_config.py:57-70 | the public base URL without Azure; with Azure `wss://<endpoint>/openai/realtime` with its version and deployment |
| RealtimeConfig.UpdateSessionConfig | config/realtime_config.py:80-82 | exactly the given keys take the given values, every other key keeps its value |
| RealtimeConfig.PublicUrlRoundTrip | config/realtime_config.py:84-89 | the public URL splits back into the base URL and `model=<model>` |
| RealtimeConfig.AzureUrlRoundTrip | config/realtime_config.py:67-89 | the Azure URL splits back into its base and the version and deployment it was built from |
| RealtimeConfig.Headers | config/realtime_config.py:91-102 | Azure sends exactly `api-key` and `Content-Type`; otherwise exactly `Authorization: Bearer <key>` and `OpenAI-Beta: realtime=v1` |
| RealtimeConfig.Validate | config/realtime_config.py:104-113 | true iff endpoint, key and deployment are truthy (Azure) or the API key is truthy |
| RealtimeConfig.ValidConfigCarriesCredential | config/realtime_config.py:91-113 | a configuration that validates sends a truthy credential |
| Database.ConnectionString | config/database.py:51-57 | `sqlite:///<db>` for sqlite; otherwise dialect, `://`, credentials, host part, `/` and the database |
| Database.ConnectionStringFrame | config/database.py:51-57 | every connection string starts with the dialect and `://` and ends with `/<database>` |
| Database.CredentialsIffUsername | config/database.py:54-55 | the string carries credentials iff the user name is truthy |
| Database.Connect | config/database.py:47-69 | the string is always recorded; the engine is replaced once created, even if the probe fails; the result is true iff the probe succeeds |
| Database.IsSelectCharacterized | config/database.py:80 | a query is a SELECT iff its first six characters after leading white space spell "select" in any case |
| Database.RowObjectHasColumns | config/database.py:83 | every zipped column is a key of the row object |
| Database.RowObjectOnlyColumns | config/database.py:83 | no key but a zipped column |
| Database.RowObjectLastWins | config/database.py:83 | a repeated column keeps its last value |
| Database.ExecuteQuery | config/database.py:71-91 | without an engine only `error`; a SELECT that ran gives exactly `columns` and `rows`; another statement gives exactly `affected_rows`; a raising one gives exactly `error` |
| Database.ExecutedReply | config/database.py:80-87 | a SELECT's reply lists the column names and one object per row; otherwise the affected row count |
| Database.NoEngineRunsNothing | config/database.py:73-74 | without an engine the reply does not depend on the statement runner |
| Database.FailedCreateKeepsEngine | config/database.py:47-69 | a failed engine creation leaves the previous engine in place and reports false |
| MotivationalInterviewing.NewChain | app/backend/conversation.py:13-14 | a new chain starts at "opening" |
| MotivationalInterviewing.ReflectionPrompts | app/backend/conversation.py:73-107 | the table's 3-element list for the five known emotions, the fixed 3-element default for any other |
| MotivationalInterviewing.StageList | app/backend/conversation.py:63-182 | a list exists exactly for the six fixed stages, each with at least five prompts |
| MotivationalInterviewing.ReflectionList | app/backend/conversation.py:186-192 | a string emotion looks up the table; a list or dict raises "unhashable"; any other value gets the default list |
| MotivationalInterviewing.Pool | app/backend/conversation.py:184-204 | every list a selection draws from is non-empty; the only failure is an unhashable emotion |
| MotivationalInterviewing.SelectResponse | app/backend/conversation.py:184-204 | the reply is an element of the context's list; it fails exactly when the list lookup fails |
| MotivationalInterviewing.EveryPromptReachable | app/backend/conversation.py:184-202 | every prompt of the list is the reply for some draw |
| MotivationalInterviewing.PoolByStage | app/backend/conversation.py:184-204 | reflection draws from the emotion's list, the six fixed stages from their lists, anything else from the fallback sentence |
| MotivationalInterviewing.SelectionFailsOnlyOnUnhashable | app/backend/conversation.py:184-192 | selection fails iff the stage is reflection and the emotion is a list or dict |
| MotivationalInterviewing.UnknownStageFallsBack | app/backend/conversation.py:203-204 | an unrecognised stage always gets the fixed fallback sentence |
| MotivationalInterviewing.MissingKeysDefault | app/backend/conversation.py:186-187 | a missing stage means exploration; a reflection without an emotion uses the default list |

## Left out

- The audio codec (`AudioProcessor`, realtime/__init__.py:23-61) is not modelled: it is numpy float arithmetic and library base64. Decoding and encoding are uninterpreted `Runtime` fields.
- The WebSocket transport, the `_process_messages` receive loop and JSON (de)serialisation are I/O. Sends append to the trace; received frames arrive already parsed as `ServerEvent` values.
- `_wait_for_session` polling and the futures of `wait_for_event` are clock and asyncio concurrency. The handshake is the sequence of frames that arrive before it ends; for `wait_for_event` only the registry bookkeeping is modelled.
- `generate_event_id` (clock plus UUID): outbound events carry no id.
- Handler bodies registered with the event manager and tool handlers are outside the model: only whether an event handler raises, and a tool handler's result, are represented.
- EventManager.Emit: a handler outcome is a return or an `Exception`; a handler raising something outside `Exception` (such as a cancellation), which would stop the loop and propagate out of `emit_event`, is not modelled.
- `send_function_result` cannot fail to serialise its result in the model; the source's JSON dump of an arbitrary value can.
- `send_audio_data` with a numpy array input is not modelled; only raw bytes are.
- RealtimeClient.Connect: the socket opening itself and its failure are not modelled; the client is connected before the handshake frames.
- Averages, uptime, rates and `get_metrics_summary` of the performance monitor (including the average session duration), and `normalize_audio_volume`, are floating point or clock arithmetic.
- SessionManager.EndSession: timestamps are whole seconds and a session's `duration` is their integer difference; the source's `datetime.utcnow()` has microsecond resolution and `total_seconds()` is a float, so sub-second resolution is dropped.
- ConversationManager.AddItem: only a `null` content and a `null` part text are modelled as raising; a content or part of a non-list, non-dict or non-string JSON type (which would also raise) cannot be written in the item record.
- RetryHandler.WithRetry: only `Exception` subclasses are caught; an exception outside that hierarchy (such as a cancellation) would leave the loop on the first attempt uncounted, and the model has no such outcome.
- RealtimeClient.RegisterTool: numbers are exact decimals, so two float literals that differ as decimals but round to the same double count as different names.
- ClientProperties.InterleavedStreams: a frame that stores a second item under the same id re-points the index to the new item, so runs containing one are excluded (a creation whose content raises stores nothing and is allowed); `StreamedItem` covers a single creation.
- SessionManager.CleanupOldSessions: one `now` stamps every session it ends; the source reads the clock once per ended session.
- The session `metadata` dict is not modelled: `create_session` sets it to `{}`, and nothing reads or changes it afterwards.
- `ConfigurationLoader`, `load_environment_variables` file reads and `DatabaseConfig` environment loading are I/O; the environment is a map parameter.
- The import-time connect of config/database.py and SQL execution itself: a statement's outcome is a parameter.
- `get_system_prompt` returns fixed text that no other operation reads.
- AudioValidator.EstimateDuration: exact division, not floating point.
- RetryHandler.WithRetry: the `asyncio.sleep` waits are returned as a list of delays rather than slept.
- tools.py, the UI glue, the FastAPI backend, scripts and setup utilities are outside the modelled core.

=== FILE: audio_validator.dfy ===
/** `AudioValidator` of the realtime helpers: the PCM16 format check and the
    sample count behind the duration estimate. A numpy array is reduced to its
    element type's name and its length. */
module AudioValidator {
  import opened Wrappers
  import Text

  datatype AudioData =
    | Bytes(data: seq<Text.byte>)
    | Samples(dtype: string, length: nat)
    | Unsupported

  /** `validate_audio_format`: only "pcm16" is ever accepted; raw bytes must
      split into whole two-byte samples, and an array must hold 16-bit
      integers or 32-bit floats. */
  function ValidateAudioFormat(audio: AudioData, expectedFormat: string): (ok: bool)
    ensures ok ==> expectedFormat == "pcm16" && !audio.Unsupported?
    ensures expectedFormat == "pcm16" && audio.Bytes? ==> (ok <==> |audio.data| % 2 == 0)
    ensures expectedFormat == "pcm16" && audio.Samples? ==> (ok <==> audio.dtype == "int16" || audio.dtype == "float32")
  {
    if expectedFormat == "pcm16" then
      match audio
      case Bytes(data) => |data| % 2 == 0
      case Samples(dtype, _) => dtype == "int16" || dtype == "float32"
      case Unsupported => false
    else false
  }

  /** `num_samples` of `estimate_audio_duration`: two bytes per sample for raw
      bytes, one per element for an array, nothing for any other input. */
  function SampleCount(audio: AudioData): (n: Option<nat>)
    ensures audio.Bytes? ==> n == Some(|audio.data| / 2)
    ensures audio.Samples? ==> n == Some(audio.length)
    ensures audio.Unsupported? <==> n.None?
  {
    match audio
    case Bytes(data) => Some(|data| / 2)
    case Samples(_, length) => Some(length)
    case Unsupported => None
  }

  /** Valid PCM16 bytes are exactly their samples, two bytes each. */
  lemma ValidBytesAreWholeSamples(data: seq<Text.byte>)
    requires ValidateAudioFormat(Bytes(data), "pcm16")
    ensures 2 * SampleCount(Bytes(data)).value == |data|
  {
  }

  /** `estimate_audio_duration` in exact arithmetic: samples over the rate; an
      unsupported input, and the division by a zero rate that the Python
      function catches, both give 0. */
  function EstimateDuration(audio: AudioData, sampleRate: int): (seconds: real)
    ensures SampleCount(audio).None? || sampleRate == 0 ==> seconds == 0.0
    ensures SampleCount(audio).Some? && sampleRate != 0 ==> seconds * (sampleRate as real) == SampleCount(audio).value as real
  {
    match SampleCount(audio)
    case None => 0.0
    case Some(n) => if sampleRate == 0 then 0.0 else (n as real) / (sampleRate as real)
  }
}

=== FILE: client_properties.dfy ===
/** Properties of the realtime client that span several server events: deltas
    accumulate in arrival order, unknown item ids change nothing, and a
    completed function call is answered exactly once, followed by exactly one
    response request, on every path through tool dispatch. */
module ClientProperties {
  import opened Wrappers
  import opened Json
  import Text
  import CM = ConversationManager
  import opened RealtimeClient
  import RealtimeConfig

  // ---------------------------------------------------------------- streaming deltas

  /** The three textual delta streams. */
  datatype Stream = TextStream | TranscriptStream | ArgumentsStream

  function DeltaEvent(s: Stream, id: string, d: string): ServerEvent {
    match s
    case TextStream => TextDelta(Some(id), Some(d))
    case TranscriptStream => TranscriptDelta(Some(id), Some(d))
    case ArgumentsStream => ArgumentsDelta(Some(id), Some(d))
  }

  function DeltaEvents(s: Stream, id: string, ds: seq<string>): seq<ServerEvent>
  {
    if ds == [] then [] else [DeltaEvent(s, id, ds[0])] + DeltaEvents(s, id, ds[1..])
  }

  /** What a stream has accumulated on an item; the argument accumulator reads
      as empty before its first delta. */
  function Accumulated(s: Stream, item: CM.Item): string {
    match s
    case TextStream => item.formatted.text
    case TranscriptStream => item.formatted.transcript
    case ArgumentsStream => item.formatted.arguments.GetOr("")
  }

  /** The conversation update one delta makes on `id`: an empty delta changes
      nothing, any other goes to its stream's accumulator. */
  function StreamUpdate(conv: CM.Conversation, s: Stream, id: string, d: string): CM.Conversation
    requires CM.Valid(conv)
  {
    if d == "" then conv
    else match s
      case TextStream => CM.UpdateText(conv, id, d).0
      case TranscriptStream => CM.UpdateTranscript(conv, id, d).0
      case ArgumentsStream => CM.AppendArguments(conv, id, d).0
  }

  /** A delta frame with an id changes the conversation by `StreamUpdate`. */
  lemma DeltaConversation(c: Client, s: Stream, id: string, d: string, rt: Runtime)
    requires Valid(c) && id != ""
    ensures HandleServerEvent(c, DeltaEvent(s, id, d), rt).conversation == StreamUpdate(c.conversation, s, id, d)
  {
    var ev := DeltaEvent(s, id, d);
    assert HandleServerEvent(c, ev, rt).conversation == OnDelta(c, ev, rt).conversation;
  }

  /** On a known id the update keeps the index and grows that item's stream. */
  lemma StreamUpdateGrows(conv: CM.Conversation, s: Stream, id: string, d: string)
    requires CM.Valid(conv) && id in conv.lookup
    ensures var r := StreamUpdate(conv, s, id, d);
      && CM.Valid(r) && r.lookup == conv.lookup && |r.items| == |conv.items|
      && Accumulated(s, CM.GetItem(r, id).value) == Accumulated(s, CM.GetItem(conv, id).value) + d
      && CM.GetItem(r, id).value.fields == CM.GetItem(conv, id).value.fields
      && (forall j :: 0 <= j < |conv.items| && j != conv.lookup[id] ==> r.items[j] == conv.items[j])
  {
    if d == "" {
      assert StreamUpdate(conv, s, id, d) == conv;
    }
  }

  /** One delta event on a known id grows that item's stream by the delta. */
  lemma DeltaStep(c: Client, s: Stream, id: string, d: string, rt: Runtime)
    requires Valid(c) && id != "" && id in c.conversation.lookup
    ensures var r := HandleServerEvent(c, DeltaEvent(s, id, d), rt);
      && r.conversation.lookup == c.conversation.lookup
      && Accumulated(s, CM.GetItem(r.conversation, id).value) == Accumulated(s, CM.GetItem(c.conversation, id).value) + d
  {
    DeltaConversation(c, s, id, d, rt);
    StreamUpdateGrows(c.conversation, s, id, d);
  }

  /** One delta event on a known id leaves every other item alone and sends nothing. */
  lemma DeltaStepFrame(c: Client, s: Stream, id: string, d: string, rt: Runtime)
    requires Valid(c) && id != "" && id in c.conversation.lookup
    ensures var r := HandleServerEvent(c, DeltaEvent(s, id, d), rt);
      && r.conversation.lookup == c.conversation.lookup
      && |r.conversation.items| == |c.conversation.items|
      && (forall j :: 0 <= j < |c.conversation.items| && j != c.conversation.lookup[id] ==>
            r.conversation.items[j] == c.conversation.items[j])
      && Outbound(r.trace) == Outbound(c.trace)
  {
    DeltaConversation(c, s, id, d, rt);
    StreamUpdateGrows(c.conversation, s, id, d);
  }


  /** Deltas for a known item touch only that item and send nothing. */
  lemma {:induction false} DeltasTouchOnlyTheirItem(c: Client, s: Stream, id: string, ds: seq<string>, rt: Runtime)
    requires Valid(c) && id != "" && id in c.conversation.lookup
    ensures var r := HandleAll(c, DeltaEvents(s, id, ds), rt);
      && r.conversation.lookup == c.conversation.lookup
      && |r.conversation.items| == |c.conversation.items|
      && (forall j :: 0 <= j < |c.conversation.items| && j != c.conversation.lookup[id] ==>
            r.conversation.items[j] == c.conversation.items[j])
      && Outbound(r.trace) == Outbound(c.trace)
    decreases |ds|
  {
    var evs := DeltaEvents(s, id, ds);
    if ds == [] {
      assert evs == [];
      assert HandleAll(c, evs, rt) == c;
    } else {
      var c1 := HandleServerEvent(c, evs[0], rt);
      DeltaStepFrame(c, s, id, ds[0], rt);
      assert evs[1..] == DeltaEvents(s, id, ds[1..]);
      DeltasTouchOnlyTheirItem(c1, s, id, ds[1..], rt);
      assert HandleAll(c, evs, rt) == HandleAll(c1, evs[1..], rt);
    }
  }

  /** Deltas for a known item, received in order, concatenate onto what the
      stream held before. */
  lemma {:induction false} DeltasConcatenate(c: Client, s: Stream, id: string, ds: seq<string>, rt: Runtime)
    requires Valid(c) && id != "" && id in c.conversation.lookup
    ensures var r := HandleAll(c, DeltaEvents(s, id, ds), rt);
      && r.conversation.lookup == c.conversation.lookup
      && Accumulated(s, CM.GetItem(r.conversation, id).value) == Accumulated(s, CM.GetItem(c.conversation, id).value) + CM.Concat(ds)
    decreases |ds|
  {
    if ds == [] {
      assert DeltaEvents(s, id, ds) == [];
    } else {
      var c1 := HandleServerEvent(c, DeltaEvent(s, id, ds[0]), rt);
      DeltaStep(c, s, id, ds[0], rt);
      DeltasConcatenate(c1, s, id, ds[1..], rt);
      ConcatenateStep(c, s, id, ds, rt);
    }
  }

  /** The inductive step of `DeltasConcatenate`, given the step for the tail. */
  lemma ConcatenateStep(c: Client, s: Stream, id: string, ds: seq<string>, rt: Runtime)
    requires Valid(c) && id != "" && id in c.conversation.lookup && ds != []
    requires var c1 := HandleServerEvent(c, DeltaEvent(s, id, ds[0]), rt);
      var r := HandleAll(c1, DeltaEvents(s, id, ds[1..]), rt);
      && c1.conversation.lookup == c.conversation.lookup
      && Accumulated(s, CM.GetItem(c1.conversation, id).value) == Accumulated(s, CM.GetItem(c.conversation, id).value) + ds[0]
      && r.conversation.lookup == c1.conversation.lookup
      && Accumulated(s, CM.GetItem(r.conversation, id).value) == Accumulated(s, CM.GetItem(c1.conversation, id).value) + CM.Concat(ds[1..])
    ensures var r := HandleAll(c, DeltaEvents(s, id, ds), rt);
      && r.conversation.lookup == c.conversation.lookup
      && Accumulated(s, CM.GetItem(r.conversation, id).value) == Accumulated(s, CM.GetItem(c.conversation, id).value) + CM.Concat(ds)
  {
    var evs := DeltaEvents(s, id, ds);
    assert evs[0] == DeltaEvent(s, id, ds[0]);
    assert evs[1..] == DeltaEvents(s, id, ds[1..]);
    var c1 := HandleServerEvent(c, evs[0], rt);
    var r := HandleAll(c1, evs[1..], rt);
    assert HandleAll(c, evs, rt) == r;
    var before := Accumulated(s, CM.GetItem(c.conversation, id).value);
    var middle := Accumulated(s, CM.GetItem(c1.conversation, id).value);
    assert middle == before + ds[0];
    ConcatUnfold(before, ds);
    assert HandleAll(c, DeltaEvents(s, id, ds), rt) == r;
  }

  lemma ConcatUnfold(before: string, ds: seq<string>)
    requires ds != []
    ensures (before + ds[0]) + CM.Concat(ds[1..]) == before + CM.Concat(ds)
  {
  }

  /** The audio chunks a run of audio deltas leaves on an item: the decoding of
      each non-empty delta, in order. */
  function DecodedChunks(ds: seq<string>, rt: Runtime): seq<seq<Text.byte>> {
    if ds == [] then [] else ChunkOf(ds[0], rt) + DecodedChunks(ds[1..], rt)
  }

  /** The chunk one audio delta contributes: none for an empty delta. */
  function ChunkOf(d: string, rt: Runtime): seq<seq<Text.byte>> {
    if d == "" then [] else [rt.decodeAudio(d)]
  }

  function AudioEvents(id: string, ds: seq<string>): seq<ServerEvent>
  {
    if ds == [] then [] else [AudioDelta(Some(id), Some(ds[0]))] + AudioEvents(id, ds[1..])
  }

  /** One audio delta on a known id: a non-empty delta appends its decoding. */
  lemma AudioStep(c: Client, id: string, d: string, rt: Runtime)
    requires Valid(c) && id != "" && id in c.conversation.lookup
    ensures var r := HandleServerEvent(c, AudioDelta(Some(id), Some(d)), rt);
      && r.conversation.lookup == c.conversation.lookup
      && CM.GetItem(r.conversation, id).value.formatted.audio ==
         CM.GetItem(c.conversation, id).value.formatted.audio + ChunkOf(d, rt)
  {
  }

  /** Audio deltas for a known item append their decoded chunks in arrival
      order; an empty delta is skipped. */
  lemma {:induction false} AudioDeltasAppendChunks(c: Client, id: string, ds: seq<string>, rt: Runtime)
    requires Valid(c) && id != "" && id in c.conversation.lookup
    ensures var r := HandleAll(c, AudioEvents(id, ds), rt);
      && r.conversation.lookup == c.conversation.lookup
      && CM.GetItem(r.conversation, id).value.formatted.audio ==
         CM.GetItem(c.conversation, id).value.formatted.audio + DecodedChunks(ds, rt)
    decreases |ds|
  {
    if ds == [] {
      assert AudioEvents(id, ds) == [];
    } else {
      var c1 := HandleServerEvent(c, AudioDelta(Some(id), Some(ds[0])), rt);
      AudioStep(c, id, ds[0], rt);
      AudioDeltasAppendChunks(c1, id, ds[1..], rt);
      AudioChunksStep(c, id, ds, rt);
    }
  }

  /** The inductive step of `AudioDeltasAppendChunks`, given the step for the tail. */
  lemma AudioChunksStep(c: Client, id: string, ds: seq<string>, rt: Runtime)
    requires Valid(c) && id != "" && id in c.conversation.lookup && ds != []
    requires var c1 := HandleServerEvent(c, AudioDelta(Some(id), Some(ds[0])), rt);
      var r := HandleAll(c1, AudioEvents(id, ds[1..]), rt);
      && c1.conversation.lookup == c.conversation.lookup
      && CM.GetItem(c1.conversation, id).value.formatted.audio ==
         CM.GetItem(c.conversation, id).value.formatted.audio + ChunkOf(ds[0], rt)
      && r.conversation.lookup == c1.conversation.lookup
      && CM.GetItem(r.conversation, id).value.formatted.audio ==
         CM.GetItem(c1.conversation, id).value.formatted.audio + DecodedChunks(ds[1..], rt)
    ensures var r := HandleAll(c, AudioEvents(id, ds), rt);
      && r.conversation.lookup == c.conversation.lookup
      && CM.GetItem(r.conversation, id).value.formatted.audio ==
         CM.GetItem(c.conversation, id).value.formatted.audio + DecodedChunks(ds, rt)
  {
    var evs := AudioEvents(id, ds);
    assert evs[0] == AudioDelta(Some(id), Some(ds[0]));
    assert evs[1..] == AudioEvents(id, ds[1..]);
    var c1 := HandleServerEvent(c, evs[0], rt);
    var r := HandleAll(c1, evs[1..], rt);
    assert HandleAll(c, evs, rt) == r;
    var before := CM.GetItem(c.conversation, id).value.formatted.audio;
    var first := ChunkOf(ds[0], rt);
    assert CM.GetItem(c1.conversation, id).value.formatted.audio == before + first;
    assert CM.GetItem(r.conversation, id).value.formatted.audio == (before + first) + DecodedChunks(ds[1..], rt);
    ChunksUnfold(before, ds, rt);
    assert HandleAll(c, AudioEvents(id, ds), rt) == r;
  }

  lemma ChunksUnfold(before: seq<seq<Text.byte>>, ds: seq<string>, rt: Runtime)
    requires ds != []
    ensures (before + ChunkOf(ds[0], rt)) + DecodedChunks(ds[1..], rt)
         == before + DecodedChunks(ds, rt)
  {
  }

  // ---------------------------------------------------------------- unknown ids

  /** A delta whose item id is missing or unknown leaves the conversation as it
      was and sends nothing. Text, transcript and audio deltas with content are
      still announced, with no item; argument deltas are not. */
  lemma UnknownItemDeltaChangesNothing(c: Client, ev: ServerEvent, rt: Runtime)
    requires Valid(c) && IsDelta(ev)
    requires ev.itemId.None? || ev.itemId.value !in c.conversation.lookup
    ensures var r := HandleServerEvent(c, ev, rt);
      && r.conversation == c.conversation
      && Outbound(r.trace) == Outbound(c.trace)
      && r.trace[..|c.trace|] == c.trace
      && (ev.ArgumentsDelta? || !Text.Truthy(ev.itemId) || !Text.Truthy(ev.delta) ==>
            r.trace == c.trace + [Emitted("server." + ServerType(ev), ServerPayload(ev))])
  {
    var d := OnDelta(c, ev, rt);
    assert Dispatch(c, ev, rt) == d;
    if ev.ArgumentsDelta? || !Text.Truthy(ev.itemId) || !Text.Truthy(ev.delta) {
      assert d == c;
    }
  }

  /** A created item without a usable id is refused; one whose content cannot
      be formatted raises, so the frame changes nothing and emits nothing; any
      other joins the end of the list and its id now finds it. */
  lemma ItemCreatedAppends(c: Client, raw: CM.RawItem, rt: Runtime)
    requires Valid(c)
    ensures var r := HandleServerEvent(c, ItemCreated(Some(raw)), rt);
      && (!Text.Truthy(raw.id) ==> r.conversation == c.conversation)
      && (Text.Truthy(raw.id) && !CM.Formattable(raw) ==> r == c)
      && (Text.Truthy(raw.id) && CM.Formattable(raw) ==>
            && r.conversation.items == c.conversation.items + [CM.Formatting(raw)]
            && CM.GetItem(r.conversation, raw.id.value) == Some(CM.Formatting(raw)))
  {
    var added := CM.AddItem(c.conversation, raw);
    if Text.Truthy(raw.id) && CM.Formattable(raw) {
      assert added.value.1 == Some(CM.Formatting(raw));
    }
  }

  /** The created item is announced as a `conversation.updated` with no delta,
      before the raw event is re-emitted. */
  lemma ItemCreatedAnnounced(c: Client, raw: CM.RawItem, rt: Runtime)
    requires Valid(c) && Text.Truthy(raw.id) && CM.Formattable(raw)
    ensures HandleServerEvent(c, ItemCreated(Some(raw)), rt).trace ==
      c.trace + [Emitted("conversation.updated", Updated(Some(CM.Formatting(raw)), NoDelta)),
                 Emitted("server." + ServerType(ItemCreated(Some(raw))), ServerPayload(ItemCreated(Some(raw))))]
  {
    var ev := ItemCreated(Some(raw));
    var added := CM.AddItem(c.conversation, raw);
    assert added.value.1 == Some(CM.Formatting(raw));
    var notice := Emitted("conversation.updated", Updated(added.value.1, NoDelta));
    assert Dispatch(c, ev, rt).trace == c.trace + [notice];
    SnocSnoc(c.trace, notice, Emitted("server." + ServerType(ev), ServerPayload(ev)));
  }

  /** A `null` content list, or a text part whose text is `null`, makes
      `add_item` raise: the item is not stored, neither `conversation.updated`
      nor `server.conversation.item.created` is emitted, and the client is as
      it was. */
  lemma NullContentIgnored(c: Client, rt: Runtime)
    requires Valid(c)
    ensures var raw := CM.RawItem(Some("a"), None, None, None, None, CM.NullEntry, None);
      && CM.AddItem(c.conversation, raw) == Failure(CM.ContentNotIterable)
      && HandleServerEvent(c, ItemCreated(Some(raw)), rt) == c
    ensures var raw := CM.RawItem(Some("a"), None, None, None, None, CM.Present([CM.ContentPart(Some("text"), CM.NullEntry)]), None);
      && CM.AddItem(c.conversation, raw) == Failure(CM.TextNotString)
      && HandleServerEvent(c, ItemCreated(Some(raw)), rt) == c
  {
  }

  lemma SnocSnoc<T>(a: seq<T>, x: T, y: T)
    ensures (a + [x]) + [y] == a + [x, y]
  {
  }

  // ---------------------------------------------------------------- function calls

  /** `response.output_item.done` for a known function-call item on an open
      socket: the item is completed, then exactly one `function_call_output`
      under its call id and exactly one `response.create` go out. */
  lemma FunctionCallAnsweredOnce(c: Client, raw: CM.RawItem, rt: Runtime)
    requires Valid(c) && c.connected
    requires raw.id.Some? && raw.id.value in c.conversation.lookup
    requires CM.GetItem(c.conversation, raw.id.value).value.fields.kind == Some("function_call")
    ensures var r := HandleServerEvent(c, OutputItemDone(Some(raw)), rt);
      var stored := CM.GetItem(c.conversation, raw.id.value).value;
      var done := stored.(fields := stored.fields.(status := Some("completed")));
      && CM.GetItem(r.conversation, raw.id.value) == Some(done)
      && Outbound(r.trace) == Outbound(c.trace) + [FunctionCallOutput(stored.fields.callId, CallOutput(c.tools, done, rt)), ResponseCreate]
  {
  }

  /** A repeated completion frame for the same function-call item runs the
      call again: the same output and `response.create` go out a second time. */
  lemma RepeatedCompletionAnswersAgain(c: Client, raw: CM.RawItem, rt: Runtime)
    requires Valid(c) && c.connected
    requires raw.id.Some? && raw.id.value in c.conversation.lookup
    requires CM.GetItem(c.conversation, raw.id.value).value.fields.kind == Some("function_call")
    ensures var ev := OutputItemDone(Some(raw));
      var r := HandleServerEvent(HandleServerEvent(c, ev, rt), ev, rt);
      var stored := CM.GetItem(c.conversation, raw.id.value).value;
      var answer := FunctionCallOutput(stored.fields.callId, CallOutput(c.tools, stored.(fields := stored.fields.(status := Some("completed"))), rt));
      Outbound(r.trace) == Outbound(c.trace) + [answer, ResponseCreate, answer, ResponseCreate]
  {
    var ev := OutputItemDone(Some(raw));
    var id := raw.id.value;
    var c1 := HandleServerEvent(c, ev, rt);
    var r := HandleServerEvent(c1, ev, rt);
    var stored := CM.GetItem(c.conversation, id).value;
    var done := stored.(fields := stored.fields.(status := Some("completed")));
    var answer := FunctionCallOutput(stored.fields.callId, CallOutput(c.tools, done, rt));
    FunctionCallAnsweredOnce(c, raw, rt);
    assert c1.connected && c1.tools == c.tools;
    assert CM.GetItem(c1.conversation, id) == Some(done);
    assert done.(fields := done.fields.(status := Some("completed"))) == done;
    FunctionCallAnsweredOnce(c1, raw, rt);
    assert Outbound(r.trace) == Outbound(c1.trace) + [answer, ResponseCreate];
    PairTwice(Outbound(c.trace), answer, ResponseCreate);
  }

  lemma PairTwice<T>(a: seq<T>, x: T, y: T)
    ensures (a + [x, y]) + [x, y] == a + [x, y, x, y]
  {
  }

  /** Any other completion sends nothing: an unknown item, an item that is not
      a function call, or a closed socket. */
  lemma OtherCompletionSendsNothing(c: Client, item: Option<CM.RawItem>, rt: Runtime)
    requires Valid(c)
    requires || !c.connected
             || item.None? || item.value.id.None? || item.value.id.value !in c.conversation.lookup
             || CM.GetItem(c.conversation, item.value.id.value).value.fields.kind != Some("function_call")
    ensures Outbound(HandleServerEvent(c, OutputItemDone(item), rt).trace) == Outbound(c.trace)
  {
  }

  /** A function-call item that never received an argument delta is
      dispatched with the argument text `{}`. */
  lemma MissingArgumentsReadAsEmptyObject(item: CM.Item)
    requires item.formatted.arguments.None?
    ensures ArgumentText(item) == "{}"
  {
  }

  /** `response.output_item.done` for a known item marks it completed, changes
      nothing else about it, and announces it as `conversation.item.completed`
      before anything else happens. */
  lemma CompletionMarksItem(c: Client, raw: CM.RawItem, rt: Runtime)
    requires Valid(c) && raw.id.Some? && raw.id.value in c.conversation.lookup
    ensures var r := HandleServerEvent(c, OutputItemDone(Some(raw)), rt);
      var stored := CM.GetItem(c.conversation, raw.id.value).value;
      var done := stored.(fields := stored.fields.(status := Some("completed")));
      && r.conversation.lookup == c.conversation.lookup
      && |r.conversation.items| == |c.conversation.items|
      && CM.GetItem(r.conversation, raw.id.value) == Some(done)
      && |r.trace| > |c.trace|
      && r.trace[|c.trace|] == Emitted("conversation.item.completed", Completed(done))
  {
  }

  // ---------------------------------------------------------------- whole items

  /** A delta event on a known id leaves the item's own fields alone. */
  lemma DeltaStepKeepsFields(c: Client, s: Stream, id: string, d: string, rt: Runtime)
    requires Valid(c) && id != "" && id in c.conversation.lookup
    ensures CM.GetItem(HandleServerEvent(c, DeltaEvent(s, id, d), rt).conversation, id).value.fields ==
            CM.GetItem(c.conversation, id).value.fields
  {
    DeltaConversation(c, s, id, d, rt);
    StreamUpdateGrows(c.conversation, s, id, d);
  }

  /** Deltas on a known id leave the item's own fields alone. */
  lemma {:induction false} DeltasKeepFields(c: Client, s: Stream, id: string, ds: seq<string>, rt: Runtime)
    requires Valid(c) && id != "" && id in c.conversation.lookup
    ensures id in HandleAll(c, DeltaEvents(s, id, ds), rt).conversation.lookup
    ensures CM.GetItem(HandleAll(c, DeltaEvents(s, id, ds), rt).conversation, id).value.fields ==
            CM.GetItem(c.conversation, id).value.fields
    decreases |ds|
  {
    DeltasTouchOnlyTheirItem(c, s, id, ds, rt);
    var evs := DeltaEvents(s, id, ds);
    if ds == [] {
      assert evs == [];
    } else {
      var c1 := HandleServerEvent(c, evs[0], rt);
      DeltaStepKeepsFields(c, s, id, ds[0], rt);
      DeltaStepFrame(c, s, id, ds[0], rt);
      assert evs[1..] == DeltaEvents(s, id, ds[1..]);
      DeltasKeepFields(c1, s, id, ds[1..], rt);
      assert HandleAll(c, evs, rt) == HandleAll(c1, evs[1..], rt);
    }
  }

  /** An item created and then streamed: it sits at the end of the list under
      its id, keeps the fields it was created with, its stream holds the
      created value followed by every delta, and nothing was sent. */
  lemma StreamedItem(c: Client, raw: CM.RawItem, s: Stream, ds: seq<string>, rt: Runtime)
    requires Valid(c) && Text.Truthy(raw.id) && CM.Formattable(raw)
    ensures var id := raw.id.value;
      var r := HandleAll(c, [ItemCreated(Some(raw))] + DeltaEvents(s, id, ds), rt);
      && r.conversation.lookup == c.conversation.lookup[id := |c.conversation.items|]
      && |r.conversation.items| == |c.conversation.items| + 1
      && CM.GetItem(r.conversation, id).value.fields == raw
      && Accumulated(s, CM.GetItem(r.conversation, id).value) == Accumulated(s, CM.Formatting(raw)) + CM.Concat(ds)
      && Outbound(r.trace) == Outbound(c.trace)
  {
    var id := raw.id.value;
    var e1 := ItemCreated(Some(raw));
    var c1 := HandleServerEvent(c, e1, rt);
    assert HandleAll(c, [e1], rt) == c1;
    ItemCreatedAppends(c, raw, rt);
    assert c1.conversation.lookup == c.conversation.lookup[id := |c.conversation.items|];
    HandleAllAppend(c, [e1], DeltaEvents(s, id, ds), rt);
    DeltasConcatenate(c1, s, id, ds, rt);
    DeltasKeepFields(c1, s, id, ds, rt);
    DeltasTouchOnlyTheirItem(c1, s, id, ds, rt);
  }

  /** The receive loop's last step, split off. */
  lemma HandleAllSnoc(c: Client, events: seq<ServerEvent>, ev: ServerEvent, rt: Runtime)
    requires Valid(c)
    ensures HandleAll(c, events + [ev], rt) == HandleServerEvent(HandleAll(c, events, rt), ev, rt)
  {
    var last := HandleAll(c, events, rt);
    HandleAllAppend(c, events, [ev], rt);
    assert HandleAll(last, [ev], rt) == HandleServerEvent(last, ev, rt);
  }

  /** Finishing the newest item, when it is not a function call, makes it the
      completed newest history entry and sends nothing. */
  lemma FinishNewest(c: Client, raw: CM.RawItem, rt: Runtime)
    requires Valid(c) && Known(c, Some(raw))
    requires c.conversation.lookup[raw.id.value] == |c.conversation.items| - 1
    requires CM.GetItem(c.conversation, raw.id.value).value.fields.kind != Some("function_call")
    ensures var r := HandleServerEvent(c, OutputItemDone(Some(raw)), rt);
      && CM.History(r.conversation, 1) == [Done(CM.GetItem(c.conversation, raw.id.value).value)]
      && Outbound(r.trace) == Outbound(c.trace)
  {
    var r := HandleServerEvent(c, OutputItemDone(Some(raw)), rt);
    CompletionMarksItem(c, raw, rt);
    OtherCompletionSendsNothing(c, Some(raw), rt);
    assert r.conversation.items[|c.conversation.items| - 1] == CM.GetItem(r.conversation, raw.id.value).value;
  }

  /** A streamed message that the server then finishes: the newest history
      entry is that message, completed, holding its created text followed by
      every text delta, and nothing was sent in reply. */
  lemma StreamedMessageCompletes(c: Client, raw: CM.RawItem, ds: seq<string>, rt: Runtime)
    requires Valid(c) && Text.Truthy(raw.id) && CM.Formattable(raw) && raw.kind != Some("function_call")
    ensures var id := raw.id.value;
      var r := HandleAll(c, [ItemCreated(Some(raw))] + DeltaEvents(TextStream, id, ds) + [OutputItemDone(Some(raw))], rt);
      var h := CM.History(r.conversation, 1);
      && |h| == 1
      && h[0].fields == raw.(status := Some("completed"))
      && h[0].formatted.text == CM.InlineText(CM.Parts(raw)) + CM.Concat(ds)
      && Outbound(r.trace) == Outbound(c.trace)
  {
    var streamed := [ItemCreated(Some(raw))] + DeltaEvents(TextStream, raw.id.value, ds);
    StreamedItem(c, raw, TextStream, ds, rt);
    HandleAllSnoc(c, streamed, OutputItemDone(Some(raw)), rt);
    FinishNewest(HandleAll(c, streamed, rt), raw, rt);
  }

  /** A streamed function call that the server then finishes on an open
      socket: the item is completed with every argument delta in order, and
      exactly one output for its call id and one response request go out. */
  lemma StreamedCallAnswered(c: Client, raw: CM.RawItem, ds: seq<string>, rt: Runtime)
    requires Valid(c) && c.connected && Text.Truthy(raw.id) && CM.Formattable(raw) && raw.kind == Some("function_call")
    requires CM.Concat(ds) != ""
    ensures var id := raw.id.value;
      var r := HandleAll(c, [ItemCreated(Some(raw))] + DeltaEvents(ArgumentsStream, id, ds) + [OutputItemDone(Some(raw))], rt);
      && id in r.conversation.lookup
      && CM.GetItem(r.conversation, id).value.fields == raw.(status := Some("completed"))
      && ArgumentText(CM.GetItem(r.conversation, id).value) == CM.Concat(ds)
      && Outbound(r.trace) ==
         Outbound(c.trace) + [FunctionCallOutput(raw.callId, CallOutput(c.tools, CM.GetItem(r.conversation, id).value, rt)), ResponseCreate]
  {
    var id := raw.id.value;
    var streamed := [ItemCreated(Some(raw))] + DeltaEvents(ArgumentsStream, id, ds);
    var c2 := HandleAll(c, streamed, rt);
    StreamedItem(c, raw, ArgumentsStream, ds, rt);
    var stored := CM.GetItem(c2.conversation, id).value;
    assert stored.formatted.arguments.GetOr("") == CM.Concat(ds);
    HandleAllSnoc(c, streamed, OutputItemDone(Some(raw)), rt);
    FunctionCallAnsweredOnce(c2, raw, rt);
  }

  // ---------------------------------------------------------------- interleaved frames

  /** Whether `ev` is a delta of stream `s`. */
  predicate InStream(s: Stream, ev: ServerEvent) {
    match s
    case TextStream => ev.TextDelta?
    case TranscriptStream => ev.TranscriptDelta?
    case ArgumentsStream => ev.ArgumentsDelta?
  }

  /** The delta one frame carries for stream `s` of item `id`, if any. */
  function DeltaFor(s: Stream, id: string, ev: ServerEvent): seq<string> {
    if InStream(s, ev) && ev.itemId == Some(id) && ev.delta.Some? then [ev.delta.value] else []
  }

  /** The deltas of stream `s` addressed to `id`, picked out of any run of
      frames in arrival order. */
  function StreamDeltas(s: Stream, id: string, evs: seq<ServerEvent>): seq<string>
    decreases |evs|
  {
    if evs == [] then [] else DeltaFor(s, id, evs[0]) + StreamDeltas(s, id, evs[1..])
  }

  /** The audio delta one frame carries for item `id`, if any. */
  function AudioFor(id: string, ev: ServerEvent): seq<string> {
    if ev.AudioDelta? && ev.itemId == Some(id) && ev.delta.Some? then [ev.delta.value] else []
  }

  /** The audio deltas addressed to `id`, picked out of any run of frames. */
  function AudioDeltasFor(id: string, evs: seq<ServerEvent>): seq<string>
    decreases |evs|
  {
    if evs == [] then [] else AudioFor(id, evs[0]) + AudioDeltasFor(id, evs[1..])
  }

  /** A frame that would create a second item under `id`, re-pointing the
      index; a creation whose content raises stores nothing and is not one. */
  predicate CreatesItem(id: string, ev: ServerEvent) {
    ev.ItemCreated? && ev.item.Some? && ev.item.value.id == Some(id) && CM.Formattable(ev.item.value)
  }

  /** How a run of frames changes one item: every stream grows by exactly the
      deltas addressed to it, and of the item's own fields only the status may
      change. */
  ghost predicate ItemRun(before: CM.Item, after: CM.Item, id: string, evs: seq<ServerEvent>, rt: Runtime) {
    && (forall s :: Accumulated(s, after) == Accumulated(s, before) + CM.Concat(StreamDeltas(s, id, evs)))
    && after.formatted.audio == before.formatted.audio + DecodedChunks(AudioDeltasFor(id, evs), rt)
    && after.fields.(status := before.fields.status) == before.fields
  }

  /** `ItemRun` for one frame. */
  ghost predicate ItemStep(before: CM.Item, after: CM.Item, id: string, ev: ServerEvent, rt: Runtime) {
    && (forall s :: Accumulated(s, after) == Accumulated(s, before) + CM.Concat(DeltaFor(s, id, ev)))
    && after.formatted.audio == before.formatted.audio + DecodedChunks(AudioFor(id, ev), rt)
    && after.fields.(status := before.fields.status) == before.fields
  }

  /** Two different indexed ids sit at different positions. */
  lemma DistinctPositions(c: CM.Conversation, id: string, other: string)
    requires CM.Valid(c) && id in c.lookup && other in c.lookup && other != id
    ensures c.lookup[other] != c.lookup[id]
  {
    assert c.items[c.lookup[other]].fields.id == Some(other);
  }

  /** A frame that carries no non-empty delta for `id` adds nothing to its streams. */
  lemma NoContribution(item: CM.Item, id: string, ev: ServerEvent, rt: Runtime)
    requires IsDelta(ev)
    requires ev.itemId == Some(id) ==> !Text.Truthy(ev.delta)
    ensures ItemStep(item, item, id, ev, rt)
  {
    forall s: Stream
      ensures Accumulated(s, item) == Accumulated(s, item) + CM.Concat(DeltaFor(s, id, ev))
    {
      if DeltaFor(s, id, ev) == [] {
        assert Accumulated(s, item) + CM.Concat([]) == Accumulated(s, item);
      } else {
        assert DeltaFor(s, id, ev) == [""];
        assert Accumulated(s, item) + CM.Concat([""]) == Accumulated(s, item);
      }
    }
    if AudioFor(id, ev) != [] {
      assert AudioFor(id, ev) == [""];
      assert DecodedChunks([""], rt) == [];
    }
  }

  /** A non-empty delta for `id` grows exactly the stream of its kind. */
  lemma AppliedContribution(before: CM.Item, after: CM.Item, id: string, ev: ServerEvent, rt: Runtime)
    requires IsDelta(ev) && ev.itemId == Some(id) && Text.Truthy(ev.delta)
    requires after.fields == before.fields
    requires ev.TextDelta? ==> after.formatted == before.formatted.(text := before.formatted.text + ev.delta.value)
    requires ev.TranscriptDelta? ==> after.formatted == before.formatted.(transcript := before.formatted.transcript + ev.delta.value)
    requires ev.ArgumentsDelta? ==>
      after.formatted == before.formatted.(arguments := Some(before.formatted.arguments.GetOr("") + ev.delta.value))
    requires ev.AudioDelta? ==> after.formatted == before.formatted.(audio := before.formatted.audio + [rt.decodeAudio(ev.delta.value)])
    ensures ItemStep(before, after, id, ev, rt)
  {
    var d := ev.delta.value;
    assert CM.Concat([d]) == d;
    assert ChunkOf(d, rt) == [rt.decodeAudio(d)];
    forall s: Stream
      ensures Accumulated(s, after) == Accumulated(s, before) + CM.Concat(DeltaFor(s, id, ev))
    {
      if DeltaFor(s, id, ev) == [] {
        assert Accumulated(s, before) + CM.Concat([]) == Accumulated(s, before);
      }
    }
  }

  /** A delta frame changes item `id` only by the delta it carries for it. */
  lemma DeltaFrameStep(c: Client, id: string, ev: ServerEvent, rt: Runtime)
    requires Valid(c) && id != "" && id in c.conversation.lookup && IsDelta(ev)
    ensures var r := OnDelta(c, ev, rt);
      && r.conversation.lookup == c.conversation.lookup
      && ItemStep(CM.GetItem(c.conversation, id).value, CM.GetItem(r.conversation, id).value, id, ev, rt)
  {
    var r := OnDelta(c, ev, rt);
    var k := c.conversation.lookup[id];
    var before := CM.GetItem(c.conversation, id).value;
    if !Text.Truthy(ev.itemId) || !Text.Truthy(ev.delta) {
      assert r.conversation == c.conversation;
      NoContribution(before, id, ev, rt);
    } else if ev.itemId.value == id {
      AppliedContribution(before, CM.GetItem(r.conversation, id).value, id, ev, rt);
    } else {
      var other := ev.itemId.value;
      if other in c.conversation.lookup {
        DistinctPositions(c.conversation, id, other);
      }
      assert r.conversation.items[k] == c.conversation.items[k];
      NoContribution(before, id, ev, rt);
    }
  }

  /** A frame that is not a delta, and changes at most the item's status,
      makes the item's step. */
  lemma StatusOnlyStep(before: CM.Item, after: CM.Item, id: string, ev: ServerEvent, rt: Runtime)
    requires !IsDelta(ev)
    requires after.formatted == before.formatted
    requires after.fields.(status := before.fields.status) == before.fields
    ensures ItemStep(before, after, id, ev, rt)
  {
    forall s: Stream
      ensures Accumulated(s, after) == Accumulated(s, before) + CM.Concat(DeltaFor(s, id, ev))
    {
      assert Accumulated(s, before) + CM.Concat([]) == Accumulated(s, before);
    }
  }

  /** Completing a different item leaves item `id` where and as it was. */
  lemma OtherItemDone(c: Client, id: string, raw: Option<CM.RawItem>, rt: Runtime)
    requires Valid(c) && id in c.conversation.lookup && Known(c, raw) && raw.value.id.value != id
    ensures var r := HandleOutputItemDone(c, raw, rt);
      r.conversation.items[c.conversation.lookup[id]] == c.conversation.items[c.conversation.lookup[id]]
  {
    var other := raw.value.id.value;
    DistinctPositions(c.conversation, id, other);
    assert HandleOutputItemDone(c, raw, rt).conversation == CompleteItem(c, other).conversation;
  }

  /** Completing any item changes item `id` at most in its status. */
  lemma DoneFrameStep(c: Client, id: string, raw: Option<CM.RawItem>, rt: Runtime)
    requires Valid(c) && id in c.conversation.lookup
    ensures var r := HandleOutputItemDone(c, raw, rt);
      && r.conversation.lookup == c.conversation.lookup
      && ItemStep(CM.GetItem(c.conversation, id).value, CM.GetItem(r.conversation, id).value, id, OutputItemDone(raw), rt)
  {
    var r := HandleOutputItemDone(c, raw, rt);
    var before := CM.GetItem(c.conversation, id).value;
    var after := CM.GetItem(r.conversation, id).value;
    if !Known(c, raw) {
      assert after == before;
    } else if raw.value.id.value == id {
      assert after == Done(before);
    } else {
      OtherItemDone(c, id, raw, rt);
      assert after == before;
    }
    StatusOnlyStep(before, after, id, OutputItemDone(raw), rt);
  }

  /** Any other frame, unless it creates another item under `id`, leaves item
      `id` and its place in the index alone. */
  lemma NoticeFrameStep(c: Client, id: string, ev: ServerEvent, rt: Runtime)
    requires Valid(c) && id in c.conversation.lookup && !IsDelta(ev) && !ev.OutputItemDone? && !CreatesItem(id, ev)
    ensures var r := OnNotice(c, ev);
      && id in r.conversation.lookup && r.conversation.lookup[id] == c.conversation.lookup[id]
      && ItemStep(CM.GetItem(c.conversation, id).value, CM.GetItem(r.conversation, id).value, id, ev, rt)
  {
    var r := OnNotice(c, ev);
    var k := c.conversation.lookup[id];
    if ev.ItemCreated? && ev.item.Some? {
      assert r.conversation.items[k] == c.conversation.items[k];
    }
    StatusOnlyStep(CM.GetItem(c.conversation, id).value, CM.GetItem(r.conversation, id).value, id, ev, rt);
  }

  /** One frame of any kind, other than a second creation of `id`. */
  lemma FrameStep(c: Client, id: string, ev: ServerEvent, rt: Runtime)
    requires Valid(c) && id != "" && id in c.conversation.lookup && !CreatesItem(id, ev)
    ensures var r := HandleServerEvent(c, ev, rt);
      && id in r.conversation.lookup && r.conversation.lookup[id] == c.conversation.lookup[id]
      && ItemStep(CM.GetItem(c.conversation, id).value, CM.GetItem(r.conversation, id).value, id, ev, rt)
  {
    if IsDelta(ev) {
      DeltaFrameStep(c, id, ev, rt);
    } else if ev.OutputItemDone? {
      DoneFrameStep(c, id, ev.item, rt);
    } else {
      NoticeFrameStep(c, id, ev, rt);
      assert Dispatch(c, ev, rt) == OnNotice(c, ev);
    }
  }

  lemma {:induction false} ConcatAppend(a: seq<string>, b: seq<string>)
    ensures CM.Concat(a + b) == CM.Concat(a) + CM.Concat(b)
    decreases |a|
  {
    if a == [] {
      assert a + b == b;
    } else {
      assert (a + b)[1..] == a[1..] + b;
      ConcatAppend(a[1..], b);
    }
  }

  lemma {:induction false} DecodedChunksAppend(a: seq<string>, b: seq<string>, rt: Runtime)
    ensures DecodedChunks(a + b, rt) == DecodedChunks(a, rt) + DecodedChunks(b, rt)
    decreases |a|
  {
    if a == [] {
      assert a + b == b;
    } else {
      assert (a + b)[1..] == a[1..] + b;
      DecodedChunksAppend(a[1..], b, rt);
    }
  }

  /** A first frame's step followed by the rest's run is the whole run. */
  lemma ItemRunCons(before: CM.Item, mid: CM.Item, after: CM.Item, id: string, evs: seq<ServerEvent>, rt: Runtime)
    requires evs != []
    requires ItemStep(before, mid, id, evs[0], rt) && ItemRun(mid, after, id, evs[1..], rt)
    ensures ItemRun(before, after, id, evs, rt)
  {
    forall s: Stream
      ensures Accumulated(s, after) == Accumulated(s, before) + CM.Concat(StreamDeltas(s, id, evs))
    {
      assert StreamDeltas(s, id, evs) == DeltaFor(s, id, evs[0]) + StreamDeltas(s, id, evs[1..]);
      ConcatThrough(Accumulated(s, before), Accumulated(s, mid), Accumulated(s, after),
                    DeltaFor(s, id, evs[0]), StreamDeltas(s, id, evs[1..]));
    }
    DecodedChunksAppend(AudioFor(id, evs[0]), AudioDeltasFor(id, evs[1..]), rt);
  }

  /** Growing by one run of deltas and then by another is growing by both. */
  lemma ConcatThrough(x: string, y: string, z: string, first: seq<string>, rest: seq<string>)
    requires y == x + CM.Concat(first) && z == y + CM.Concat(rest)
    ensures z == x + CM.Concat(first + rest)
  {
    var a, b := CM.Concat(first), CM.Concat(rest);
    ConcatAppend(first, rest);
    assert (x + a) + b == x + (a + b);
  }

  /** Any run of frames that does not create a second item under `id`, with
      text, transcript, audio and argument deltas for `id` interleaved with
      each other and with other items' frames: the item keeps its place in the
      index, each of its streams grows by exactly the deltas addressed to it
      in arrival order, and of its own fields only the status may change. */
  lemma {:induction false} InterleavedStreams(c: Client, id: string, evs: seq<ServerEvent>, rt: Runtime)
    requires Valid(c) && id != "" && id in c.conversation.lookup
    requires forall i :: 0 <= i < |evs| ==> !CreatesItem(id, evs[i])
    ensures id in HandleAll(c, evs, rt).conversation.lookup
    ensures HandleAll(c, evs, rt).conversation.lookup[id] == c.conversation.lookup[id]
    ensures var before := CM.GetItem(c.conversation, id).value;
      var after := CM.GetItem(HandleAll(c, evs, rt).conversation, id).value;
      && after.formatted.text == before.formatted.text + CM.Concat(StreamDeltas(TextStream, id, evs))
      && after.formatted.transcript == before.formatted.transcript + CM.Concat(StreamDeltas(TranscriptStream, id, evs))
      && after.formatted.arguments.GetOr("") == before.formatted.arguments.GetOr("") + CM.Concat(StreamDeltas(ArgumentsStream, id, evs))
      && after.formatted.audio == before.formatted.audio + DecodedChunks(AudioDeltasFor(id, evs), rt)
      && after.fields.(status := before.fields.status) == before.fields
    decreases |evs|
  {
    InterleavedRun(c, id, evs, rt);
    ItemRunSpelledOut(CM.GetItem(c.conversation, id).value, CM.GetItem(HandleAll(c, evs, rt).conversation, id).value, id, evs, rt);
  }

  lemma ItemRunSpelledOut(before: CM.Item, after: CM.Item, id: string, evs: seq<ServerEvent>, rt: Runtime)
    requires ItemRun(before, after, id, evs, rt)
    ensures after.formatted.text == before.formatted.text + CM.Concat(StreamDeltas(TextStream, id, evs))
    ensures after.formatted.transcript == before.formatted.transcript + CM.Concat(StreamDeltas(TranscriptStream, id, evs))
    ensures after.formatted.arguments.GetOr("") == before.formatted.arguments.GetOr("") + CM.Concat(StreamDeltas(ArgumentsStream, id, evs))
  {
    assert Accumulated(TextStream, after) == Accumulated(TextStream, before) + CM.Concat(StreamDeltas(TextStream, id, evs));
    assert Accumulated(TranscriptStream, after) == Accumulated(TranscriptStream, before) + CM.Concat(StreamDeltas(TranscriptStream, id, evs));
    assert Accumulated(ArgumentsStream, after) == Accumulated(ArgumentsStream, before) + CM.Concat(StreamDeltas(ArgumentsStream, id, evs));
  }

  /** `InterleavedStreams`, stated through `ItemRun`. */
  lemma {:induction false} InterleavedRun(c: Client, id: string, evs: seq<ServerEvent>, rt: Runtime)
    requires Valid(c) && id != "" && id in c.conversation.lookup
    requires forall i :: 0 <= i < |evs| ==> !CreatesItem(id, evs[i])
    ensures id in HandleAll(c, evs, rt).conversation.lookup
    ensures HandleAll(c, evs, rt).conversation.lookup[id] == c.conversation.lookup[id]
    ensures ItemRun(CM.GetItem(c.conversation, id).value, CM.GetItem(HandleAll(c, evs, rt).conversation, id).value, id, evs, rt)
    decreases |evs|
  {
    var before := CM.GetItem(c.conversation, id).value;
    if evs == [] {
      forall s: Stream
        ensures Accumulated(s, before) == Accumulated(s, before) + CM.Concat(StreamDeltas(s, id, evs))
      {
        assert Accumulated(s, before) + CM.Concat([]) == Accumulated(s, before);
      }
      assert before.formatted.audio + DecodedChunks([], rt) == before.formatted.audio;
    } else {
      var c1 := HandleServerEvent(c, evs[0], rt);
      FrameStep(c, id, evs[0], rt);
      InterleavedRun(c1, id, evs[1..], rt);
      assert HandleAll(c, evs, rt) == HandleAll(c1, evs[1..], rt);
      ItemRunCons(before, CM.GetItem(c1.conversation, id).value,
                  CM.GetItem(HandleAll(c, evs, rt).conversation, id).value, id, evs, rt);
    }
  }

  // ---------------------------------------------------------------- scenarios

  /** An assistant message streamed as "Hi" and " there!" and then completed:
      the newest history entry reads "Hi there!" with status completed, and
      the client sends nothing in response. */
  lemma HelloThereScenario(config: RealtimeConfig.Config, rt: Runtime)
    ensures var raw := CM.RawItem(Some("msg_1"), Some("message"), Some("assistant"), None, None, CM.Present([]), None);
      var events := [ItemCreated(Some(raw)), TextDelta(Some("msg_1"), Some("Hi")),
                     TextDelta(Some("msg_1"), Some(" there!")), OutputItemDone(Some(raw))];
      var r := HandleAll(New(config).(connected := true), events, rt);
      var h := CM.History(r.conversation, 1);
      && |h| == 1
      && h[0].formatted.text == "Hi there!"
      && h[0].fields.status == Some("completed")
      && Outbound(r.trace) == []
  {
    var raw := CM.RawItem(Some("msg_1"), Some("message"), Some("assistant"), None, None, CM.Present([]), None);
    HelloEvents(raw);
    assert CM.InlineText([]) == "";
    StreamedMessageCompletes(New(config).(connected := true), raw, ["Hi", " there!"], rt);
  }

  /** The scenario's frames, in the shape the streaming lemmas speak of. */
  lemma HelloEvents(raw: CM.RawItem)
    ensures [ItemCreated(Some(raw)), TextDelta(Some("msg_1"), Some("Hi")),
             TextDelta(Some("msg_1"), Some(" there!")), OutputItemDone(Some(raw))] ==
            [ItemCreated(Some(raw))] + DeltaEvents(TextStream, "msg_1", ["Hi", " there!"]) + [OutputItemDone(Some(raw))]
    ensures CM.Concat(["Hi", " there!"]) == "Hi there!"
  {
    var ds := ["Hi", " there!"];
    assert ds[1..] == [" there!"];
    assert ds[1..][1..] == [];
    assert DeltaEvents(TextStream, "msg_1", ds) ==
      [TextDelta(Some("msg_1"), Some("Hi")), TextDelta(Some("msg_1"), Some(" there!"))];
  }

  /** The tool that `get_time` calls resolve to. */
  const GetTime := Tool(map["name" := Str("get_time")], Callable(0))

  /** A `get_time` call whose streamed arguments do not parse is still answered:
      exactly one output carrying the parser's error under the call id, then
      exactly one response request. */
  lemma MalformedArgumentsScenario(c: Client, rt: Runtime, message: string)
    requires Valid(c) && c.connected && c.tools == [GetTime]
    requires rt.parseArguments("{bad json") == Failure(message)
    ensures var raw := CM.RawItem(Some("fc_1"), Some("function_call"), None, Some("get_time"), Some("call_1"), CM.Absent, None);
      var events := [ItemCreated(Some(raw)), ArgumentsDelta(Some("fc_1"), Some("{bad json")), OutputItemDone(Some(raw))];
      Outbound(HandleAll(c, events, rt).trace) ==
        Outbound(c.trace) + [FunctionCallOutput(Some("call_1"), ErrorValue(message)), ResponseCreate]
  {
    var raw := CM.RawItem(Some("fc_1"), Some("function_call"), None, Some("get_time"), Some("call_1"), CM.Absent, None);
    var ds := ["{bad json"];
    MalformedEvents(raw);
    StreamedCallAnswered(c, raw, ds, rt);
    var events := [ItemCreated(Some(raw))] + DeltaEvents(ArgumentsStream, "fc_1", ds) + [OutputItemDone(Some(raw))];
    var done := CM.GetItem(HandleAll(c, events, rt).conversation, "fc_1").value;
    assert NameKey(done) == Str("get_time");
    assert FindTool([GetTime], Str("get_time")) == Some(GetTime);
  }

  /** The scenario's frames, in the shape the streaming lemmas speak of. */
  lemma MalformedEvents(raw: CM.RawItem)
    ensures [ItemCreated(Some(raw)), ArgumentsDelta(Some("fc_1"), Some("{bad json")), OutputItemDone(Some(raw))] ==
            [ItemCreated(Some(raw))] + DeltaEvents(ArgumentsStream, "fc_1", ["{bad json"]) + [OutputItemDone(Some(raw))]
    ensures CM.Concat(["{bad json"]) == "{bad json"
  {
    var ds := ["{bad json"];
    assert ds[1..] == [];
    assert DeltaEvents(ArgumentsStream, "fc_1", ds) == [ArgumentsDelta(Some("fc_1"), Some("{bad json"))];
  }
}

=== FILE: conversation_manager.dfy ===
/** The conversation state of the realtime client: the ordered list of items and
    the id index into it, plus the per-item "formatted" accumulators that streamed
    deltas extend.

    In the Python `ConversationManager` the list and the index share the same item objects, so an
    update through the index is visible in the list. The model keeps that sharing
    exact: `lookup` maps an id to a position in `items`, and an update rewrites
    the item at that position. An item is added to the list once and the list is
    only ever appended to, so a position identifies one item object for good. */
module ConversationManager {
  import opened Wrappers
  import opened Text

  /** A dict entry that `add_item` reads by value rather than by truthiness,
      where a missing key and a JSON `null` behave differently. */
  datatype Entry<+T> = Absent | NullEntry | Present(value: T)

  /** One element of an item's `content` array. */
  datatype ContentPart = ContentPart(partType: Option<string>, text: Entry<string>)

  /** An item as the server sends it; absent keys are None. */
  datatype RawItem = RawItem(
    id: Option<string>,
    kind: Option<string>,
    role: Option<string>,
    name: Option<string>,
    callId: Option<string>,
    content: Entry<seq<ContentPart>>,
    status: Option<string>)

  /** The two TypeErrors `add_item` can raise while formatting: iterating a
      `null` content, and appending a `null` text to the formatted string. */
  datatype Fault = ContentNotIterable | TextNotString

  /** The accumulators added under the `formatted` key; `arguments` is the
      `formatted.tool.arguments` string, absent until the first argument delta. */
  datatype Formatted = Formatted(text: string, transcript: string, audio: seq<seq<byte>>, arguments: Option<string>)

  datatype Item = Item(fields: RawItem, formatted: Formatted)

  datatype Conversation = Conversation(items: seq<Item>, lookup: map<string, nat>, pendingAudio: Option<seq<byte>>)

  /** Every indexed id points at a list position holding an item with that id. */
  ghost predicate Valid(c: Conversation) {
    forall id :: id in c.lookup ==> c.lookup[id] < |c.items| && c.items[c.lookup[id]].fields.id == Some(id)
  }

  /** `reset`: no items, no index, no pending audio. */
  function Reset(): (c: Conversation)
    ensures Valid(c) && c.items == [] && c.lookup == map[] && c.pendingAudio.None?
  {
    Conversation([], map[], None)
  }

  predicate IsTextPart(p: ContentPart) {
    p.partType == Some("text") || p.partType == Some("input_text")
  }

  /** A part the formatting loop can consume: a text part whose `text` is
      `null` would be appended to a string and raise. */
  predicate Readable(p: ContentPart) {
    IsTextPart(p) ==> !p.text.NullEntry?
  }

  predicate AllReadable(parts: seq<ContentPart>) {
    forall i :: 0 <= i < |parts| ==> Readable(parts[i])
  }

  /** The text a content part contributes: its `text` (default "") when typed
      `text` or `input_text`. */
  function PartText(p: ContentPart): string
    requires Readable(p)
  {
    if IsTextPart(p) then (if p.text.Present? then p.text.value else "") else ""
  }

  /** The texts of the inline text parts, concatenated in content order. */
  function InlineText(parts: seq<ContentPart>): string
    requires AllReadable(parts)
  {
    if parts == [] then "" else InlineText(parts[..|parts| - 1]) + PartText(parts[|parts| - 1])
  }

  lemma {:induction false} InlineTextAppend(a: seq<ContentPart>, b: seq<ContentPart>)
    requires AllReadable(a) && AllReadable(b)
    ensures AllReadable(a + b)
    ensures InlineText(a + b) == InlineText(a) + InlineText(b)
    decreases |b|
  {
    if b != [] {
      assert (a + b)[..|a + b| - 1] == a + b[..|b| - 1];
      InlineTextAppend(a, b[..|b| - 1]);
    } else {
      assert a + b == a;
    }
  }

  /** Content parts of any other type contribute nothing to the formatted text. */
  lemma {:induction false} InlineTextIgnoresOtherParts(parts: seq<ContentPart>)
    requires forall i :: 0 <= i < |parts| ==> !IsTextPart(parts[i])
    ensures AllReadable(parts) && InlineText(parts) == ""
    decreases |parts|
  {
    if parts != [] {
      InlineTextIgnoresOtherParts(parts[..|parts| - 1]);
    }
  }

  /** The content parts the formatting loop walks; a missing key is skipped. */
  function Parts(raw: RawItem): seq<ContentPart> {
    if raw.content.Present? then raw.content.value else []
  }

  /** Whether formatting the item's content completes: the content is not
      `null`, and no text part has a `null` text. */
  predicate Formattable(raw: RawItem) {
    !raw.content.NullEntry? && AllReadable(Parts(raw))
  }

  /** The item `add_item` stores: the raw fields plus fresh accumulators. */
  function Formatting(raw: RawItem): Item
    requires Formattable(raw)
  {
    Item(raw, Formatted(InlineText(Parts(raw)), "", [], None))
  }

  function GetItem(c: Conversation, id: string): (r: Option<Item>)
    requires Valid(c)
    ensures r.Some? <==> id in c.lookup
    ensures r.Some? ==> r.value.fields.id == Some(id)
  {
    if id in c.lookup then Some(c.items[c.lookup[id]]) else None
  }

  /** `add_item`: an item whose id is missing or empty is refused and nothing
      changes. Otherwise its content is formatted first: a `null` content or a
      `null` text in a text part raises a TypeError before the list or the
      index is touched. An item that formats goes to the end of the list and
      the id now points at it. */
  function AddItem(c: Conversation, raw: RawItem): (r: Result<(Conversation, Option<Item>), Fault>)
    requires Valid(c)
    ensures r.Success? ==> Valid(r.value.0)
    ensures !Truthy(raw.id) ==> r == Success((c, None))
    ensures r.Failure? <==> Truthy(raw.id) && !Formattable(raw)
    ensures r.Failure? ==> (r.error == ContentNotIterable <==> raw.content.NullEntry?)
    ensures Truthy(raw.id) && Formattable(raw) ==>
      && r.Success? && r.value.1.Some?
      && r.value.0.items == c.items + [r.value.1.value]
      && r.value.0.lookup == c.lookup[raw.id.value := |c.items|]
      && r.value.0.pendingAudio == c.pendingAudio
      && GetItem(r.value.0, raw.id.value) == r.value.1
      && r.value.1.value.fields == raw
      && r.value.1.value.formatted.text == InlineText(Parts(raw))
      && r.value.1.value.formatted.transcript == ""
      && r.value.1.value.formatted.audio == []
      && r.value.1.value.formatted.arguments.None?
  {
    if !Truthy(raw.id) then Success((c, None))
    else if raw.content.NullEntry? then Failure(ContentNotIterable)
    else if !AllReadable(Parts(raw)) then Failure(TextNotString)
    else
      var item := Formatting(raw);
      Success((Conversation(c.items + [item], c.lookup[raw.id.value := |c.items|], c.pendingAudio), Some(item)))
  }

  /** The shared shape of the `update_item_*` methods: rewrite the indexed
      item's accumulators with `f`; report whether the id was known. */
  function UpdateFormatted(c: Conversation, id: string, f: Formatted -> Formatted): (r: (Conversation, bool))
    requires Valid(c)
    ensures Valid(r.0)
    ensures r.1 <==> id in c.lookup
    ensures !r.1 ==> r.0 == c
    ensures r.0.lookup == c.lookup && |r.0.items| == |c.items| && r.0.pendingAudio == c.pendingAudio
    ensures r.1 ==> r.0.items[c.lookup[id]] == c.items[c.lookup[id]].(formatted := f(c.items[c.lookup[id]].formatted))
    ensures forall j :: 0 <= j < |c.items| && (!r.1 || j != c.lookup[id]) ==> r.0.items[j] == c.items[j]
  {
    if id in c.lookup then
      var k := c.lookup[id];
      var item := c.items[k];
      (c.(items := c.items[k := item.(formatted := f(item.formatted))]), true)
    else (c, false)
  }

  /** `update_item_text`: the delta is appended to the item's text. */
  function UpdateText(c: Conversation, id: string, delta: string): (r: (Conversation, bool))
    requires Valid(c)
    ensures Valid(r.0)
    ensures r.1 <==> id in c.lookup
    ensures !r.1 ==> r.0 == c
    ensures r.0.lookup == c.lookup && |r.0.items| == |c.items| && r.0.pendingAudio == c.pendingAudio
    ensures r.1 ==>
      var before := GetItem(c, id).value;
      GetItem(r.0, id) == Some(before.(formatted := before.formatted.(text := before.formatted.text + delta)))
    ensures forall j :: 0 <= j < |c.items| && (!r.1 || j != c.lookup[id]) ==> r.0.items[j] == c.items[j]
  {
    UpdateFormatted(c, id, (f: Formatted) => f.(text := f.text + delta))
  }

  /** `update_item_transcript`: the delta is appended to the item's transcript. */
  function UpdateTranscript(c: Conversation, id: string, delta: string): (r: (Conversation, bool))
    requires Valid(c)
    ensures Valid(r.0)
    ensures r.1 <==> id in c.lookup
    ensures !r.1 ==> r.0 == c
    ensures r.0.lookup == c.lookup && |r.0.items| == |c.items| && r.0.pendingAudio == c.pendingAudio
    ensures r.1 ==>
      var before := GetItem(c, id).value;
      GetItem(r.0, id) == Some(before.(formatted := before.formatted.(transcript := before.formatted.transcript + delta)))
    ensures forall j :: 0 <= j < |c.items| && (!r.1 || j != c.lookup[id]) ==> r.0.items[j] == c.items[j]
  {
    UpdateFormatted(c, id, (f: Formatted) => f.(transcript := f.transcript + delta))
  }

  /** `update_item_audio`: the chunk becomes the item's last audio chunk. */
  function UpdateAudio(c: Conversation, id: string, chunk: seq<byte>): (r: (Conversation, bool))
    requires Valid(c)
    ensures Valid(r.0)
    ensures r.1 <==> id in c.lookup
    ensures !r.1 ==> r.0 == c
    ensures r.0.lookup == c.lookup && |r.0.items| == |c.items| && r.0.pendingAudio == c.pendingAudio
    ensures r.1 ==>
      var before := GetItem(c, id).value;
      GetItem(r.0, id) == Some(before.(formatted := before.formatted.(audio := before.formatted.audio + [chunk])))
    ensures forall j :: 0 <= j < |c.items| && (!r.1 || j != c.lookup[id]) ==> r.0.items[j] == c.items[j]
  {
    UpdateFormatted(c, id, (f: Formatted) => f.(audio := f.audio + [chunk]))
  }

  /** The function-call argument accumulator: created empty on first use, then
      extended by each delta. */
  function AppendArguments(c: Conversation, id: string, delta: string): (r: (Conversation, bool))
    requires Valid(c)
    ensures Valid(r.0)
    ensures r.1 <==> id in c.lookup
    ensures !r.1 ==> r.0 == c
    ensures r.0.lookup == c.lookup && |r.0.items| == |c.items| && r.0.pendingAudio == c.pendingAudio
    ensures r.1 ==>
      var before := GetItem(c, id).value;
      GetItem(r.0, id) == Some(before.(formatted := before.formatted.(arguments := Some(before.formatted.arguments.GetOr("") + delta))))
    ensures forall j :: 0 <= j < |c.items| && (!r.1 || j != c.lookup[id]) ==> r.0.items[j] == c.items[j]
  {
    UpdateFormatted(c, id, (f: Formatted) => f.(arguments := Some(f.arguments.GetOr("") + delta)))
  }

  /** The item's `status` becomes "completed"; nothing else about it changes. */
  function MarkCompleted(c: Conversation, id: string): (r: Conversation)
    requires Valid(c)
    requires id in c.lookup
    ensures Valid(r)
    ensures r.lookup == c.lookup && |r.items| == |c.items| && r.pendingAudio == c.pendingAudio
    ensures GetItem(r, id) == Some(GetItem(c, id).value.(fields := GetItem(c, id).value.fields.(status := Some("completed"))))
    ensures forall j :: 0 <= j < |c.items| && j != c.lookup[id] ==> r.items[j] == c.items[j]
  {
    var k := c.lookup[id];
    var item := c.items[k];
    c.(items := c.items[k := item.(fields := item.fields.(status := Some("completed")))])
  }

  /** Python's `s[start:]`: a negative start counts from the end; both kinds
      are clamped to the sequence. */
  function SliceFrom<T>(s: seq<T>, start: int): seq<T> {
    var k := if start < 0 then (if start + |s| < 0 then 0 else start + |s|) else (if start > |s| then |s| else start);
    s[k..]
  }

  /** `get_conversation_history`: for a positive limit, the last `limit` items
      (all of them when there are fewer); otherwise every item. The state is
      not touched: the result is a value. */
  function History(c: Conversation, limit: int): (r: seq<Item>)
    ensures |r| <= |c.items| && r == c.items[|c.items| - |r|..]
    ensures limit > 0 && limit <= |c.items| ==> |r| == limit
    ensures limit > |c.items| || limit <= 0 ==> r == c.items
  {
    if limit > 0 then SliceFrom(c.items, -limit) else c.items
  }

  /** Text deltas folded over one item, as the receive loop would apply them. */
  function ApplyTextDeltas(c: Conversation, id: string, deltas: seq<string>): Conversation
    requires Valid(c)
    decreases |deltas|
  {
    if deltas == [] then c else ApplyTextDeltas(UpdateText(c, id, deltas[0]).0, id, deltas[1..])
  }

  function Concat(ss: seq<string>): string {
    if ss == [] then "" else ss[0] + Concat(ss[1..])
  }

  /** For a known id, the deltas land in arrival order: the final text is the
      old text followed by every delta, and the list and index keep their shape.
      For an unknown id nothing changes at all. */
  lemma {:induction false} TextDeltasConcatenate(c: Conversation, id: string, deltas: seq<string>)
    requires Valid(c)
    ensures var r := ApplyTextDeltas(c, id, deltas);
      && Valid(r) && r.lookup == c.lookup && |r.items| == |c.items|
      && (id in c.lookup ==> r.items[c.lookup[id]].formatted.text == c.items[c.lookup[id]].formatted.text + Concat(deltas))
      && (id !in c.lookup ==> r == c)
    decreases |deltas|
  {
    if deltas != [] {
      var c1 := UpdateText(c, id, deltas[0]).0;
      TextDeltasConcatenate(c1, id, deltas[1..]);
    }
  }
}

=== FILE: counters.dfy ===
/** Per-name occurrence tables, the `d[k] = d.get(k, 0) + 1` idiom shared by
    the retry handler's error counts and the performance monitor's. */
module Counts {

  /** `d.get(k, 0)`. */
  function Count(m: map<string, nat>, k: string): nat {
    if k in m then m[k] else 0
  }

  /** One more occurrence of `k`; every other name reads as before. */
  function Bump(m: map<string, nat>, k: string): (r: map<string, nat>)
    ensures r.Keys == m.Keys + {k}
    ensures Count(r, k) == Count(m, k) + 1
    ensures forall j :: j != k ==> Count(r, j) == Count(m, j)
  {
    m[k := Count(m, k) + 1]
  }

  /** The table after counting every name of `ks`, in order. */
  function Tally(m: map<string, nat>, ks: seq<string>): map<string, nat>
    decreases |ks|
  {
    if ks == [] then m else Bump(Tally(m, ks[..|ks| - 1]), ks[|ks| - 1])
  }

  /** Counting a sequence adds, for each name, exactly its number of occurrences. */
  lemma {:induction false} TallyCounts(m: map<string, nat>, ks: seq<string>, k: string)
    ensures Count(Tally(m, ks), k) == Count(m, k) + multiset(ks)[k]
    decreases |ks|
  {
    if ks != [] {
      var init := ks[..|ks| - 1];
      TallyCounts(m, init, k);
      assert ks == init + [ks[|ks| - 1]];
      assert multiset(ks) == multiset(init) + multiset{ks[|ks| - 1]};
    }
  }

  /** Counting never forgets a name. */
  lemma {:induction false} TallyKeys(m: map<string, nat>, ks: seq<string>)
    ensures Tally(m, ks).Keys == m.Keys + set i | 0 <= i < |ks| :: ks[i]
    decreases |ks|
  {
    if ks != [] {
      var init := ks[..|ks| - 1];
      TallyKeys(m, init);
      assert (set i | 0 <= i < |ks| :: ks[i]) == (set i | 0 <= i < |init| :: init[i]) + {ks[|ks| - 1]};
    }
  }
}

=== FILE: database.dfy ===
/** `DatabaseConnection` of the database configuration: the connection string
    built from a `DatabaseConfig`, what `connect` leaves behind on each
    outcome, and the result shapes of `execute_query`. SQLAlchemy itself is a
    parameter: what creating and probing an engine does, and what running a
    statement returns. */
module Database {
  import opened Wrappers
  import opened Json
  import Text

  datatype DatabaseConfig = DatabaseConfig(
    dialect: string,
    username: Option<string>,
    password: Option<string>,
    host: Option<string>,
    port: Option<int>,
    database: string)

  /** An f-string of an optional port: "None" when unset. */
  function ShowPort(port: Option<int>): string {
    match port
    case None => "None"
    case Some(p) => Text.IntToDecimal(p)
  }

  /** The credentials part: present exactly when the user name is truthy. */
  function Auth(config: DatabaseConfig): string {
    if Text.Truthy(config.username) then Text.Show(config.username) + ":" + Text.Show(config.password) + "@" else ""
  }

  /** The host part: `host:port` when the host is truthy, otherwise "localhost". */
  function HostPart(config: DatabaseConfig): string {
    if Text.Truthy(config.host) then Text.Show(config.host) + ":" + ShowPort(config.port) else "localhost"
  }

  /** The URL `connect` hands to `create_engine`. */
  function ConnectionString(config: DatabaseConfig): (url: string)
    ensures config.dialect == "sqlite" ==> url == "sqlite:///" + config.database
    ensures config.dialect != "sqlite" ==> url == config.dialect + "://" + Auth(config) + HostPart(config) + "/" + config.database
  {
    if config.dialect == "sqlite" then "sqlite:///" + config.database
    else config.dialect + "://" + Auth(config) + HostPart(config) + "/" + config.database
  }

  /** Every connection string names its dialect first and its database last. */
  lemma ConnectionStringFrame(config: DatabaseConfig)
    ensures Text.StartsWith(ConnectionString(config), config.dialect + "://")
    ensures var url := ConnectionString(config);
      |url| > |config.database| && url[|url| - |config.database| - 1..] == "/" + config.database
  {
    var url := ConnectionString(config);
    var head := if config.dialect == "sqlite" then "sqlite://" else config.dialect + "://" + Auth(config) + HostPart(config);
    assert url == head + ("/" + config.database);
    assert head[..|config.dialect + "://"|] == config.dialect + "://";
  }

  /** When no part but the credentials can hold an '@', the string carries
      credentials exactly when the user name is truthy. */
  lemma CredentialsIffUsername(config: DatabaseConfig)
    requires config.dialect != "sqlite"
    requires '@' !in config.dialect && '@' !in Text.Show(config.host) && '@' !in config.database
    ensures '@' in ConnectionString(config) <==> Text.Truthy(config.username)
  {
    var url := ConnectionString(config);
    var host := HostPart(config);
    assert '@' !in ShowPort(config.port) by {
      if config.port.Some? {
        DecimalHasNoAt(config.port.value);
      }
    }
    assert '@' !in host;
    assert url == config.dialect + "://" + Auth(config) + host + "/" + config.database;
    if Text.Truthy(config.username) {
      var auth := Auth(config);
      assert auth[|auth| - 1] == '@';
      assert url[|config.dialect + "://"| + |auth| - 1] == '@';
    } else {
      assert url == config.dialect + "://" + host + "/" + config.database;
    }
  }

  lemma DecimalHasNoAt(n: int)
    ensures '@' !in Text.IntToDecimal(n)
  {
    var s := Text.IntToDecimal(n);
    if n >= 0 {
      assert Text.AllDigits(s);
    } else {
      assert Text.AllDigits(s[1..]);
      assert s == [s[0]] + s[1..];
    }
  }

  /** The engine, by the URL it was created from, and the last connection string. */
  datatype Connection = Connection(engine: Option<string>, connectionString: Option<string>)

  const Disconnected := Connection(None, None)

  /** What SQLAlchemy does with a URL: `create_engine` raises, or the engine is
      made but the `SELECT 1` probe raises, or both succeed. */
  datatype EngineOutcome = CreateFailed(message: string) | ProbeFailed(message: string) | Reachable

  /** `connect`: the string is always recorded; the engine is replaced as soon
      as it is created, even if the probe then fails; the result is true only
      when the probe succeeds. */
  function Connect(conn: Connection, config: DatabaseConfig, engines: string -> EngineOutcome): (r: (Connection, bool))
    ensures r.0.connectionString == Some(ConnectionString(config))
    ensures r.1 <==> engines(ConnectionString(config)).Reachable?
    ensures engines(ConnectionString(config)).CreateFailed? ==> r.0.engine == conn.engine
    ensures !engines(ConnectionString(config)).CreateFailed? ==> r.0.engine == Some(ConnectionString(config))
  {
    var url := ConnectionString(config);
    var recorded := conn.(connectionString := Some(url));
    match engines(url)
    case CreateFailed(_) => (recorded, false)
    case ProbeFailed(_) => (recorded.(engine := Some(url)), false)
    case Reachable => (recorded.(engine := Some(url)), true)
  }

  /** `query.strip().lower().startswith("select")`. */
  predicate IsSelect(query: string) {
    Text.StartsWith(Text.Lower(Text.Strip(query)), "select")
  }

  /** A query is a SELECT exactly when its first six characters after leading
      white space spell "select" in any letter case; trailing white space
      plays no part. */
  lemma IsSelectCharacterized(query: string)
    ensures IsSelect(query) <==> |Text.LStrip(query)| >= 6 && Text.Lower(Text.LStrip(query)[..6]) == "select"
  {
    var l := Text.LStrip(query);
    var s := Text.RStrip(l);
    assert IsSelect(query) <==> Text.StartsWith(Text.Lower(s), "select");
    LowerStartsWith(s, "select");
    if |l| >= 6 && Text.Lower(l[..6]) == "select" {
      SpelledSelectIsNotSpace(l);
    }
    StrippedPrefix(l, 6);
  }

  /** Right stripping that keeps at least `n` characters keeps the first `n`. */
  lemma StrippedPrefix(l: string, n: nat)
    ensures |Text.RStrip(l)| >= n ==> |l| >= n && Text.RStrip(l)[..n] == l[..n]
  {
  }

  /** Lower-casing commutes with taking a prefix. */
  lemma LowerStartsWith(s: string, word: string)
    ensures Text.StartsWith(Text.Lower(s), word) <==> |s| >= |word| && Text.Lower(s[..|word|]) == word
  {
    if |s| >= |word| {
      assert Text.Lower(s)[..|word|] == Text.Lower(s[..|word|]);
    }
  }

  /** A sixth letter that lower-cases to 't' is not white space, so right
      stripping keeps all six. */
  lemma SpelledSelectIsNotSpace(l: string)
    requires |l| >= 6 && Text.Lower(l[..6]) == "select"
    ensures |Text.RStrip(l)| >= 6
  {
    assert Text.LowerChar(l[5]) == Text.Lower(l[..6])[5] == 't';
    assert !Text.IsSpace(l[5]);
  }

  /** What running one statement gives back. */
  datatype QueryOutcome =
    | Executed(columns: seq<string>, rows: seq<seq<Value>>, rowCount: int)
    | QueryFailed(message: string)

  /** How many (column, value) pairs `zip` makes. */
  function Zipped(columns: seq<string>, row: seq<Value>): nat {
    if |columns| < |row| then |columns| else |row|
  }

  /** `dict(zip(columns, row))`, pair by pair from the last: a repeated column
      name keeps its last value. */
  function RowObject(columns: seq<string>, row: seq<Value>): map<string, Value>
    decreases |columns|
  {
    var n := Zipped(columns, row);
    if n == 0 then map[]
    else RowObject(columns[..n - 1], row[..n - 1])[columns[n - 1] := row[n - 1]]
  }

  /** The row object has a key for every zipped column. */
  lemma {:induction false} RowObjectHasColumns(columns: seq<string>, row: seq<Value>)
    ensures forall i :: 0 <= i < Zipped(columns, row) ==> columns[i] in RowObject(columns, row)
    decreases |columns|
  {
    var n := Zipped(columns, row);
    if n > 0 {
      var c, v := columns[..n - 1], row[..n - 1];
      RowObjectHasColumns(c, v);
      assert Zipped(c, v) == n - 1;
      assert forall i :: 0 <= i < n - 1 ==> c[i] == columns[i];
    }
  }

  /** The row object has no key but a zipped column. */
  lemma {:induction false} RowObjectOnlyColumns(columns: seq<string>, row: seq<Value>)
    ensures forall k :: k in RowObject(columns, row) ==> k in columns[..Zipped(columns, row)]
    decreases |columns|
  {
    var n := Zipped(columns, row);
    if n > 0 {
      var c, v := columns[..n - 1], row[..n - 1];
      RowObjectOnlyColumns(c, v);
      assert Zipped(c, v) == n - 1;
      assert c[..n - 1] + [columns[n - 1]] == columns[..n];
    }
  }

  /** A column's value is the one paired with its last zipped occurrence. */
  lemma {:induction false} RowObjectLastWins(columns: seq<string>, row: seq<Value>, i: nat)
    requires i < Zipped(columns, row) && columns[i] !in columns[i + 1..Zipped(columns, row)]
    ensures columns[i] in RowObject(columns, row) && RowObject(columns, row)[columns[i]] == row[i]
    decreases |columns|
  {
    var n := Zipped(columns, row);
    if i < n - 1 {
      var c, v := columns[..n - 1], row[..n - 1];
      assert Zipped(c, v) == n - 1;
      assert columns[n - 1] in columns[i + 1..n];
      assert c[i + 1..n - 1] == columns[i + 1..n - 1];
      assert columns[i + 1..n - 1] <= columns[i + 1..n];
      RowObjectLastWins(c, v, i);
    }
  }

  /** `result.keys()` as JSON strings. */
  function ColumnValues(columns: seq<string>): (vs: seq<Value>)
    ensures |vs| == |columns| && forall i :: 0 <= i < |columns| ==> vs[i] == Str(columns[i])
  {
    seq(|columns|, i requires 0 <= i < |columns| => Str(columns[i]))
  }

  /** Every fetched row as an object keyed by column name. */
  function RowValues(columns: seq<string>, rows: seq<seq<Value>>): (vs: seq<Value>)
    ensures |vs| == |rows| && forall i :: 0 <= i < |rows| ==> vs[i] == Obj(RowObject(columns, rows[i]))
  {
    seq(|rows|, i requires 0 <= i < |rows| => Obj(RowObject(columns, rows[i])))
  }

  const NoEngine := map["error" := Str("No database connection established")]

  /** The reply to a statement that ran (or raised). */
  function Reply(out: QueryOutcome, select: bool): (reply: map<string, Value>)
    ensures reply.Keys == {"error"} || reply.Keys == {"columns", "rows"} || reply.Keys == {"affected_rows"}
    ensures "error" in reply <==> out.QueryFailed?
    ensures "columns" in reply <==> out.Executed? && select
  {
    match out
    case QueryFailed(message) => map["error" := Str(message)]
    case Executed(columns, rows, rowCount) =>
      if select then map["columns" := Arr(ColumnValues(columns)), "rows" := Arr(RowValues(columns, rows))]
      else map["affected_rows" := Num(rowCount, 0)]
  }

  /** `execute_query`: without an engine nothing runs and the reply holds only
      an error; a failing statement reports its message; a SELECT returns its
      columns and rows; any other statement its affected row count. */
  function ExecuteQuery(conn: Connection, query: string, run: (string, string) -> QueryOutcome): (reply: map<string, Value>)
    ensures conn.engine.None? ==> reply == NoEngine
    ensures reply.Keys == {"error"} || reply.Keys == {"columns", "rows"} || reply.Keys == {"affected_rows"}
    ensures "error" in reply <==> conn.engine.None? || run(conn.engine.value, query).QueryFailed?
    ensures "columns" in reply <==> conn.engine.Some? && run(conn.engine.value, query).Executed? && IsSelect(query)
  {
    if conn.engine.None? then NoEngine else Reply(run(conn.engine.value, query), IsSelect(query))
  }

  /** A SELECT's reply lists the column names and one object per fetched
      row, in order; any other statement's reply is its row count. */
  lemma ExecutedReply(conn: Connection, query: string, run: (string, string) -> QueryOutcome)
    requires conn.engine.Some?
    ensures var out := run(conn.engine.value, query);
      var reply := ExecuteQuery(conn, query, run);
      && (out.QueryFailed? ==> reply["error"] == Str(out.message))
      && (out.Executed? && IsSelect(query) ==>
            && reply["columns"] == Arr(ColumnValues(out.columns))
            && reply["rows"].Arr? && |reply["rows"].elems| == |out.rows|
            && forall i :: 0 <= i < |out.rows| ==> reply["rows"].elems[i] == Obj(RowObject(out.columns, out.rows[i])))
      && (out.Executed? && !IsSelect(query) ==> reply["affected_rows"] == Num(out.rowCount, 0))
  {
  }

  /** Without an engine the statement runner is never consulted. */
  lemma NoEngineRunsNothing(conn: Connection, query: string, run1: (string, string) -> QueryOutcome, run2: (string, string) -> QueryOutcome)
    requires conn.engine.None?
    ensures ExecuteQuery(conn, query, run1) == ExecuteQuery(conn, query, run2)
    ensures ExecuteQuery(conn, query, run1).Keys == {"error"}
  {
  }

  /** A connection whose engine creation failed keeps the engine it had, so a
      later query still runs against it (or reports that there is none). */
  lemma FailedCreateKeepsEngine(conn: Connection, config: DatabaseConfig, engines: string -> EngineOutcome)
    requires engines(ConnectionString(config)).CreateFailed?
    ensures Connect(conn, config, engines).0.engine == conn.engine
    ensures !Connect(conn, config, engines).1
  {
  }
}

=== FILE: event_manager.dfy ===
/** The typed publish/subscribe registry of the realtime client: for every event
    type, an ordered list of handlers. Handlers are opaque values of type `H`;
    what one does when called is outside the model, except whether it raises. */
module EventManager {

  datatype Registry<H> = Registry(handlers: map<string, seq<H>>)

  function Empty<H>(): Registry<H> {
    Registry(map[])
  }

  /** The handlers registered for `eventType`; a type never registered has none. */
  function Handlers<H>(reg: Registry<H>, eventType: string): seq<H> {
    if eventType in reg.handlers then reg.handlers[eventType] else []
  }

  /** `register_handler`: the handler joins the end of its type's list. */
  function Register<H>(reg: Registry<H>, eventType: string, handler: H): (r: Registry<H>)
    ensures Handlers(r, eventType) == Handlers(reg, eventType) + [handler]
    ensures forall t :: t != eventType ==> Handlers(r, t) == Handlers(reg, t)
  {
    Registry(reg.handlers[eventType := Handlers(reg, eventType) + [handler]])
  }

  /** Where `list.index` finds `h`: its first occurrence. */
  function FirstIndex<H(==)>(s: seq<H>, h: H): (i: nat)
    requires h in s
    ensures i < |s| && s[i] == h && h !in s[..i]
  {
    if s[0] == h then 0 else 1 + FirstIndex(s[1..], h)
  }

  /** Python's `list.remove`: drop the first occurrence, if there is one. */
  function RemoveFirst<H(==)>(s: seq<H>, h: H): (r: seq<H>)
    ensures h !in s ==> r == s
    ensures multiset(r) == multiset(s) - multiset{h}
    ensures |r| == |s| - (if h in s then 1 else 0)
  {
    if h in s then
      var i := FirstIndex(s, h);
      assert s == s[..i] + [s[i]] + s[i + 1..];
      s[..i] + s[i + 1..]
    else s
  }

  /** `remove_handler`: one occurrence of the handler leaves its type's list;
      an absent handler or type changes nothing. */
  function Remove<H(==)>(reg: Registry<H>, eventType: string, handler: H): (r: Registry<H>)
    ensures Handlers(r, eventType) == RemoveFirst(Handlers(reg, eventType), handler)
    ensures forall t :: t != eventType ==> Handlers(r, t) == Handlers(reg, t)
    ensures handler !in Handlers(reg, eventType) ==> forall t :: Handlers(r, t) == Handlers(reg, t)
  {
    if eventType in reg.handlers then
      Registry(reg.handlers[eventType := RemoveFirst(reg.handlers[eventType], handler)])
    else reg
  }

  /** `clear_handlers`: a truthy event type loses all its handlers; no type
      (or the empty string) clears the whole registry. */
  function Clear<H>(reg: Registry<H>, eventType: string): (r: Registry<H>)
    ensures eventType != "" ==> Handlers(r, eventType) == []
    ensures eventType != "" ==> forall t :: t != eventType ==> Handlers(r, t) == Handlers(reg, t)
    ensures eventType == "" ==> forall t :: Handlers(r, t) == []
  {
    if eventType != "" then Registry(reg.handlers[eventType := []]) else Registry(map[])
  }

  /** What calling one handler does: it returns, or raises an exception
      whose text is `message`. */
  datatype Outcome = Returned | Raised(message: string)

  /** One line of the error log: the event type and the exception's text. */
  datatype LogEntry = LogEntry(eventType: string, message: string)

  /** The log an emission leaves: one entry per raising handler, in
      registration order. */
  function ErrorLog<H>(eventType: string, hs: seq<H>, run: H -> Outcome): seq<LogEntry>
    decreases |hs|
  {
    if hs == [] then []
    else
      (if run(hs[0]).Raised? then [LogEntry(eventType, run(hs[0]).message)] else [])
      + ErrorLog(eventType, hs[1..], run)
  }

  /** `emit_event`: every handler of the type is called, in registration order,
      each exactly once. A handler that raises is caught, its exception is
      logged under the event type, and the loop goes on with the next one. */
  method Emit<H>(reg: Registry<H>, eventType: string, run: H -> Outcome) returns (called: seq<H>, log: seq<LogEntry>)
    ensures called == Handlers(reg, eventType)
    ensures log == ErrorLog(eventType, Handlers(reg, eventType), run)
  {
    var hs := Handlers(reg, eventType);
    called := [];
    log := [];
    var i := 0;
    while i < |hs|
      invariant 0 <= i <= |hs|
      invariant called == hs[..i]
      invariant log == ErrorLog(eventType, hs[..i], run)
    {
      var h := hs[i];
      called := called + [h];
      match run(h) {
        case Returned =>
        case Raised(message) =>
          log := log + [LogEntry(eventType, message)];
      }
      ErrorLogSnoc(eventType, hs[..i], h, run);
      assert hs[..i + 1] == hs[..i] + [h];
      i := i + 1;
    }
    assert hs[..i] == hs;
  }

  lemma {:induction false} ErrorLogSnoc<H>(eventType: string, hs: seq<H>, h: H, run: H -> Outcome)
    ensures ErrorLog(eventType, hs + [h], run) ==
      ErrorLog(eventType, hs, run) + (if run(h).Raised? then [LogEntry(eventType, run(h).message)] else [])
    decreases |hs|
  {
    if hs == [] {
      assert [h][1..] == [];
    } else {
      var first := if run(hs[0]).Raised? then [LogEntry(eventType, run(hs[0]).message)] else [];
      var last := if run(h).Raised? then [LogEntry(eventType, run(h).message)] else [];
      assert (hs + [h])[0] == hs[0] && (hs + [h])[1..] == hs[1..] + [h];
      ErrorLogSnoc(eventType, hs[1..], h, run);
      assert ErrorLog(eventType, hs + [h], run) == first + (ErrorLog(eventType, hs[1..], run) + last);
      assert first + (ErrorLog(eventType, hs[1..], run) + last) == (first + ErrorLog(eventType, hs[1..], run)) + last;
    }
  }

  /** The log names exactly the raising handlers: each entry carries the event
      type and the text of some handler's exception, and every raising
      handler's exception is logged. */
  lemma {:induction false} ErrorLogExactlyRaising<H>(eventType: string, hs: seq<H>, run: H -> Outcome)
    ensures forall e :: e in ErrorLog(eventType, hs, run) <==>
      e.eventType == eventType && exists h :: h in hs && run(h) == Raised(e.message)
    decreases |hs|
  {
    if hs != [] {
      ErrorLogExactlyRaising(eventType, hs[1..], run);
      assert forall h :: h in hs <==> h == hs[0] || h in hs[1..];
    }
  }

  /** `wait_for_event` registers a fresh one-shot handler and removes it in a
      `finally` block, so on every path (result or timeout) the registry's
      handler lists are back to what they were. */
  lemma {:induction false} OneShotHandlerLeavesNoTrace<H>(reg: Registry<H>, eventType: string, oneShot: H)
    requires oneShot !in Handlers(reg, eventType)
    ensures forall t :: Handlers(Remove(Register(reg, eventType, oneShot), eventType, oneShot), t) == Handlers(reg, t)
  {
    var s := Handlers(reg, eventType);
    RemoveAppended(s, oneShot);
  }

  lemma RemoveAppended<H>(s: seq<H>, h: H)
    requires h !in s
    ensures RemoveFirst(s + [h], h) == s
  {
    assert (s + [h])[..|s|] == s;
    assert FirstIndex(s + [h], h) == |s|;
  }
}

=== FILE: json.dfy ===
/** JSON-shaped values: the payloads of protocol events, session configuration
    entries, tool definitions and tool results. A number is kept in decimal
    scientific form, `mantissa * 10^exponent`, so 0.7 is `Num(7, -1)`. */
module Json {

  datatype Value =
    | Null
    | Bool(b: bool)
    | Num(mantissa: int, exponent: int)
    | Str(s: string)
    | Arr(elems: seq<Value>)
    | Obj(fields: map<string, Value>)

  /** Python truthiness of the value a dict lookup returns. A numeric literal
      is falsy exactly when it is zero. */
  predicate Truthy(v: Value) {
    match v
    case Null => false
    case Bool(b) => b
    case Num(m, _) => m != 0
    case Str(s) => s != ""
    case Arr(a) => |a| > 0
    case Obj(m) => |m| > 0
  }

  /** Whether Python can hash the value, as a dict lookup needs: lists and
      dicts cannot be keys. */
  predicate Hashable(v: Value) {
    !v.Arr? && !v.Obj?
  }

  function Pow10(k: nat): (r: nat)
    ensures r >= 1
  {
    if k == 0 then 1 else 10 * Pow10(k - 1)
  }

  /** Booleans and numbers compare as numbers: `True == 1 == 1.0`. */
  predicate Numeric(v: Value) {
    v.Bool? || v.Num?
  }

  function Mantissa(v: Value): int
    requires Numeric(v)
  {
    if v.Bool? then (if v.b then 1 else 0) else v.mantissa
  }

  function Exponent(v: Value): int
    requires Numeric(v)
  {
    if v.Bool? then 0 else v.exponent
  }

  /** `m1 * 10^e1 == m2 * 10^e2`, compared at the smaller exponent. */
  predicate SameNumber(m1: int, e1: int, m2: int, e2: int) {
    var k := if e1 <= e2 then e1 else e2;
    m1 * Pow10(e1 - k) == m2 * Pow10(e2 - k)
  }

  /** Python's equality between two dict keys: strings by content, `None`
      only with itself, and booleans and numbers by the number they denote.
      Unhashable values are never keys, so they match nothing. */
  predicate SameKey(a: Value, b: Value) {
    if a.Str? && b.Str? then a.s == b.s
    else if a.Null? && b.Null? then true
    else if Numeric(a) && Numeric(b) then SameNumber(Mantissa(a), Exponent(a), Mantissa(b), Exponent(b))
    else false
  }

  /** Every key equals itself; only an unhashable value does not. */
  lemma SameKeyReflexive(v: Value)
    ensures SameKey(v, v) <==> Hashable(v)
  {
  }

  /** `d.get(key)` on an object: Null when the key is absent. */
  function Field(fields: map<string, Value>, key: string): Value {
    if key in fields then fields[key] else Null
  }

  /** The `{"error": message}` dict tool dispatch reports upstream. */
  function ErrorValue(message: string): (v: Value)
    ensures HasError(v)
  {
    Obj(map["error" := Str(message)])
  }

  predicate HasError(v: Value) {
    v.Obj? && "error" in v.fields
  }
}

=== FILE: motivational_chain.dfy ===
/** `MotivationalInterviewingChain` of the backend: fixed prompt tables per
    conversation stage and detected emotion, and the choice of one reply for
    a context. The random choice is a parameter: `pick` names the element
    `random.choice` lands on, taken modulo the list length. Each list is built
    from a sentence-by-index function, so that reasoning about a list never
    has to look inside the text of its sentences. */
module MotivationalInterviewing {
  import opened Wrappers
  import opened Json

  datatype Chain = Chain(sessionStage: string)

  /** A new chain starts at the opening. */
  function NewChain(): (c: Chain)
    ensures c.sessionStage == "opening"
  {
    Chain("opening")
  }

  /** Sentence `i` of `get_opening_prompts`. */
  function OpeningPrompt(i: nat): string
    requires i < 5
  {
    if i == 0 then "Hi there! I'm here to support you today. What's on your mind?"
    else if i == 1 then "Hello! I'm glad you're here. How are you feeling right now?"
    else if i == 2 then "Welcome! I'm here to listen and support you. What would be helpful to talk about today?"
    else if i == 3 then "Hi! Thanks for taking time for yourself today. What's going on in your world?"
    else "Hello there! I'm here to be your thinking partner. What's been on your heart lately?"
  }

  /** `get_opening_prompts`. */
  function OpeningPrompts(): (ps: seq<string>)
    ensures |ps| == 5
    ensures forall i :: 0 <= i < 5 ==> ps[i] == OpeningPrompt(i)
  {
    seq(5, i requires 0 <= i < 5 => OpeningPrompt(i))
  }

  /** The emotions the reflection table of `get_reflection_prompts` lists. */
  predicate KnownEmotion(emotion: string) {
    emotion == "anxious" || emotion == "frustrated" || emotion == "overwhelmed" || emotion == "motivated" || emotion == "hopeful"
  }

  /** Sentence `i` of the table's list for a known emotion. */
  function EmotionReflection(emotion: string, i: nat): string
    requires KnownEmotion(emotion) && i < 3
  {
    if emotion == "anxious" then
      if i == 0 then "It sounds like there's a lot swirling around in your mind right now."
      else if i == 1 then "I can hear that this feels overwhelming for you."
      else "That anxiety seems to be taking up a lot of space for you."
    else if emotion == "frustrated" then
      if i == 0 then "I can hear the frustration in what you're sharing."
      else if i == 1 then "It sounds like this situation is really testing your patience."
      else "That feeling of being stuck must be really hard."
    else if emotion == "overwhelmed" then
      if i == 0 then "That's a lot to carry all at once."
      else if i == 1 then "It makes sense that you'd feel overwhelmed with so much going on."
      else "Sometimes when everything feels big, it's hard to know where to start."
    else if emotion == "motivated" then
      if i == 0 then "I can hear the energy and determination in your voice."
      else if i == 1 then "It sounds like something has really sparked your motivation."
      else "There's something powerful about that sense of readiness you're describing."
    else
      if i == 0 then "I can hear that sense of possibility in what you're sharing."
      else if i == 1 then "That hope seems really important to hold onto."
      else "It's beautiful to hear that optimism coming through."
  }

  /** The table's list for a known emotion. */
  function EmotionReflections(emotion: string): (ps: seq<string>)
    requires KnownEmotion(emotion)
    ensures |ps| == 3
    ensures forall i :: 0 <= i < 3 ==> ps[i] == EmotionReflection(emotion, i)
  {
    seq(3, i requires 0 <= i < 3 => EmotionReflection(emotion, i))
  }

  /** Sentence `i` of `get_reflection_prompts`. */
  function DefaultReflection(i: nat): string
    requires i < 3
  {
    if i == 0 then "I hear what you're sharing."
    else if i == 1 then "Thank you for trusting me with this."
    else "That sounds like it means a lot to you."
  }

  /** `get_reflection_prompts`: the list for an emotion the table does not list. */
  function DefaultReflections(): (ps: seq<string>)
    ensures |ps| == 3
    ensures forall i :: 0 <= i < 3 ==> ps[i] == DefaultReflection(i)
  {
    seq(3, i requires 0 <= i < 3 => DefaultReflection(i))
  }

  /** Sentence `i` of `get_exploration_questions`. */
  function ExplorationQuestion(i: nat): string
    requires i < 10
  {
    if i == 0 then "What makes this important to you?"
    else if i == 1 then "How would things be different if this changed?"
    else if i == 2 then "What's worked for you in similar situations before?"
    else if i == 3 then "On a scale of 1-10, how ready do you feel to take a step forward?"
    else if i == 4 then "What would need to happen for you to feel more confident about this?"
    else if i == 5 then "What's the smallest step you could imagine taking?"
    else if i == 6 then "How do you typically know when you're making progress?"
    else if i == 7 then "What would you tell a good friend in this situation?"
    else if i == 8 then "What parts of this feel most within your control?"
    else "What has your experience taught you about yourself?"
  }

  /** `get_exploration_questions`. */
  function ExplorationQuestions(): (ps: seq<string>)
    ensures |ps| == 10
    ensures forall i :: 0 <= i < 10 ==> ps[i] == ExplorationQuestion(i)
  {
    seq(10, i requires 0 <= i < 10 => ExplorationQuestion(i))
  }

  /** Sentence `i` of `get_affirmations`. */
  function Affirmation(i: nat): string
    requires i < 10
  {
    if i == 0 then "It takes courage to even be here talking about this."
    else if i == 1 then "I notice how thoughtful you are about this situation."
    else if i == 2 then "You've already shown so much self-awareness by recognizing this."
    else if i == 3 then "The fact that you care this much shows your values clearly."
    else if i == 4 then "You're being really honest with yourself right now."
    else if i == 5 then "I can see how much this matters to you."
    else if i == 6 then "You've taken the important step of reaching out for support."
    else if i == 7 then "Your willingness to sit with difficult feelings shows real strength."
    else if i == 8 then "The way you're thinking this through shows wisdom."
    else "You're giving yourself permission to take this seriously."
  }

  /** `get_affirmations`. */
  function Affirmations(): (ps: seq<string>)
    ensures |ps| == 10
    ensures forall i :: 0 <= i < 10 ==> ps[i] == Affirmation(i)
  {
    seq(10, i requires 0 <= i < 10 => Affirmation(i))
  }

  /** Sentence `i` of `get_body_doubling_offers`. */
  function BodyDoublingOffer(i: nat): string
    requires i < 10
  {
    if i == 0 then "Would it help if I stayed here with you while you work on that?"
    else if i == 1 then "I'm happy to keep you company while you tackle this task."
    else if i == 2 then "Would you like me to check in with you every few minutes?"
    else if i == 3 then "I can be your accountability buddy for this - shall we start?"
    else if i == 4 then "How about we break this down into smaller chunks together?"
    else if i == 5 then "I'm here to witness your effort, no matter how it goes."
    else if i == 6 then "Would it feel supportive to have me here while you give this a try?"
    else if i == 7 then "Let's do this together - I'll be right here with you."
    else if i == 8 then "Would a gentle reminder in a few minutes be helpful?"
    else "I'm honored to sit with you through this process."
  }

  /** `get_body_doubling_offers`. */
  function BodyDoublingOffers(): (ps: seq<string>)
    ensures |ps| == 10
    ensures forall i :: 0 <= i < 10 ==> ps[i] == BodyDoublingOffer(i)
  {
    seq(10, i requires 0 <= i < 10 => BodyDoublingOffer(i))
  }

  /** Sentence `i` of `get_commitment_questions`. */
  function CommitmentQuestion(i: nat): string
    requires i < 10
  {
    if i == 0 then "What feels like the most doable next step for you?"
    else if i == 1 then "How will you know when you've made progress?"
    else if i == 2 then "What might get in the way, and how could you prepare for that?"
    else if i == 3 then "Who in your life could support you with this?"
    else if i == 4 then "When would be a good time to check back in about this?"
    else if i == 5 then "What would make this easier for yourself?"
    else if i == 6 then "How does making this commitment feel in your body right now?"
    else if i == 7 then "What would you need to feel more confident about following through?"
    else if i == 8 then "Is there anything you'd like to adjust about this plan?"
    else "How does this step align with what matters most to you?"
  }

  /** `get_commitment_questions`. */
  function CommitmentQuestions(): (ps: seq<string>)
    ensures |ps| == 10
    ensures forall i :: 0 <= i < 10 ==> ps[i] == CommitmentQuestion(i)
  {
    seq(10, i requires 0 <= i < 10 => CommitmentQuestion(i))
  }

  /** Sentence `i` of `get_closing_prompts`. */
  function ClosingPrompt(i: nat): string
    requires i < 10
  {
    if i == 0 then "You've done some really meaningful reflection today."
    else if i == 1 then "Thank you for sharing so openly with me."
    else if i == 2 then "I'm proud of you for taking time to focus on yourself."
    else if i == 3 then "You have everything you need inside you to take these steps."
    else if i == 4 then "Remember, progress isn't always linear, and that's okay."
    else if i == 5 then "I believe in your ability to navigate this."
    else if i == 6 then "You've shown such wisdom and self-compassion today."
    else if i == 7 then "Take care of yourself, and remember you're not alone in this."
    else if i == 8 then "You've given yourself a real gift by being here today."
    else "I'm grateful you trusted me to be part of your journey today."
  }

  /** `get_closing_prompts`. */
  function ClosingPrompts(): (ps: seq<string>)
    ensures |ps| == 10
    ensures forall i :: 0 <= i < 10 ==> ps[i] == ClosingPrompt(i)
  {
    seq(10, i requires 0 <= i < 10 => ClosingPrompt(i))
  }

  /** The reply for a stage the chain does not know. */
  const Fallback := "I'm here to listen and support you. What feels most important to talk about right now?"

  /** `get_reflection_prompts`: the table's list for a known emotion, the
      default list for any other. */
  function ReflectionPrompts(emotion: string): (ps: seq<string>)
    ensures |ps| == 3
    ensures KnownEmotion(emotion) ==> ps == EmotionReflections(emotion)
    ensures !KnownEmotion(emotion) ==> ps == DefaultReflections()
  {
    if KnownEmotion(emotion) then EmotionReflections(emotion) else DefaultReflections()
  }

  /** The stages with a fixed list: every stage the chain knows but reflection. */
  predicate FixedStage(stage: string) {
    stage == "opening" || stage == "exploration" || stage == "affirmation"
    || stage == "commitment" || stage == "body_doubling" || stage == "closing"
  }

  /** The prompt list of a stage with a fixed list. */
  function StageList(stage: string): (r: Option<seq<string>>)
    ensures r.Some? <==> FixedStage(stage)
    ensures r.Some? ==> |r.value| >= 5
  {
    if stage == "opening" then Some(OpeningPrompts())
    else if stage == "exploration" then Some(ExplorationQuestions())
    else if stage == "affirmation" then Some(Affirmations())
    else if stage == "commitment" then Some(CommitmentQuestions())
    else if stage == "body_doubling" then Some(BodyDoublingOffers())
    else if stage == "closing" then Some(ClosingPrompts())
    else None
  }

  /** `random.choice`, with the draw as a parameter. */
  function Choose(options: seq<string>, pick: nat): (s: string)
    requires |options| > 0
    ensures s in options
  {
    options[pick % |options|]
  }

  /** Every element of a list is the choice of some draw. */
  lemma ChooseReaches(options: seq<string>, x: string) returns (pick: nat)
    requires x in options
    ensures Choose(options, pick) == x
  {
    pick :| 0 <= pick < |options| && options[pick] == x;
    assert pick % |options| == pick;
  }

  /** `context.get(key, default)`. */
  function Lookup(context: map<string, Value>, key: string, default: string): (v: Value)
    ensures key in context ==> v == context[key]
    ensures key !in context ==> v == Str(default)
  {
    if key in context then context[key] else Str(default)
  }

  /** Why a selection can raise: looking a list or a dict up as an emotion. */
  const Unhashable := "unhashable type"

  /** The list the reflection stage draws from, keyed by the context's
      emotion: a string looks up the table, a list or dict cannot be looked up
      at all, and any other value finds nothing and gets the default list. */
  function ReflectionList(emotion: Value): (r: Result<seq<string>, string>)
    ensures emotion.Str? ==> r == Success(ReflectionPrompts(emotion.s))
    ensures emotion.Arr? || emotion.Obj? ==> r == Failure(Unhashable)
    ensures !(emotion.Str? || emotion.Arr? || emotion.Obj?) ==> r == Success(DefaultReflections())
  {
    match emotion
    case Str(e) => Success(ReflectionPrompts(e))
    case Arr(_) => Failure(Unhashable)
    case Obj(_) => Failure(Unhashable)
    case _ => Success(DefaultReflections())
  }

  /** The list `select_appropriate_response` draws from: the stage (default
      "exploration") picks it, the emotion (default "neutral") picks the
      reflection list, and an unknown stage has only the fixed fallback
      sentence to offer. */
  function Pool(context: map<string, Value>): (r: Result<seq<string>, string>)
    ensures r.Success? ==> |r.value| > 0
    ensures r.Failure? ==> r.error == Unhashable
  {
    var stage := Lookup(context, "stage", "exploration");
    if stage == Str("reflection") then ReflectionList(Lookup(context, "emotion", "neutral"))
    else if stage.Str? && FixedStage(stage.s) then Success(StageList(stage.s).value)
    else Success([Fallback])
  }

  /** `select_appropriate_response`: one element of the pool, or the lookup
      error when the pool cannot be found. */
  function SelectResponse(chain: Chain, context: map<string, Value>, pick: nat): (r: Result<string, string>)
    ensures r.Failure? <==> Pool(context).Failure?
    ensures r.Failure? ==> r.error == Unhashable
    ensures r.Success? ==> r.value in Pool(context).value
  {
    match Pool(context)
    case Success(ps) => Success(Choose(ps, pick))
    case Failure(e) => Failure(e)
  }

  /** Every prompt of the pool is the reply for some draw. */
  lemma EveryPromptReachable(chain: Chain, context: map<string, Value>, x: string)
    requires Pool(context).Success? && x in Pool(context).value
    ensures exists pick: nat :: SelectResponse(chain, context, pick) == Success(x)
  {
    var pick := ChooseReaches(Pool(context).value, x);
    assert SelectResponse(chain, context, pick) == Success(x);
  }

  /** Which list the pool is, stage by stage. */
  lemma PoolByStage(context: map<string, Value>)
    ensures var stage := Lookup(context, "stage", "exploration");
      && (stage == Str("reflection") ==> Pool(context) == ReflectionList(Lookup(context, "emotion", "neutral")))
      && (stage.Str? && FixedStage(stage.s) ==> Pool(context) == Success(StageList(stage.s).value))
      && (stage != Str("reflection") && !(stage.Str? && FixedStage(stage.s)) ==> Pool(context) == Success([Fallback]))
  {
  }

  /** Selection fails only for a reflection whose emotion is a list or a
      dict; every other context gets a reply. */
  lemma SelectionFailsOnlyOnUnhashable(chain: Chain, context: map<string, Value>, pick: nat)
    ensures SelectResponse(chain, context, pick).Failure? <==>
      Lookup(context, "stage", "exploration") == Str("reflection")
      && (Lookup(context, "emotion", "neutral").Arr? || Lookup(context, "emotion", "neutral").Obj?)
  {
    PoolByStage(context);
  }

  /** An unknown stage, string or not, always gets the fallback sentence. */
  lemma UnknownStageFallsBack(chain: Chain, context: map<string, Value>, pick: nat)
    requires var stage := Lookup(context, "stage", "exploration");
      stage != Str("reflection") && !(stage.Str? && FixedStage(stage.s))
    ensures SelectResponse(chain, context, pick) == Success(Fallback)
  {
    PoolByStage(context);
  }

  /** A context without a stage is treated as exploration; a reflection
      without an emotion uses the default list. */
  lemma MissingKeysDefault(context: map<string, Value>)
    ensures "stage" !in context ==> Pool(context) == Success(ExplorationQuestions())
    ensures "stage" in context && context["stage"] == Str("reflection") && "emotion" !in context ==>
      Pool(context) == Success(DefaultReflections())
  {
    PoolByStage(context);
    assert !KnownEmotion("neutral");
  }
}

=== FILE: performance_monitor.dfy ===
/** `PerformanceMonitor` of the realtime helpers: event counters, a window of
    the most recent response times, session durations and per-type error
    counts. The averages, rates and uptime it derives are left out. */
module PerformanceMonitor {
  import opened Counts

  datatype Metrics = Metrics(
    connectionAttempts: nat,
    successfulConnections: nat,
    failedConnections: nat,
    messagesSent: nat,
    messagesReceived: nat,
    audioChunksProcessed: nat,
    responseTimes: seq<real>,
    sessionDurations: seq<real>,
    errorCounts: map<string, nat>,
    startTime: int)

  /** How many response times are kept. */
  const Window := 100

  /** Every counter zero, every list and table empty, started `now`. */
  function Fresh(now: int): (m: Metrics)
    ensures m.connectionAttempts == 0 && m.successfulConnections == 0 && m.failedConnections == 0
    ensures m.messagesSent == 0 && m.messagesReceived == 0 && m.audioChunksProcessed == 0
    ensures m.responseTimes == [] && m.sessionDurations == [] && m.errorCounts == map[]
    ensures m.startTime == now
    ensures Balanced(m) && |m.responseTimes| <= Window
  {
    Metrics(0, 0, 0, 0, 0, 0, [], [], map[], now)
  }

  /** Every attempt either succeeded or failed. */
  predicate Balanced(m: Metrics) {
    m.connectionAttempts == m.successfulConnections + m.failedConnections
  }

  /** `record_connection_attempt`: one more attempt, and one more success or
      one more failure. */
  function RecordConnectionAttempt(m: Metrics, success: bool): (r: Metrics)
    ensures r.connectionAttempts == m.connectionAttempts + 1
    ensures success ==> r.successfulConnections == m.successfulConnections + 1 && r.failedConnections == m.failedConnections
    ensures !success ==> r.failedConnections == m.failedConnections + 1 && r.successfulConnections == m.successfulConnections
    ensures r == m.(connectionAttempts := r.connectionAttempts, successfulConnections := r.successfulConnections,
                    failedConnections := r.failedConnections)
    ensures Balanced(m) ==> Balanced(r)
  {
    var counted := m.(connectionAttempts := m.connectionAttempts + 1);
    if success then counted.(successfulConnections := m.successfulConnections + 1)
    else counted.(failedConnections := m.failedConnections + 1)
  }

  /** Attempts with the given outcomes, in order. */
  function RecordAttempts(m: Metrics, outcomes: seq<bool>): Metrics
    decreases |outcomes|
  {
    if outcomes == [] then m
    else RecordConnectionAttempt(RecordAttempts(m, outcomes[..|outcomes| - 1]), outcomes[|outcomes| - 1])
  }

  /** After any run of attempts the successes are the `true` outcomes, the
      failures the `false` ones, and the counters still balance. */
  lemma {:induction false} AttemptsBalance(m: Metrics, outcomes: seq<bool>)
    requires Balanced(m)
    ensures var r := RecordAttempts(m, outcomes);
      && Balanced(r)
      && r.connectionAttempts == m.connectionAttempts + |outcomes|
      && r.successfulConnections == m.successfulConnections + multiset(outcomes)[true]
      && r.failedConnections == m.failedConnections + multiset(outcomes)[false]
    decreases |outcomes|
  {
    if outcomes != [] {
      var init := outcomes[..|outcomes| - 1];
      AttemptsBalance(m, init);
      assert outcomes == init + [outcomes[|outcomes| - 1]];
      assert multiset(outcomes) == multiset(init) + multiset{outcomes[|outcomes| - 1]};
    }
  }

  /** `record_message`: "sent" and "received" each have a counter; any other
      direction is ignored. */
  function RecordMessage(m: Metrics, direction: string): (r: Metrics)
    ensures direction == "sent" ==> r == m.(messagesSent := m.messagesSent + 1)
    ensures direction == "received" ==> r == m.(messagesReceived := m.messagesReceived + 1)
    ensures direction != "sent" && direction != "received" ==> r == m
  {
    if direction == "sent" then m.(messagesSent := m.messagesSent + 1)
    else if direction == "received" then m.(messagesReceived := m.messagesReceived + 1)
    else m
  }

  /** `record_audio_chunk`. */
  function RecordAudioChunk(m: Metrics): (r: Metrics)
    ensures r.audioChunksProcessed == m.audioChunksProcessed + 1
    ensures r == m.(audioChunksProcessed := r.audioChunksProcessed)
  {
    m.(audioChunksProcessed := m.audioChunksProcessed + 1)
  }

  /** The last `n` elements of `s`, or all of it when it is shorter. */
  function Last<T>(s: seq<T>, n: nat): (r: seq<T>)
    ensures |r| == if |s| < n then |s| else n
    ensures r == s[|s| - |r|..]
  {
    if |s| > n then s[|s| - n..] else s
  }

  /** `record_response_time`: appended, then trimmed to the newest hundred. */
  function RecordResponseTime(m: Metrics, t: real): (r: Metrics)
    ensures |r.responseTimes| <= Window
    ensures |m.responseTimes| < Window ==> r.responseTimes == m.responseTimes + [t]
    ensures |r.responseTimes| > 0 && r.responseTimes[|r.responseTimes| - 1] == t
    ensures r == m.(responseTimes := r.responseTimes)
  {
    var appended := m.responseTimes + [t];
    m.(responseTimes := if |appended| > Window then appended[|appended| - Window..] else appended)
  }

  /** Response times recorded in order. */
  function RecordResponseTimes(m: Metrics, ts: seq<real>): Metrics
    decreases |ts|
  {
    if ts == [] then m else RecordResponseTime(RecordResponseTimes(m, ts[..|ts| - 1]), ts[|ts| - 1])
  }

  /** Trimming before appending one more keeps the same newest window. */
  lemma LastSnoc<T>(s: seq<T>, x: T, n: nat)
    requires n > 0
    ensures Last(Last(s, n) + [x], n) == Last(s + [x], n)
  {
  }

  /** However many response times arrive, the window holds the newest hundred
      of everything recorded, in arrival order. */
  lemma {:induction false} WindowKeepsNewest(m: Metrics, ts: seq<real>)
    requires |m.responseTimes| <= Window
    ensures RecordResponseTimes(m, ts).responseTimes == Last(m.responseTimes + ts, Window)
    decreases |ts|
  {
    if ts != [] {
      var init := ts[..|ts| - 1];
      var t := ts[|ts| - 1];
      var before := RecordResponseTimes(m, init);
      WindowKeepsNewest(m, init);
      RecordIsLast(before, t);
      LastSnoc(m.responseTimes + init, t, Window);
      AppendSnoc(m.responseTimes, ts);
    } else {
      assert m.responseTimes + ts == m.responseTimes;
    }
  }

  lemma RecordIsLast(m: Metrics, t: real)
    ensures RecordResponseTime(m, t).responseTimes == Last(m.responseTimes + [t], Window)
  {
  }

  lemma AppendSnoc<T>(a: seq<T>, s: seq<T>)
    requires s != []
    ensures a + s == (a + s[..|s| - 1]) + [s[|s| - 1]]
  {
    assert s == s[..|s| - 1] + [s[|s| - 1]];
  }

  /** `record_session_duration`. */
  function RecordSessionDuration(m: Metrics, duration: real): (r: Metrics)
    ensures r.sessionDurations == m.sessionDurations + [duration]
    ensures r == m.(sessionDurations := r.sessionDurations)
  {
    m.(sessionDurations := m.sessionDurations + [duration])
  }

  /** `record_error`: one more occurrence of that type. */
  function RecordError(m: Metrics, errorType: string): (r: Metrics)
    ensures Count(r.errorCounts, errorType) == Count(m.errorCounts, errorType) + 1
    ensures forall other :: other != errorType ==> Count(r.errorCounts, other) == Count(m.errorCounts, other)
    ensures r == m.(errorCounts := r.errorCounts)
  {
    m.(errorCounts := Bump(m.errorCounts, errorType))
  }

  /** `reset_metrics`: every counter back to zero, every list and table
      empty, and the clock restarted. */
  function ResetMetrics(m: Metrics, now: int): (r: Metrics)
    ensures r.connectionAttempts == 0 && r.successfulConnections == 0 && r.failedConnections == 0
    ensures r.messagesSent == 0 && r.messagesReceived == 0 && r.audioChunksProcessed == 0
    ensures r.responseTimes == [] && r.sessionDurations == [] && r.errorCounts == map[]
    ensures r.startTime == now
    ensures Balanced(r)
  {
    Fresh(now)
  }
}

=== FILE: realtime_client.dfy ===
/** The realtime WebSocket client as a state machine. A `Client` value holds
    everything a Python `RealtimeClient` holds that the protocol touches: whether the
    socket is open, the session-created flag, the conversation, the tool
    registry, the session configuration and the local audio input buffer.

    The socket is an append-only `trace` of effects: `Sent` for an outbound
    event, `Emitted` for a notification passed to the event manager. Each
    inbound server event is a pure transition (`HandleServerEvent`); each client
    operation is a function that either fails with the exception the Python
    method raises or returns the next state. Audio base64, JSON argument parsing and
    the tool handlers themselves are supplied in a `Runtime` record. */
module RealtimeClient {
  import opened Wrappers
  import Text
  import opened Json
  import CM = ConversationManager
  import RealtimeConfig

  // ---------------------------------------------------------------- events

  /** The type tags `_handle_server_event` has a branch for. */
  predicate HandledType(tag: string) {
    || tag == "session.created" || tag == "conversation.item.created"
    || tag == "response.audio.delta" || tag == "response.text.delta"
    || tag == "response.audio_transcript.delta" || tag == "input_audio_buffer.speech_started"
    || tag == "response.function_call_arguments.delta" || tag == "response.output_item.done"
    || tag == "error"
  }

  /** A type tag the client has no branch for. */
  type OtherType = tag: string | !HandledType(tag) witness ""

  /** The inbound events the receive loop distinguishes; `Unhandled` stands for
      any other type tag. Absent or falsy `item`, `item_id` and `delta` values
      are None or empty. */
  datatype ServerEvent =
    | SessionCreated
    | ItemCreated(item: Option<CM.RawItem>)
    | AudioDelta(itemId: Option<string>, delta: Option<string>)
    | TextDelta(itemId: Option<string>, delta: Option<string>)
    | TranscriptDelta(itemId: Option<string>, delta: Option<string>)
    | SpeechStarted
    | ArgumentsDelta(itemId: Option<string>, delta: Option<string>)
    | OutputItemDone(item: Option<CM.RawItem>)
    | ServerError(detail: Value)
    | Unhandled(tag: OtherType)

  /** The frame's `type` tag; the tags with a branch are exactly those of the
      events the client distinguishes. */
  function ServerType(ev: ServerEvent): (tag: string)
    ensures HandledType(tag) <==> !ev.Unhandled?
  {
    match ev
    case SessionCreated => "session.created"
    case ItemCreated(_) => "conversation.item.created"
    case AudioDelta(_, _) => "response.audio.delta"
    case TextDelta(_, _) => "response.text.delta"
    case TranscriptDelta(_, _) => "response.audio_transcript.delta"
    case SpeechStarted => "input_audio_buffer.speech_started"
    case ArgumentsDelta(_, _) => "response.function_call_arguments.delta"
    case OutputItemDone(_) => "response.output_item.done"
    case ServerError(_) => "error"
    case Unhandled(tag) => tag
  }

  /** Whether the frame's branch raises: a new item with a usable id whose
      content cannot be formatted. The TypeError leaves `_handle_server_event`
      before anything changed or was emitted, and the receive loop only logs
      it. */
  predicate Raises(ev: ServerEvent) {
    ev.ItemCreated? && ev.item.Some? && Text.Truthy(ev.item.value.id) && !CM.Formattable(ev.item.value)
  }

  /** The outbound events the client sends. Each goes out with a fresh event
      id, which the model does not represent. */
  datatype OutEvent =
    | UpdateSessionEvent(session: map<string, Value>)
    | UserMessage(content: seq<Value>)
    | FunctionCallOutput(callId: Option<string>, output: Value)
    | ResponseCreate
    | AudioAppend(audio: string)
    | AudioCommit

  function ClientType(ev: OutEvent): string {
    match ev
    case UpdateSessionEvent(_) => "session.update"
    case UserMessage(_) => "conversation.item.create"
    case FunctionCallOutput(_, _) => "conversation.item.create"
    case ResponseCreate => "response.create"
    case AudioAppend(_) => "input_audio_buffer.append"
    case AudioCommit => "input_audio_buffer.commit"
  }

  /** The `delta` of a `conversation.updated` notification. */
  datatype Delta =
    | NoDelta
    | AudioChunk(bytes: seq<Text.byte>)
    | TextChunk(text: string)
    | TranscriptChunk(text: string)
    | ArgumentsChunk(text: string)

  datatype Payload =
    | ServerPayload(server: ServerEvent)
    | ClientPayload(client: OutEvent)
    | Updated(item: Option<CM.Item>, delta: Delta)
    | Completed(completed: CM.Item)

  datatype Effect = Sent(event: OutEvent) | Emitted(channel: string, payload: Payload)

  /** What went over the socket, in order. */
  function Outbound(trace: seq<Effect>): seq<OutEvent> {
    if trace == [] then []
    else Outbound(trace[..|trace| - 1]) + (if trace[|trace| - 1].Sent? then [trace[|trace| - 1].event] else [])
  }

  lemma {:induction false} OutboundAppend(a: seq<Effect>, b: seq<Effect>)
    ensures Outbound(a + b) == Outbound(a) + Outbound(b)
    decreases |b|
  {
    if b == [] {
      assert a + b == a;
    } else {
      assert (a + b)[..|a + b| - 1] == a + b[..|b| - 1];
      OutboundAppend(a, b[..|b| - 1]);
    }
  }

  lemma OutboundSingleton(e: Effect)
    ensures Outbound([e]) == if e.Sent? then [e.event] else []
  {
    assert [e][..0] == [];
  }

  lemma OutboundOfNotices(notices: seq<Effect>)
    requires forall i :: 0 <= i < |notices| ==> notices[i].Emitted?
    ensures Outbound(notices) == []
  {
    if notices != [] {
      OutboundOfNotices(notices[..|notices| - 1]);
    }
  }

  // ---------------------------------------------------------------- tools

  datatype HandlerSlot = NoHandler | NotCallable | Callable(ref: nat)

  /** A registry entry: the JSON-schema definition and the handler. */
  datatype Tool = Tool(definition: map<string, Value>, handler: HandlerSlot)

  function ToolName(t: Tool): Value {
    Field(t.definition, "name")
  }

  /** The registry lookup `name in self.tools`: the tool whose name is the
      same dict key as `name`. */
  function FindTool(tools: seq<Tool>, name: Value): (r: Option<Tool>)
    ensures r.Some? ==> r.value in tools && SameKey(ToolName(r.value), name)
    ensures r.None? ==> forall i :: 0 <= i < |tools| ==> !SameKey(ToolName(tools[i]), name)
  {
    if tools == [] then None
    else if SameKey(ToolName(tools[0]), name) then Some(tools[0])
    else
      var r := FindTool(tools[1..], name);
      assert forall i :: 1 <= i < |tools| ==> tools[i] == tools[1..][i - 1];
      r
  }

  /** Registry invariant: every name is a truthy dict key, and no two names
      are the same key. */
  ghost predicate ToolsValid(tools: seq<Tool>) {
    && (forall i :: 0 <= i < |tools| ==> Truthy(ToolName(tools[i])) && Hashable(ToolName(tools[i])))
    && (forall i, j :: 0 <= i < j < |tools| ==> !SameKey(ToolName(tools[i]), ToolName(tools[j])))
  }

  /** The `tools` list of a `session.update`: every definition, in registration
      order, tagged with `type: "function"`. */
  function ToolSchemas(tools: seq<Tool>): (r: seq<Value>)
    ensures |r| == |tools|
    ensures forall i :: 0 <= i < |tools| ==>
      && r[i].Obj?
      && r[i].fields.Keys == tools[i].definition.Keys + {"type"}
      && r[i].fields["type"] == Str("function")
      && (forall k :: k in tools[i].definition && k != "type" ==> r[i].fields[k] == tools[i].definition[k])
  {
    seq(|tools|, i requires 0 <= i < |tools| => Obj(tools[i].definition["type" := Str("function")]))
  }

  // ---------------------------------------------------------------- client

  /** The result of calling a tool handler with parsed keyword arguments. */
  datatype Invocation = Returned(value: Value) | Raised(message: string)

  /** The collaborators the client calls but whose code is not modelled:
      base64 audio decoding and encoding, JSON parsing of accumulated
      arguments, and invoking a registered handler. */
  datatype Runtime = Runtime(
    decodeAudio: string -> seq<Text.byte>,
    encodeAudio: seq<Text.byte> -> string,
    parseArguments: string -> Result<Value, string>,
    invoke: (nat, Value) -> Invocation)

  /** The exceptions client operations raise. */
  datatype Failure = NotConnected | MissingToolName | UnhashableToolName(name: Value) | DuplicateTool(name: Value)

  datatype Client = Client(
    connected: bool,
    sessionCreated: bool,
    conversation: CM.Conversation,
    tools: seq<Tool>,
    sessionConfig: map<string, Value>,
    audioBuffer: seq<Text.byte>,
    trace: seq<Effect>)

  ghost predicate Valid(c: Client) {
    CM.Valid(c.conversation) && ToolsValid(c.tools)
  }

  /** The constructor: no socket, no session, empty conversation and registry,
      and a copy of the configured session settings. */
  function New(config: RealtimeConfig.Config): (c: Client)
    ensures Valid(c)
    ensures !c.connected && !c.sessionCreated && c.tools == [] && c.audioBuffer == [] && c.trace == []
    ensures c.conversation == CM.Reset() && c.sessionConfig == config.sessionConfig
  {
    Client(false, false, CM.Reset(), [], config.sessionConfig, [], [])
  }

  /** `is_connected`. */
  predicate IsConnected(c: Client) {
    c.connected
  }

  function Notify(c: Client, channel: string, payload: Payload): (r: Client)
    ensures r == c.(trace := c.trace + [Emitted(channel, payload)])
    ensures Outbound(r.trace) == Outbound(c.trace)
    ensures c.trace <= r.trace
  {
    OutboundAppend(c.trace, [Emitted(channel, payload)]);
    OutboundOfNotices([Emitted(channel, payload)]);
    c.(trace := c.trace + [Emitted(channel, payload)])
  }

  /** `send_event`: without a socket it raises and nothing happens; otherwise
      the event goes out and a `client.<type>` notification follows. */
  function SendEvent(c: Client, ev: OutEvent): (r: Result<Client, Failure>)
    ensures r.Failure? <==> !c.connected
    ensures r.Failure? ==> r.error == NotConnected
    ensures r.Success? ==> r.value == c.(trace := r.value.trace)
    ensures r.Success? ==> Outbound(r.value.trace) == Outbound(c.trace) + [ev]
    ensures r.Success? ==> r.value.trace == c.trace + [Sent(ev), Emitted("client." + ClientType(ev), ClientPayload(ev))]
    ensures r.Success? ==> c.trace <= r.value.trace
  {
    if !c.connected then Failure(NotConnected)
    else
      var effects := [Sent(ev), Emitted("client." + ClientType(ev), ClientPayload(ev))];
      OutboundSendThenNotify(c.trace, ev, effects[1]);
      Success(c.(trace := c.trace + effects))
  }

  /** A send followed by a notification puts exactly the sent event on the socket. */
  lemma OutboundSendThenNotify(trace: seq<Effect>, ev: OutEvent, notice: Effect)
    requires notice.Emitted?
    ensures Outbound(trace + [Sent(ev), notice]) == Outbound(trace) + [ev]
  {
    OutboundAppend(trace, [Sent(ev), notice]);
    OutboundAppend([Sent(ev)], [notice]);
    OutboundSingleton(Sent(ev));
    OutboundSingleton(notice);
    assert [Sent(ev), notice] == [Sent(ev)] + [notice];
  }

  /** Sends `first` then a `response.create`; the shape of every user-turn operation. */
  function SendThenRespond(c: Client, first: OutEvent): (r: Result<Client, Failure>)
    ensures r.Failure? <==> !c.connected
    ensures r.Failure? ==> r.error == NotConnected
    ensures r.Success? ==> r.value == c.(trace := r.value.trace)
    ensures r.Success? ==> Outbound(r.value.trace) == Outbound(c.trace) + [first, ResponseCreate]
    ensures r.Success? ==> c.trace <= r.value.trace
  {
    var c1 :- SendEvent(c, first);
    SendEvent(c1, ResponseCreate)
  }

  /** `send_function_result`: one `function_call_output` carrying the call id,
      then one `response.create`. */
  function SendFunctionResult(c: Client, callId: Option<string>, output: Value): (r: Result<Client, Failure>)
    ensures r.Failure? <==> !c.connected
    ensures r.Success? ==> r.value == c.(trace := r.value.trace)
    ensures r.Success? ==> Outbound(r.value.trace) == Outbound(c.trace) + [FunctionCallOutput(callId, output), ResponseCreate]
    ensures r.Success? ==> c.trace <= r.value.trace
  {
    SendThenRespond(c, FunctionCallOutput(callId, output))
  }

  /** `update_session`: the keyword updates are merged into the session
      configuration first, then the whole configuration with the current tool
      list is sent. Without a socket the merge stays and the send raises. */
  datatype Step = Step(client: Client, raised: Option<Failure>)

  function UpdateSession(c: Client, updates: map<string, Value>): (r: Step)
    ensures r.client.sessionConfig == c.sessionConfig + updates
    ensures r.raised.Some? <==> !c.connected
    ensures r.client == c.(sessionConfig := c.sessionConfig + updates, trace := r.client.trace)
    ensures c.connected ==>
      Outbound(r.client.trace) ==
      Outbound(c.trace) + [UpdateSessionEvent((c.sessionConfig + updates)["tools" := Arr(ToolSchemas(c.tools))])]
    ensures !c.connected ==> r.client.trace == c.trace
  {
    var merged := c.(sessionConfig := c.sessionConfig + updates);
    match SendEvent(merged, UpdateSessionEvent(merged.sessionConfig["tools" := Arr(ToolSchemas(c.tools))]))
    case Success(next) => Step(next, None)
    case Failure(e) => Step(merged, Some(e))
  }

  /** The registry half of `add_tool`: a definition without a truthy name is
      refused; a list or dict name makes the registry lookup raise; a name that
      is the same dict key as a registered one (`1`, `1.0` and `True` are one
      key) is refused; otherwise the tool joins the end of the registry and its
      name now finds it. */
  function RegisterTool(tools: seq<Tool>, definition: map<string, Value>, handler: HandlerSlot): (r: Result<seq<Tool>, Failure>)
    requires ToolsValid(tools)
    ensures !Truthy(Field(definition, "name")) ==> r == Failure(MissingToolName)
    ensures Truthy(Field(definition, "name")) && !Hashable(Field(definition, "name")) ==>
      r == Failure(UnhashableToolName(Field(definition, "name")))
    ensures Truthy(Field(definition, "name")) && Hashable(Field(definition, "name"))
            && (exists i :: 0 <= i < |tools| && SameKey(ToolName(tools[i]), Field(definition, "name"))) ==>
      r == Failure(DuplicateTool(Field(definition, "name")))
    ensures r.Success? <==>
      && Truthy(Field(definition, "name")) && Hashable(Field(definition, "name"))
      && (forall i :: 0 <= i < |tools| ==> !SameKey(ToolName(tools[i]), Field(definition, "name")))
    ensures r.Success? ==>
      && ToolsValid(r.value)
      && r.value == tools + [Tool(definition, handler)]
      && FindTool(r.value, Field(definition, "name")) == Some(Tool(definition, handler))
  {
    var name := Field(definition, "name");
    if !Truthy(name) then Failure(MissingToolName)
    else if !Hashable(name) then Failure(UnhashableToolName(name))
    else if FindTool(tools, name).Some? then Failure(DuplicateTool(name))
    else
      FindAfterAppend(tools, Tool(definition, handler));
      Success(tools + [Tool(definition, handler)])
  }

  /** `add_tool`: a refused definition raises and leaves the client as it was.
      An accepted tool is stored, and a `session.update` listing every tool is
      sent only when the socket is open. */
  function AddTool(c: Client, definition: map<string, Value>, handler: HandlerSlot): (r: Result<Client, Failure>)
    requires Valid(c)
    ensures r.Success? <==> RegisterTool(c.tools, definition, handler).Success?
    ensures r.Failure? ==> r.error == RegisterTool(c.tools, definition, handler).error
    ensures r.Success? ==>
      && Valid(r.value)
      && r.value.tools == RegisterTool(c.tools, definition, handler).value
      && r.value == c.(tools := r.value.tools, trace := r.value.trace)
    ensures r.Success? && c.connected ==>
      Outbound(r.value.trace) ==
      Outbound(c.trace) + [UpdateSessionEvent(c.sessionConfig["tools" := Arr(ToolSchemas(r.value.tools))])]
    ensures r.Success? && !c.connected ==> r.value.trace == c.trace
  {
    var tools :- RegisterTool(c.tools, definition, handler);
    var registered := c.(tools := tools);
    assert c.sessionConfig + map[] == c.sessionConfig;
    if IsConnected(registered) then Success(UpdateSession(registered, map[]).client) else Success(registered)
  }

  lemma FindAfterAppend(tools: seq<Tool>, t: Tool)
    requires Hashable(ToolName(t)) && FindTool(tools, ToolName(t)).None?
    ensures FindTool(tools + [t], ToolName(t)) == Some(t)
  {
    if tools != [] {
      assert (tools + [t])[1..] == tools[1..] + [t];
      FindAfterAppend(tools[1..], t);
    } else {
      SameKeyReflexive(ToolName(t));
    }
  }

  /** `1.0` and `True` are the same dict key as a registered `1`, so neither
      registers beside it. */
  lemma NumericNamesCollide(handler: HandlerSlot)
    ensures var one := [Tool(map["name" := Num(1, 0)], handler)];
      && ToolsValid(one)
      && RegisterTool(one, map["name" := Num(10, -1)], handler) == Failure(DuplicateTool(Num(10, -1)))
      && RegisterTool(one, map["name" := Bool(true)], handler) == Failure(DuplicateTool(Bool(true)))
  {
    var one := [Tool(map["name" := Num(1, 0)], handler)];
    assert ToolName(one[0]) == Num(1, 0);
    assert Pow10(1) == 10;
    assert SameKey(Num(1, 0), Num(10, -1));
    assert SameKey(Num(1, 0), Bool(true));
  }

  /** A list name is refused by the lookup itself, even with nothing registered. */
  lemma ListNameUnhashable(handler: HandlerSlot)
    ensures RegisterTool([], map["name" := Arr([Str("x")])], handler) == Failure(UnhashableToolName(Arr([Str("x")])))
  {
    assert Field(map["name" := Arr([Str("x")])], "name") == Arr([Str("x")]);
  }

  /** `send_text_message`: one user message holding the text as `input_text`,
      then a response request. The conversation is not touched: the item
      arrives later as a server `conversation.item.created`. */
  function SendText(c: Client, text: string): (r: Result<Client, Failure>)
    ensures r.Failure? <==> !c.connected
    ensures r.Success? ==> r.value == c.(trace := r.value.trace)
    ensures r.Success? ==>
      Outbound(r.value.trace) ==
      Outbound(c.trace) + [UserMessage([Obj(map["type" := Str("input_text"), "text" := Str(text)])]), ResponseCreate]
  {
    SendThenRespond(c, UserMessage([Obj(map["type" := Str("input_text"), "text" := Str(text)])]))
  }

  /** `send_user_message_content`: the caller's content list as one user message, then a response request. */
  function SendUserMessageContent(c: Client, content: seq<Value>): (r: Result<Client, Failure>)
    ensures r.Failure? <==> !c.connected
    ensures r.Success? ==> r.value == c.(trace := r.value.trace)
    ensures r.Success? ==> Outbound(r.value.trace) == Outbound(c.trace) + [UserMessage(content), ResponseCreate]
  {
    SendThenRespond(c, UserMessage(content))
  }

  /** `create_response`. */
  function CreateResponse(c: Client): (r: Result<Client, Failure>)
    ensures r.Failure? <==> !c.connected
    ensures r.Success? ==> r.value == c.(trace := r.value.trace)
    ensures r.Success? ==> Outbound(r.value.trace) == Outbound(c.trace) + [ResponseCreate]
  {
    SendEvent(c, ResponseCreate)
  }

  /** `send_audio_data` for raw bytes: when the encoding is empty nothing
      happens; otherwise the encoded audio is appended on the server and, once
      that send succeeded, the bytes join the local input buffer. */
  function SendAudio(c: Client, data: seq<Text.byte>, rt: Runtime): (r: Result<Client, Failure>)
    ensures rt.encodeAudio(data) == "" ==> r == Success(c)
    ensures rt.encodeAudio(data) != "" ==> (r.Failure? <==> !c.connected)
    ensures rt.encodeAudio(data) != "" && r.Success? ==>
      && r.value == c.(audioBuffer := c.audioBuffer + data, trace := r.value.trace)
      && Outbound(r.value.trace) == Outbound(c.trace) + [AudioAppend(rt.encodeAudio(data))]
  {
    var encoded := rt.encodeAudio(data);
    if encoded == "" then Success(c)
    else
      var c1 :- SendEvent(c, AudioAppend(encoded));
      Success(c1.(audioBuffer := c1.audioBuffer + data))
  }

  /** `commit_audio`: a non-empty buffer is committed, kept as the
      conversation's pending audio and cleared; a response request is sent
      last in every case, even for an empty buffer. */
  function CommitAudio(c: Client): (r: Result<Client, Failure>)
    ensures r.Failure? <==> !c.connected
    ensures r.Success? ==> |Outbound(r.value.trace)| > 0 && Outbound(r.value.trace)[|Outbound(r.value.trace)| - 1] == ResponseCreate
    ensures r.Success? && c.audioBuffer != [] ==>
      && Outbound(r.value.trace) == Outbound(c.trace) + [AudioCommit, ResponseCreate]
      && r.value.conversation == c.conversation.(pendingAudio := Some(c.audioBuffer))
      && r.value == c.(conversation := r.value.conversation, audioBuffer := [], trace := r.value.trace)
    ensures r.Success? && c.audioBuffer == [] ==>
      && Outbound(r.value.trace) == Outbound(c.trace) + [ResponseCreate]
      && r.value == c.(trace := r.value.trace)
  {
    if c.audioBuffer != [] then
      var c1 :- SendEvent(c, AudioCommit);
      var c2 := c1.(conversation := c1.conversation.(pendingAudio := Some(c.audioBuffer)), audioBuffer := []);
      SendEvent(c2, ResponseCreate)
    else
      SendEvent(c, ResponseCreate)
  }

  /** `disconnect`: the socket goes, the session flag drops, the conversation
      is reset and the audio buffer cleared. Tools and session configuration
      survive for the next connection. */
  function Disconnect(c: Client): (r: Client)
    ensures !r.connected && !r.sessionCreated
    ensures r.conversation == CM.Reset() && r.audioBuffer == []
    ensures r.tools == c.tools && r.sessionConfig == c.sessionConfig && r.trace == c.trace
    ensures Valid(c) ==> Valid(r)
  {
    c.(connected := false, sessionCreated := false, conversation := CM.Reset(), audioBuffer := [])
  }

  /** Disconnecting twice is disconnecting once. */
  lemma DisconnectIdempotent(c: Client)
    ensures Disconnect(Disconnect(c)) == Disconnect(c)
  {
  }

  // ---------------------------------------------------------------- receive side

  /** The key the item's function name is looked up under; a missing name is `None`. */
  function NameKey(item: CM.Item): Value {
    match item.fields.name
    case Some(n) => Str(n)
    case None => Null
  }

  /** The accumulated argument text, `"{}"` when no argument delta arrived. */
  function ArgumentText(item: CM.Item): string {
    item.formatted.arguments.GetOr("{}")
  }

  /** What `_execute_function_call` reports for a completed function-call item.
      Every path that does not end in a handler's return value reports a dict
      with an `error` key. */
  function CallOutput(tools: seq<Tool>, item: CM.Item, rt: Runtime): (out: Value)
    ensures FindTool(tools, NameKey(item)).None? ==> out == ErrorValue("Unknown function: " + Text.Show(item.fields.name))
    ensures FindTool(tools, NameKey(item)).Some? && !FindTool(tools, NameKey(item)).value.handler.Callable? ==>
      out == ErrorValue("Function handler not found")
    ensures FindTool(tools, NameKey(item)).Some? && rt.parseArguments(ArgumentText(item)).Failure? ==> HasError(out)
    ensures (FindTool(tools, NameKey(item)).Some? && FindTool(tools, NameKey(item)).value.handler.Callable?
             && rt.parseArguments(ArgumentText(item)).Failure?) ==>
      out == ErrorValue(rt.parseArguments(ArgumentText(item)).error)
    ensures (FindTool(tools, NameKey(item)).Some? && FindTool(tools, NameKey(item)).value.handler.Callable?
             && rt.parseArguments(ArgumentText(item)).Success?) ==>
      match rt.invoke(FindTool(tools, NameKey(item)).value.handler.ref, rt.parseArguments(ArgumentText(item)).value)
      case Returned(v) => out == v
      case Raised(message) => out == ErrorValue(message)
  {
    match FindTool(tools, NameKey(item))
    case None => ErrorValue("Unknown function: " + Text.Show(item.fields.name))
    case Some(tool) =>
      match tool.handler
      case Callable(ref) =>
        (match rt.parseArguments(ArgumentText(item))
         case Failure(message) => ErrorValue(message)
         case Success(args) =>
           match rt.invoke(ref, args)
           case Returned(v) => v
           case Raised(message) => ErrorValue(message))
      case _ => ErrorValue("Function handler not found")
  }

  /** `_execute_function_call`: exactly one result goes back under the item's
      call id, followed by exactly one response request. Without a socket both
      sends raise, the error is logged, and nothing changes. */
  function ExecuteFunctionCall(c: Client, item: CM.Item, rt: Runtime): (r: Client)
    ensures r == c.(trace := r.trace)
    ensures c.connected ==>
      Outbound(r.trace) ==
      Outbound(c.trace) + [FunctionCallOutput(item.fields.callId, CallOutput(c.tools, item, rt)), ResponseCreate]
    ensures !c.connected ==> r == c
    ensures c.trace <= r.trace
  {
    match SendFunctionResult(c, item.fields.callId, CallOutput(c.tools, item, rt))
    case Success(next) => next
    case Failure(_) => c
  }

  /** An item as it reads once the server has finished it. */
  function Done(item: CM.Item): CM.Item {
    item.(fields := item.fields.(status := Some("completed")))
  }

  /** Whether a finished-item event names an item the conversation holds. */
  predicate Known(c: Client, raw: Option<CM.RawItem>) {
    raw.Some? && raw.value.id.Some? && raw.value.id.value in c.conversation.lookup
  }

  /** The known item is marked completed and announced as
      `conversation.item.completed`; nothing goes out. */
  function CompleteItem(c: Client, id: string): (r: Client)
    requires Valid(c) && id in c.conversation.lookup
    ensures Valid(r)
    ensures r == c.(conversation := r.conversation, trace := r.trace)
    ensures r.conversation.lookup == c.conversation.lookup && |r.conversation.items| == |c.conversation.items|
    ensures r.conversation.pendingAudio == c.conversation.pendingAudio
    ensures CM.GetItem(r.conversation, id) == Some(Done(CM.GetItem(c.conversation, id).value))
    ensures forall j :: 0 <= j < |c.conversation.items| && j != c.conversation.lookup[id] ==>
      r.conversation.items[j] == c.conversation.items[j]
    ensures r.trace == c.trace + [Emitted("conversation.item.completed", Completed(Done(CM.GetItem(c.conversation, id).value)))]
    ensures Outbound(r.trace) == Outbound(c.trace)
  {
    var conversation := CM.MarkCompleted(c.conversation, id);
    Notify(c.(conversation := conversation), "conversation.item.completed", Completed(CM.GetItem(conversation, id).value))
  }

  /** `_handle_output_item_done`: a known item is marked completed and
      announced; a completed function call is then executed. An unknown or
      missing item changes nothing. */
  function HandleOutputItemDone(c: Client, raw: Option<CM.RawItem>, rt: Runtime): (r: Client)
    requires Valid(c)
    ensures Valid(r)
    ensures r == c.(conversation := r.conversation, trace := r.trace)
    ensures r.conversation.lookup == c.conversation.lookup && |r.conversation.items| == |c.conversation.items|
    ensures r.conversation.pendingAudio == c.conversation.pendingAudio
    ensures c.trace <= r.trace
    ensures !Known(c, raw) ==> r == c
    ensures Known(c, raw) ==>
      var done := Done(CM.GetItem(c.conversation, raw.value.id.value).value);
      && CM.GetItem(r.conversation, raw.value.id.value) == Some(done)
      && |r.trace| > |c.trace|
      && r.trace[|c.trace|] == Emitted("conversation.item.completed", Completed(done))
    ensures Known(c, raw) && c.connected && CM.GetItem(c.conversation, raw.value.id.value).value.fields.kind == Some("function_call") ==>
      var done := Done(CM.GetItem(c.conversation, raw.value.id.value).value);
      Outbound(r.trace) == Outbound(c.trace) + [FunctionCallOutput(done.fields.callId, CallOutput(c.tools, done, rt)), ResponseCreate]
    ensures !(Known(c, raw) && c.connected && CM.GetItem(c.conversation, raw.value.id.value).value.fields.kind == Some("function_call")) ==>
      Outbound(r.trace) == Outbound(c.trace)
  {
    if !Known(c, raw) then c
    else
      var id := raw.value.id.value;
      var announced := CompleteItem(c, id);
      var item := CM.GetItem(announced.conversation, id).value;
      if item.fields.kind == Some("function_call") then ExecuteFunctionCall(announced, item, rt) else announced
  }

  /** Announces a delta applied to `id` as `conversation.updated`. */
  function Announce(c: Client, id: string, delta: Delta): Client
    requires CM.Valid(c.conversation)
  {
    Notify(c, "conversation.updated", Updated(CM.GetItem(c.conversation, id), delta))
  }

  /** The four streaming events of the server. */
  predicate IsDelta(ev: ServerEvent) {
    ev.AudioDelta? || ev.TextDelta? || ev.TranscriptDelta? || ev.ArgumentsDelta?
  }

  /** The delta branches of `_handle_server_event`: a delta with a non-empty id
      and non-empty content is applied to the item it names and announced;
      anything else is ignored. An argument delta for an unknown id is not
      announced either. */
  function OnDelta(c: Client, ev: ServerEvent, rt: Runtime): (r: Client)
    requires Valid(c) && IsDelta(ev)
    ensures Valid(r)
    ensures r == c.(conversation := r.conversation, trace := r.trace)
    ensures r.conversation.pendingAudio == c.conversation.pendingAudio
    ensures c.trace <= r.trace && Outbound(r.trace) == Outbound(c.trace)
    ensures ev.TextDelta? ==>
      r.conversation ==
      if Text.Truthy(ev.itemId) && Text.Truthy(ev.delta) then CM.UpdateText(c.conversation, ev.itemId.value, ev.delta.value).0
      else c.conversation
    ensures ev.TranscriptDelta? ==>
      r.conversation ==
      if Text.Truthy(ev.itemId) && Text.Truthy(ev.delta) then CM.UpdateTranscript(c.conversation, ev.itemId.value, ev.delta.value).0
      else c.conversation
    ensures ev.ArgumentsDelta? ==>
      r.conversation ==
      if Text.Truthy(ev.itemId) && Text.Truthy(ev.delta) then CM.AppendArguments(c.conversation, ev.itemId.value, ev.delta.value).0
      else c.conversation
    ensures ev.AudioDelta? ==>
      r.conversation ==
      if Text.Truthy(ev.itemId) && Text.Truthy(ev.delta) then CM.UpdateAudio(c.conversation, ev.itemId.value, rt.decodeAudio(ev.delta.value)).0
      else c.conversation
  {
    if !Text.Truthy(ev.itemId) || !Text.Truthy(ev.delta) then c
    else
      var id := ev.itemId.value;
      match ev
      case AudioDelta(_, delta) =>
        var bytes := rt.decodeAudio(delta.value);
        Announce(c.(conversation := CM.UpdateAudio(c.conversation, id, bytes).0), id, AudioChunk(bytes))
      case TextDelta(_, delta) =>
        Announce(c.(conversation := CM.UpdateText(c.conversation, id, delta.value).0), id, TextChunk(delta.value))
      case TranscriptDelta(_, delta) =>
        Announce(c.(conversation := CM.UpdateTranscript(c.conversation, id, delta.value).0), id, TranscriptChunk(delta.value))
      case ArgumentsDelta(_, delta) =>
        if id !in c.conversation.lookup then c
        else Announce(c.(conversation := CM.AppendArguments(c.conversation, id, delta.value).0), id, ArgumentsChunk(delta.value))
  }

  /** The branches of `_handle_server_event` that neither stream into nor
      complete an item: a session start, a new item, an interruption, an error
      report, or a type the client ignores. */
  function OnNotice(c: Client, ev: ServerEvent): (r: Client)
    requires Valid(c) && !IsDelta(ev) && !ev.OutputItemDone?
    ensures Valid(r)
    ensures r == c.(sessionCreated := r.sessionCreated, conversation := r.conversation, trace := r.trace)
    ensures r.sessionCreated == (c.sessionCreated || ev.SessionCreated?)
    ensures r.conversation.pendingAudio == c.conversation.pendingAudio
    ensures c.trace <= r.trace && Outbound(r.trace) == Outbound(c.trace)
    ensures Raises(ev) ==> r == c
    ensures ev.ItemCreated? && ev.item.Some? && !Raises(ev) ==> r.conversation == CM.AddItem(c.conversation, ev.item.value).value.0
    ensures !(ev.ItemCreated? && ev.item.Some?) ==> r.conversation == c.conversation
  {
    match ev
    case SessionCreated =>
      Notify(c.(sessionCreated := true), "session.created", ServerPayload(ev))
    case ItemCreated(item) =>
      if item.None? then c
      else
        var added := CM.AddItem(c.conversation, item.value);
        if added.Failure? then c
        else Notify(c.(conversation := added.value.0), "conversation.updated", Updated(added.value.1, NoDelta))
    case SpeechStarted =>
      Notify(c, "conversation.interrupted", ServerPayload(ev))
    case ServerError(_) =>
      Notify(c, "error", ServerPayload(ev))
    case Unhandled(_) =>
      c
  }

  /** The type-specific part of `_handle_server_event`. */
  function Dispatch(c: Client, ev: ServerEvent, rt: Runtime): (r: Client)
    requires Valid(c)
    ensures Valid(r)
    ensures r == c.(sessionCreated := r.sessionCreated, conversation := r.conversation, trace := r.trace)
    ensures r.sessionCreated == (c.sessionCreated || ev.SessionCreated?)
    ensures r.conversation.pendingAudio == c.conversation.pendingAudio
    ensures c.trace <= r.trace
    ensures !ev.OutputItemDone? ==> Outbound(r.trace) == Outbound(c.trace)
    ensures Raises(ev) ==> r == c
    ensures ev.ItemCreated? && ev.item.Some? && !Raises(ev) ==> r.conversation == CM.AddItem(c.conversation, ev.item.value).value.0
    ensures IsDelta(ev) ==> r == OnDelta(c, ev, rt)
    ensures ev.OutputItemDone? ==> r == HandleOutputItemDone(c, ev.item, rt)
  {
    if IsDelta(ev) then OnDelta(c, ev, rt)
    else if ev.OutputItemDone? then HandleOutputItemDone(c, ev.item, rt)
    else OnNotice(c, ev)
  }

  /** `_handle_server_event`: the type-specific effect, then the raw event is
      re-emitted under `server.<type>` whatever its type. A frame whose branch
      raises changes nothing and is not re-emitted. */
  function HandleServerEvent(c: Client, ev: ServerEvent, rt: Runtime): (r: Client)
    requires Valid(c)
    ensures Valid(r)
    ensures r == c.(sessionCreated := r.sessionCreated, conversation := r.conversation, trace := r.trace)
    ensures r.sessionCreated == (c.sessionCreated || ev.SessionCreated?)
    ensures r.conversation.pendingAudio == c.conversation.pendingAudio
    ensures Raises(ev) <==> r == c
    ensures !Raises(ev) ==> c.trace < r.trace && r.trace[|r.trace| - 1] == Emitted("server." + ServerType(ev), ServerPayload(ev))
    ensures !ev.OutputItemDone? ==> Outbound(r.trace) == Outbound(c.trace)
    ensures r.conversation == Dispatch(c, ev, rt).conversation
    ensures r.trace == Dispatch(c, ev, rt).trace + (if Raises(ev) then [] else [Emitted("server." + ServerType(ev), ServerPayload(ev))])
  {
    if Raises(ev) then c
    else
      var dispatched := Dispatch(c, ev, rt);
      Notify(dispatched, "server." + ServerType(ev), ServerPayload(ev))
  }

  /** The receive loop over a sequence of frames. */
  function HandleAll(c: Client, events: seq<ServerEvent>, rt: Runtime): (r: Client)
    requires Valid(c)
    ensures Valid(r)
    ensures r == c.(sessionCreated := r.sessionCreated, conversation := r.conversation, trace := r.trace)
    ensures r.sessionCreated == (c.sessionCreated || SessionCreated in events)
    decreases |events|
  {
    if events == [] then c
    else
      assert events == [events[0]] + events[1..];
      HandleAll(HandleServerEvent(c, events[0], rt), events[1..], rt)
  }

  /** Processing frames in two batches is processing them in one. */
  lemma {:induction false} HandleAllAppend(c: Client, a: seq<ServerEvent>, b: seq<ServerEvent>, rt: Runtime)
    requires Valid(c)
    ensures HandleAll(c, a + b, rt) == HandleAll(HandleAll(c, a, rt), b, rt)
    decreases |a|
  {
    if a == [] {
      assert a + b == b;
    } else {
      assert (a + b)[0] == a[0];
      assert (a + b)[1..] == a[1..] + b;
      HandleAllAppend(HandleServerEvent(c, a[0], rt), a[1..], b, rt);
    }
  }

  /** `connect` after the transport opened: the frames that arrive while it
      waits are processed; if one of them created the session the full
      configuration is pushed and the result is true, otherwise the wait times
      out, the result is false and the socket is left open. */
  function Connect(c: Client, handshake: seq<ServerEvent>, rt: Runtime): (r: (Client, bool))
    requires Valid(c)
    ensures Valid(r.0) && r.0.connected
    ensures r.1 <==> c.sessionCreated || SessionCreated in handshake
    ensures r.1 ==>
      && |Outbound(r.0.trace)| > 0
      && Outbound(r.0.trace)[|Outbound(r.0.trace)| - 1] == UpdateSessionEvent(r.0.sessionConfig["tools" := Arr(ToolSchemas(r.0.tools))])
    ensures r.0.tools == c.tools && r.0.sessionConfig == c.sessionConfig && r.0.audioBuffer == c.audioBuffer
  {
    var live := HandleAll(c.(connected := true), handshake, rt);
    if live.sessionCreated then (PushSession(live), true) else (live, false)
  }

  /** The `update_session()` with no changes that ends a successful handshake:
      the stored configuration goes out with the tool list. */
  function PushSession(c: Client): (r: Client)
    requires c.connected
    ensures r == c.(trace := r.trace)
    ensures |Outbound(r.trace)| > 0
    ensures Outbound(r.trace)[|Outbound(r.trace)| - 1] == UpdateSessionEvent(c.sessionConfig["tools" := Arr(ToolSchemas(c.tools))])
  {
    assert c.sessionConfig + map[] == c.sessionConfig;
    UpdateSession(c, map[]).client
  }

  const DefaultInstructions := "You are a helpful AI assistant with voice capabilities."

  /** `RealtimeClient._load_instructions`: the stripped file text when the
      file could be read, otherwise the fixed default sentence. The result
      says whether the file was used. */
  function LoadInstructions(c: Client, file: Option<string>): (r: (Client, bool))
    ensures r.1 <==> file.Some?
    ensures "instructions" in r.0.sessionConfig
    ensures r.0 == c.(sessionConfig := c.sessionConfig["instructions" := r.0.sessionConfig["instructions"]])
    ensures file.None? ==> r.0.sessionConfig["instructions"] == Str(DefaultInstructions)
    ensures file.Some? ==> r.0.sessionConfig["instructions"] == Str(Text.Strip(file.value))
  {
    match file
    case Some(text) => (c.(sessionConfig := c.sessionConfig["instructions" := Str(Text.Strip(text))]), true)
    case None => (c.(sessionConfig := c.sessionConfig["instructions" := Str(DefaultInstructions)]), false)
  }
}

=== FILE: realtime_config.dfy ===
/** Connection settings of the realtime client: which service to reach (the
    public endpoint or an Azure deployment), the WebSocket URL and headers built
    from them, the validity check, and the default session configuration.
    Environment variables are read through an explicit `env` map. */
module RealtimeConfig {
  import opened Wrappers
  import opened Text
  import Json

  type Env = map<string, string>

  function Getenv(env: Env, key: string): Option<string> {
    if key in env then Some(env[key]) else None
  }

  /** Python's `a or b` on two optional strings. */
  function Or(a: Option<string>, b: Option<string>): Option<string> {
    if Truthy(a) then a else b
  }

  const DefaultDeployment := "gpt-4o-mini-realtime-preview"
  const DefaultApiVersion := "2024-10-01-preview"
  const DefaultModel := "gpt-4o-realtime-preview-2024-10-01"
  const PublicBaseUrl := "wss://api.openai.com/v1/realtime"

  datatype AzureSettings = AzureSettings(endpoint: Option<string>, apiKey: Option<string>, deployment: string, apiVersion: string)

  /** `azure` is present exactly when USE_AZURE is on; the Azure attributes do
      are never set on a `RealtimeConfig` otherwise. */
  datatype Settings = Settings(openaiApiKey: Option<string>, azure: Option<AzureSettings>)

  datatype ConnectionConfig = ConnectionConfig(
    model: string,
    baseUrl: string,
    timeoutSeconds: int,
    maxRetries: int,
    retryDelay: Json.Value,
    apiVersion: Option<string>,
    deployment: Option<string>)

  datatype Config = Config(settings: Settings, sessionConfig: map<string, Json.Value>, connection: ConnectionConfig)

  /** A string that lower-cases to "true", spelled out letter by letter. */
  predicate SpellsTrue(s: string) {
    |s| == 4 && (s[0] == 't' || s[0] == 'T') && (s[1] == 'r' || s[1] == 'R')
    && (s[2] == 'u' || s[2] == 'U') && (s[3] == 'e' || s[3] == 'E')
  }

  /** `load_environment_variables`. */
  function LoadSettings(env: Env): (r: Settings)
    ensures r.openaiApiKey == Getenv(env, "OPENAI_API_KEY")
    ensures r.azure.Some? <==> "USE_AZURE" in env && SpellsTrue(env["USE_AZURE"])
    ensures r.azure.Some? ==> r.azure.value.endpoint == Or(Getenv(env, "AZURE_OPENAI_URL"), Getenv(env, "AZURE_OPENAI_ENDPOINT"))
    ensures r.azure.Some? ==> r.azure.value.apiKey == Getenv(env, "AZURE_OPENAI_API_KEY")
    ensures r.azure.Some? && Truthy(Getenv(env, "OPENAI_DEPLOYMENT_NAME_REALTIME"))
      ==> r.azure.value.deployment == env["OPENAI_DEPLOYMENT_NAME_REALTIME"]
    ensures r.azure.Some? && !Truthy(Getenv(env, "OPENAI_DEPLOYMENT_NAME_REALTIME")) && "AZURE_OPENAI_DEPLOYMENT" in env
      ==> r.azure.value.deployment == env["AZURE_OPENAI_DEPLOYMENT"]
    ensures r.azure.Some? && !Truthy(Getenv(env, "OPENAI_DEPLOYMENT_NAME_REALTIME")) && "AZURE_OPENAI_DEPLOYMENT" !in env
      ==> r.azure.value.deployment == DefaultDeployment
    ensures r.azure.Some? && "AZURE_API_VERSION" in env ==> r.azure.value.apiVersion == env["AZURE_API_VERSION"]
    ensures r.azure.Some? && "AZURE_API_VERSION" !in env ==> r.azure.value.apiVersion == DefaultApiVersion
  {
    var useAzure := Lower(Getenv(env, "USE_AZURE").GetOr("false")) == "true";
    assert useAzure <==> "USE_AZURE" in env && SpellsTrue(env["USE_AZURE"]) by {
      var flag := Getenv(env, "USE_AZURE").GetOr("false");
      if Lower(flag) == "true" {
        assert LowerChar(flag[0]) == 't' && LowerChar(flag[1]) == 'r' && LowerChar(flag[2]) == 'u' && LowerChar(flag[3]) == 'e';
      }
      if SpellsTrue(flag) {
        assert Lower(flag) == "true";
      }
    }
    Settings(
      Getenv(env, "OPENAI_API_KEY"),
      if useAzure then
        Some(AzureSettings(
          Or(Getenv(env, "AZURE_OPENAI_URL"), Getenv(env, "AZURE_OPENAI_ENDPOINT")),
          Getenv(env, "AZURE_OPENAI_API_KEY"),
          Or(Getenv(env, "OPENAI_DEPLOYMENT_NAME_REALTIME"), Getenv(env, "AZURE_OPENAI_DEPLOYMENT")).GetOr(DefaultDeployment),
          Getenv(env, "AZURE_API_VERSION").GetOr(DefaultApiVersion)))
      else None)
  }

  function AzureBaseUrl(endpoint: Option<string>): string {
    "wss://" + Show(endpoint) + "/openai/realtime"
  }

  /** `setup_connection_config`. */
  function ConnectionFor(settings: Settings): (r: ConnectionConfig)
    ensures settings.azure.None? ==> r.baseUrl == PublicBaseUrl && r.apiVersion.None? && r.deployment.None?
    ensures settings.azure.Some? ==>
      && r.baseUrl == AzureBaseUrl(settings.azure.value.endpoint)
      && r.apiVersion == Some(settings.azure.value.apiVersion)
      && r.deployment == Some(settings.azure.value.deployment)
    ensures r.model == DefaultModel && r.timeoutSeconds == 30 && r.maxRetries == 3 && r.retryDelay == Json.Num(10, -1)
  {
    match settings.azure
    case None => ConnectionConfig(DefaultModel, PublicBaseUrl, 30, 3, Json.Num(10, -1), None, None)
    case Some(az) =>
      ConnectionConfig(DefaultModel, AzureBaseUrl(az.endpoint), 30, 3, Json.Num(10, -1), Some(az.apiVersion), Some(az.deployment))
  }

  /** `setup_default_session_config`. */
  function DefaultSessionConfig(): map<string, Json.Value> {
    map[
      "modalities" := Json.Arr([Json.Str("text"), Json.Str("audio")]),
      "voice" := Json.Str("alloy"),
      "input_audio_format" := Json.Str("pcm16"),
      "output_audio_format" := Json.Str("pcm16"),
      "input_audio_transcription" := Json.Obj(map["model" := Json.Str("whisper-1")]),
      "turn_detection" := Json.Obj(map[
        "type" := Json.Str("server_vad"),
        "threshold" := Json.Num(5, -1),
        "prefix_padding_ms" := Json.Num(300, 0),
        "silence_duration_ms" := Json.Num(500, 0)]),
      "tools" := Json.Arr([]),
      "tool_choice" := Json.Str("auto"),
      "temperature" := Json.Num(7, -1),
      "max_response_output_tokens" := Json.Num(4096, 0)
    ]
  }

  /** The constructor: settings from the environment, then the two tables. */
  function Load(env: Env): (r: Config)
    ensures r.settings == LoadSettings(env)
    ensures r.sessionConfig == DefaultSessionConfig()
    ensures r.connection == ConnectionFor(r.settings)
  {
    var settings := LoadSettings(env);
    Config(settings, DefaultSessionConfig(), ConnectionFor(settings))
  }

  /** `update_session_config`: the given keys take the given values, every
      other key keeps its value. */
  function UpdateSessionConfig(cfg: Config, updates: map<string, Json.Value>): (r: Config)
    ensures r.sessionConfig.Keys == cfg.sessionConfig.Keys + updates.Keys
    ensures forall k :: k in updates ==> r.sessionConfig[k] == updates[k]
    ensures forall k :: k in cfg.sessionConfig && k !in updates ==> r.sessionConfig[k] == cfg.sessionConfig[k]
    ensures r.settings == cfg.settings && r.connection == cfg.connection
  {
    cfg.(sessionConfig := cfg.sessionConfig + updates)
  }

  /** `get_websocket_url`. */
  function WebsocketUrl(cfg: Config): string {
    match cfg.settings.azure
    case Some(az) => cfg.connection.baseUrl + "?api-version=" + az.apiVersion + "&deployment=" + az.deployment
    case None => cfg.connection.baseUrl + "?model=" + cfg.connection.model
  }

  /** The first position of `c` in `s`, if any. */
  function IndexOf(s: string, c: char): (r: Option<nat>)
    ensures r.None? ==> c !in s
    ensures r.Some? ==> r.value < |s| && s[r.value] == c && c !in s[..r.value]
  {
    if s == [] then None
    else if s[0] == c then Some(0)
    else
      match IndexOf(s[1..], c)
      case None => None
      case Some(i) =>
        assert s[..i + 1] == [s[0]] + s[1..][..i];
        Some(i + 1)
  }

  lemma IndexOfAfterFree(a: string, c: char, b: string)
    requires c !in a
    ensures IndexOf(a + [c] + b, c) == Some(|a|)
  {
    var s := a + [c] + b;
    assert s[|a|] == c;
    assert forall j :: 0 <= j < |a| ==> s[j] == a[j];
    var i := IndexOf(s, c).value;
    assert forall j :: 0 <= j < i ==> s[..i][j] == s[j];
  }

  /** Splitting at the first '?' recovers a '?'-free base and its query. */
  lemma SplitQueryRoundTrip(base: string, query: string)
    requires '?' !in base
    ensures SplitQuery(base + "?" + query) == Some((base, query))
  {
    IndexOfAfterFree(base, '?', query);
    assert (base + "?" + query)[..|base|] == base;
    assert (base + "?" + query)[|base| + 1..] == query;
  }

  /** Reading the Azure query back gives the version and deployment it was built from. */
  lemma AzureQueryRoundTrip(version: string, deployment: string)
    requires '&' !in version
    ensures ParseAzureQuery("api-version=" + version + "&deployment=" + deployment) == Some((version, deployment))
  {
    var q := "api-version=" + version + "&deployment=" + deployment;
    var rest := q[12..];
    assert rest == version + "&" + ("deployment=" + deployment);
    IndexOfAfterFree(version, '&', "deployment=" + deployment);
    var i := |version|;
    assert rest[..i] == version;
    assert rest[i + 1..] == "deployment=" + deployment;
    assert rest[i + 12..] == deployment;
  }

  lemma AzureBaseHasNoQuery(endpoint: Option<string>)
    requires '?' !in Show(endpoint)
    ensures '?' !in AzureBaseUrl(endpoint)
  {
    var e := Show(endpoint);
    var base := AzureBaseUrl(endpoint);
    assert forall i :: 6 <= i < 6 + |e| ==> base[i] == e[i - 6];
  }

  /** Splits a URL at its first '?' into the base and the query string. */
  function SplitQuery(url: string): Option<(string, string)> {
    match IndexOf(url, '?')
    case None => None
    case Some(i) => Some((url[..i], url[i + 1..]))
  }

  /** Reads `api-version=V&deployment=D` back into `(V, D)`. */
  function ParseAzureQuery(query: string): Option<(string, string)> {
    if !StartsWith(query, "api-version=") then None
    else
      var rest := query[12..];
      match IndexOf(rest, '&')
      case None => None
      case Some(i) =>
        if StartsWith(rest[i + 1..], "deployment=") then Some((rest[..i], rest[i + 12..])) else None
  }

  /** Reads `model=M` back into `M`. */
  function ParseModelQuery(query: string): Option<string> {
    if StartsWith(query, "model=") then Some(query[6..]) else None
  }

  /** The public URL is the base URL with the model as its only query
      parameter: splitting it and reading the query gives both back. */
  lemma PublicUrlRoundTrip(cfg: Config)
    requires cfg.settings.azure.None?
    requires '?' !in cfg.connection.baseUrl
    ensures SplitQuery(WebsocketUrl(cfg)) == Some((cfg.connection.baseUrl, "model=" + cfg.connection.model))
    ensures ParseModelQuery("model=" + cfg.connection.model) == Some(cfg.connection.model)
  {
    assert WebsocketUrl(cfg) == cfg.connection.baseUrl + "?" + ("model=" + cfg.connection.model);
    SplitQueryRoundTrip(cfg.connection.baseUrl, "model=" + cfg.connection.model);
  }

  /** The Azure URL is `wss://<endpoint>/openai/realtime` with the API version
      and the deployment as query parameters, and both read back unchanged
      when the version holds no '&' and the endpoint no '?'. */
  lemma AzureUrlRoundTrip(cfg: Config)
    requires cfg.settings.azure.Some?
    requires cfg.connection == ConnectionFor(cfg.settings)
    requires '?' !in Show(cfg.settings.azure.value.endpoint)
    requires '&' !in cfg.settings.azure.value.apiVersion
    ensures var az := cfg.settings.azure.value;
      && SplitQuery(WebsocketUrl(cfg)) == Some((AzureBaseUrl(az.endpoint), "api-version=" + az.apiVersion + "&deployment=" + az.deployment))
      && ParseAzureQuery("api-version=" + az.apiVersion + "&deployment=" + az.deployment) == Some((az.apiVersion, az.deployment))
  {
    var az := cfg.settings.azure.value;
    AzureBaseHasNoQuery(az.endpoint);
    assert WebsocketUrl(cfg) == AzureBaseUrl(az.endpoint) + "?" + ("api-version=" + az.apiVersion + "&deployment=" + az.deployment);
    SplitQueryRoundTrip(AzureBaseUrl(az.endpoint), "api-version=" + az.apiVersion + "&deployment=" + az.deployment);
    AzureQueryRoundTrip(az.apiVersion, az.deployment);
  }

  datatype Header = Header(name: string, value: Option<string>)

  function HeaderNames(hs: seq<Header>): seq<string> {
    seq(|hs|, i requires 0 <= i < |hs| => hs[i].name)
  }

  /** `get_headers`: an Azure connection sends exactly its key and a JSON
      content type; the public service gets exactly a bearer token and the
      realtime beta flag. A missing key is rendered as the f-string renders `None`. */
  function Headers(cfg: Config): (r: seq<Header>)
    ensures cfg.settings.azure.Some? ==>
      HeaderNames(r) == ["api-key", "Content-Type"] && r[0].value == cfg.settings.azure.value.apiKey && r[1].value == Some("application/json")
    ensures cfg.settings.azure.None? ==> HeaderNames(r) == ["Authorization", "OpenAI-Beta"]
    ensures cfg.settings.azure.None? ==> r[0].value == Some("Bearer " + Show(cfg.settings.openaiApiKey)) && r[1].value == Some("realtime=v1")
  {
    match cfg.settings.azure
    case Some(az) => [Header("api-key", az.apiKey), Header("Content-Type", Some("application/json"))]
    case None => [Header("Authorization", Some("Bearer " + Show(cfg.settings.openaiApiKey))), Header("OpenAI-Beta", Some("realtime=v1"))]
  }

  /** `validate_config`. */
  function Validate(cfg: Config): (ok: bool)
    ensures cfg.settings.azure.Some? ==> (ok <==>
      Truthy(cfg.settings.azure.value.endpoint) && Truthy(cfg.settings.azure.value.apiKey) && cfg.settings.azure.value.deployment != "")
    ensures cfg.settings.azure.None? ==> (ok <==> Truthy(cfg.settings.openaiApiKey))
  {
    match cfg.settings.azure
    case Some(az) => Truthy(az.endpoint) && Truthy(az.apiKey) && az.deployment != ""
    case None => Truthy(cfg.settings.openaiApiKey)
  }

  /** A configuration that validates puts its real credential in the headers:
      a non-empty key, never the "None" placeholder a missing key prints as. */
  lemma ValidConfigCarriesCredential(cfg: Config)
    requires Validate(cfg)
    ensures cfg.settings.azure.Some? ==> Truthy(Headers(cfg)[0].value)
    ensures cfg.settings.azure.None? ==>
      Headers(cfg)[0].value == Some("Bearer " + cfg.settings.openaiApiKey.value) && cfg.settings.openaiApiKey.value != ""
  {
  }
}

=== FILE: retry_handler.dfy ===
/** `RealtimeErrorHandler` of the realtime helpers: an operation is retried
    with exponential backoff, each failure is counted under its exception
    type's name, and the last exception is re-raised once the attempts run out.
    The operation is a parameter: `op(k)` is what the k-th call (from 0)
    returns or raises. Sleeping is recorded as the list of waits, not taken. */
module RetryHandler {
  import opened Wrappers
  import opened Counts

  /** What one call of the operation does. */
  datatype Outcome<T> = Returned(value: T) | Raised(errorType: string, message: string)

  /** The handler's settings and its error table. */
  datatype Handler = Handler(maxRetries: int, retryDelay: real, errorCounts: map<string, nat>)

  /** What `with_retry` raises when every attempt failed: the last exception,
      or, when no attempt was made at all, Python's complaint about raising
      `None`. */
  datatype Reraise = Reraised(errorType: string, message: string) | NothingToRaise

  /** The constructor's defaults. */
  const Default := Handler(3, 1.0, map[])

  /** `len(range(max_retries + 1))`. */
  function Attempts(h: Handler): nat {
    if h.maxRetries + 1 > 0 then h.maxRetries + 1 else 0
  }

  function Pow2(k: nat): (r: nat)
    ensures r >= 1
  {
    if k == 0 then 1 else 2 * Pow2(k - 1)
  }

  /** The wait after failed attempt `k`: `retry_delay * 2 ** k`. */
  function Backoff(h: Handler, k: nat): real {
    h.retryDelay * (Pow2(k) as real)
  }

  /** The waits after the first `n` failed attempts. */
  function Backoffs(h: Handler, n: nat): (ws: seq<real>)
    ensures |ws| == n
    ensures forall k :: 0 <= k < n ==> ws[k] == Backoff(h, k)
  {
    seq(n, k requires 0 <= k < n => Backoff(h, k))
  }

  function TypeName<T>(o: Outcome<T>): string {
    if o.Raised? then o.errorType else ""
  }

  /** The exception type names of the first `n` calls. */
  function ErrorTypes<T>(op: nat -> Outcome<T>, n: nat): (ts: seq<string>)
    ensures |ts| == n
    ensures forall k :: 0 <= k < n ==> ts[k] == TypeName(op(k))
  {
    seq(n, k requires 0 <= k < n => TypeName(op(k)))
  }

  /** How many waits follow `n` failed attempts: none after the last one allowed. */
  function WaitsAfter(h: Handler, n: nat): nat {
    if h.maxRetries < 0 then 0 else if n <= h.maxRetries then n else h.maxRetries
  }

  lemma BackoffsSnoc(h: Handler, n: nat)
    ensures Backoffs(h, n + 1) == Backoffs(h, n) + [Backoff(h, n)]
  {
  }

  lemma ErrorTypesSnoc<T>(op: nat -> Outcome<T>, n: nat)
    ensures ErrorTypes(op, n + 1) == ErrorTypes(op, n) + [TypeName(op(n))]
  {
  }

  /** The attempts of `with_retry`: calls until one returns or none are left,
      counting each failure and recording the waits between attempts. */
  method Attempt<T>(h: Handler, op: nat -> Outcome<T>) returns (failed: nat, counts: map<string, nat>, waits: seq<real>)
    ensures failed <= Attempts(h)
    ensures forall k :: 0 <= k < failed ==> op(k).Raised?
    ensures failed < Attempts(h) ==> op(failed).Returned?
    ensures counts == Tally(h.errorCounts, ErrorTypes(op, failed))
    ensures waits == Backoffs(h, WaitsAfter(h, failed))
  {
    failed := 0;
    counts := h.errorCounts;
    waits := [];
    while failed < Attempts(h) && op(failed).Raised?
      invariant failed <= Attempts(h)
      invariant forall k :: 0 <= k < failed ==> op(k).Raised?
      invariant counts == Tally(h.errorCounts, ErrorTypes(op, failed))
      invariant waits == Backoffs(h, WaitsAfter(h, failed))
    {
      ErrorTypesSnoc(op, failed);
      counts := Bump(counts, op(failed).errorType);
      if failed < h.maxRetries {
        BackoffsSnoc(h, failed);
        waits := waits + [Backoff(h, failed)];
      }
      failed := failed + 1;
    }
  }

  /** `with_retry`: the operation is called until it returns, at most
      `max_retries + 1` times; the first returned value is the result. Every
      failed call adds one to its type's count; after a failed call that is
      not the last one allowed the handler waits `retry_delay * 2^k`. When no
      call returns, the last exception is raised again. */
  method WithRetry<T>(h: Handler, op: nat -> Outcome<T>) returns (r: Result<T, Reraise>, next: Handler, calls: nat, waits: seq<real>)
    ensures calls <= Attempts(h)
    ensures forall k :: 0 <= k < calls - 1 ==> op(k).Raised?
    ensures r.Success? <==> calls > 0 && op(calls - 1).Returned?
    ensures r.Success? ==> r.value == op(calls - 1).value
    ensures r.Failure? ==> calls == Attempts(h) && forall k :: 0 <= k < calls ==> op(k).Raised?
    ensures r.Failure? && calls > 0 ==> r.error == Reraised(op(calls - 1).errorType, op(calls - 1).message)
    ensures r.Failure? && calls == 0 ==> r.error == NothingToRaise
    ensures waits == Backoffs(h, if calls == 0 then 0 else calls - 1)
    ensures next == h.(errorCounts := Tally(h.errorCounts, ErrorTypes(op, if r.Success? then calls - 1 else calls)))
  {
    var failed, counts;
    failed, counts, waits := Attempt(h, op);
    next := h.(errorCounts := counts);
    if failed < Attempts(h) {
      r, calls := Success(op(failed).value), failed + 1;
    } else if failed == 0 {
      r, calls := Failure(NothingToRaise), 0;
    } else {
      r, calls := Failure(Reraised(op(failed - 1).errorType, op(failed - 1).message)), failed;
    }
  }

  /** Each error type's count grows by exactly the number of failed calls of
      that type; no other name appears. */
  lemma RetryCountsFailures<T>(h: Handler, op: nat -> Outcome<T>, failures: nat, name: string)
    ensures Count(Tally(h.errorCounts, ErrorTypes(op, failures)), name) ==
            Count(h.errorCounts, name) + |set k | 0 <= k < failures && TypeName(op(k)) == name|
  {
    var ts := ErrorTypes(op, failures);
    TallyCounts(h.errorCounts, ts, name);
    OccurrencesAsIndices(ts, name);
    assert (set k | 0 <= k < |ts| && ts[k] == name) == (set k | 0 <= k < failures && TypeName(op(k)) == name);
  }

  /** A name's multiplicity in a sequence is the number of positions holding it. */
  lemma {:induction false} OccurrencesAsIndices(ts: seq<string>, name: string)
    ensures multiset(ts)[name] == |set k | 0 <= k < |ts| && ts[k] == name|
    decreases |ts|
  {
    var here := set k | 0 <= k < |ts| && ts[k] == name;
    if ts != [] {
      var init := ts[..|ts| - 1];
      var last := |ts| - 1;
      OccurrencesAsIndices(init, name);
      var before := set k | 0 <= k < |init| && init[k] == name;
      assert ts == init + [ts[last]];
      assert multiset(ts) == multiset(init) + multiset{ts[last]};
      if ts[last] == name {
        assert here == before + {last};
      } else {
        assert here == before;
      }
    } else {
      assert here == {};
    }
  }

  /** `get_error_statistics`: a snapshot of the table, holding the same names
      with the same counts, that later counting does not change. */
  function ErrorStatistics(h: Handler): (stats: map<string, nat>)
    ensures stats.Keys == h.errorCounts.Keys
    ensures forall name :: Count(stats, name) == Count(h.errorCounts, name)
  {
    h.errorCounts
  }

  /** `reset_error_counts`: the table is emptied, so the statistics hold no
      name at all and every count reads zero again; the settings stay. */
  function ResetErrorCounts(h: Handler): (r: Handler)
    ensures r.maxRetries == h.maxRetries && r.retryDelay == h.retryDelay
    ensures ErrorStatistics(r) == map[]
    ensures forall name :: Count(r.errorCounts, name) == 0
  {
    h.(errorCounts := map[])
  }
}

=== FILE: session_manager.dfy ===
/** `SessionManager` of the realtime helpers: a table of active sessions and a
    table of ended ones, both keyed by session id. Clock readings are whole
    seconds passed in by the caller, and the fresh id `create_session` draws
    from `uuid4` is a parameter. */
module SessionManager {
  import opened Wrappers

  datatype Session = Session(
    id: string,
    userId: Option<string>,
    createdAt: int,
    lastActivity: int,
    conversationCount: nat,
    totalAudioDuration: real,
    endedAt: Option<int>,
    duration: Option<int>)

  datatype Manager = Manager(active: map<string, Session>, history: map<string, Session>)

  const Empty := Manager(map[], map[])

  /** `create_session`: a new active session with zero counts, created and
      last active now. Ended sessions are untouched. */
  function CreateSession(m: Manager, id: string, userId: Option<string>, now: int): (r: (Manager, string))
    ensures r.1 == id
    ensures GetSession(r.0, id) == Some(Session(id, userId, now, now, 0, 0.0, None, None))
    ensures forall other :: other != id ==> GetSession(r.0, other) == GetSession(m, other)
    ensures r.0.history == m.history
  {
    (m.(active := m.active[id := Session(id, userId, now, now, 0, 0.0, None, None)]), id)
  }

  /** `get_session`: only active sessions are found. */
  function GetSession(m: Manager, id: string): (r: Option<Session>)
    ensures r.Some? <==> id in m.active
    ensures r.Some? ==> r.value == m.active[id]
  {
    if id in m.active then Some(m.active[id]) else None
  }

  /** Rewrites one active session; an id that is not active changes nothing. */
  function Touch(m: Manager, id: string, f: Session -> Session): (r: Manager)
    ensures id !in m.active ==> r == m
    ensures r.active.Keys == m.active.Keys && r.history == m.history
    ensures id in m.active ==> r.active[id] == f(m.active[id])
    ensures forall other :: other in m.active && other != id ==> r.active[other] == m.active[other]
  {
    if id in m.active then m.(active := m.active[id := f(m.active[id])]) else m
  }

  /** `update_session_activity`. */
  function UpdateActivity(m: Manager, id: string, now: int): (r: Manager)
    ensures id !in m.active ==> r == m
    ensures r.active.Keys == m.active.Keys && r.history == m.history
    ensures id in m.active ==> r.active[id] == m.active[id].(lastActivity := now)
    ensures forall other :: other in m.active && other != id ==> r.active[other] == m.active[other]
  {
    Touch(m, id, (s: Session) => s.(lastActivity := now))
  }

  /** `increment_conversation_count`: exactly one more. */
  function IncrementConversationCount(m: Manager, id: string): (r: Manager)
    ensures id !in m.active ==> r == m
    ensures r.active.Keys == m.active.Keys && r.history == m.history
    ensures id in m.active ==> r.active[id].conversationCount == m.active[id].conversationCount + 1
    ensures id in m.active ==> r.active[id] == m.active[id].(conversationCount := r.active[id].conversationCount)
    ensures forall other :: other in m.active && other != id ==> r.active[other] == m.active[other]
  {
    Touch(m, id, (s: Session) => s.(conversationCount := s.conversationCount + 1))
  }

  /** `add_audio_duration`. */
  function AddAudioDuration(m: Manager, id: string, seconds: real): (r: Manager)
    ensures id !in m.active ==> r == m
    ensures r.active.Keys == m.active.Keys && r.history == m.history
    ensures id in m.active ==> r.active[id].totalAudioDuration == m.active[id].totalAudioDuration + seconds
    ensures id in m.active ==> r.active[id] == m.active[id].(totalAudioDuration := r.active[id].totalAudioDuration)
    ensures forall other :: other in m.active && other != id ==> r.active[other] == m.active[other]
  {
    Touch(m, id, (s: Session) => s.(totalAudioDuration := s.totalAudioDuration + seconds))
  }

  /** A session stamped with its end time and its length in seconds. */
  function Ended(s: Session, now: int): (e: Session)
    ensures e.endedAt == Some(now) && e.duration == Some(now - s.createdAt)
    ensures e == s.(endedAt := e.endedAt, duration := e.duration)
  {
    s.(endedAt := Some(now), duration := Some(now - s.createdAt))
  }

  /** `end_session`: an active session moves to the history, stamped; the
      result says whether there was one. */
  function EndSession(m: Manager, id: string, now: int): (r: (Manager, bool))
    ensures r.1 <==> id in m.active
    ensures !r.1 ==> r.0 == m
    ensures r.1 ==> r.0.active == m.active - {id} && r.0.history == m.history[id := Ended(m.active[id], now)]
  {
    if id in m.active then (Manager(m.active - {id}, m.history[id := Ended(m.active[id], now)]), true)
    else (m, false)
  }

  /** Ending a session twice: the second call reports false and changes nothing. */
  lemma EndTwice(m: Manager, id: string, now: int, later: int)
    ensures var once := EndSession(m, id, now).0;
      EndSession(once, id, later) == (once, false)
  {
  }

  /** The sessions `cleanup_old_sessions` ends: last active before the cutoff. */
  function Stale(m: Manager, cutoff: int): set<string> {
    set id | id in m.active && m.active[id].lastActivity < cutoff
  }

  /** `r` is `m` with exactly the sessions of `ended` moved to the history,
      each stamped with `now`. */
  ghost predicate EndedExactly(m: Manager, r: Manager, ended: set<string>, now: int) {
    && (forall id :: id in r.active <==> id in m.active && id !in ended)
    && (forall id :: id in r.active ==> r.active[id] == m.active[id])
    && (forall id :: id in ended ==> id in m.active && id in r.history && r.history[id] == Ended(m.active[id], now))
    && (forall id :: id in r.history ==> id in ended || (id in m.history && r.history[id] == m.history[id]))
  }

  /** Ending one more of `m`'s sessions extends the set of ended ones. */
  lemma EndOneMore(m: Manager, r: Manager, ended: set<string>, id: string, now: int)
    requires EndedExactly(m, r, ended, now) && id in m.active && id !in ended
    ensures EndedExactly(m, EndSession(r, id, now).0, ended + {id}, now)
  {
    assert id in r.active;
  }

  /** `cleanup_old_sessions`: every session idle since before `max_age_hours`
      ago is ended; the rest stay active as they were. The result is how many
      were ended. */
  method CleanupOldSessions(m: Manager, now: int, maxAgeHours: int) returns (r: Manager, removed: nat)
    ensures removed == |Stale(m, now - maxAgeHours * 3600)|
    ensures forall id :: id in r.active <==> id in m.active && id !in Stale(m, now - maxAgeHours * 3600)
    ensures forall id :: id in r.active ==> r.active[id] == m.active[id]
    ensures forall id :: id in Stale(m, now - maxAgeHours * 3600) ==> id in r.history && r.history[id] == Ended(m.active[id], now)
    ensures forall id :: id in r.history ==> id in Stale(m, now - maxAgeHours * 3600) || (id in m.history && r.history[id] == m.history[id])
  {
    var stale := Stale(m, now - maxAgeHours * 3600);
    var remaining := stale;
    r := m;
    while remaining != {}
      invariant remaining <= stale
      invariant EndedExactly(m, r, stale - remaining, now)
      decreases |remaining|
    {
      var id :| id in remaining;
      EndOneMore(m, r, stale - remaining, id, now);
      assert (stale - remaining) + {id} == stale - (remaining - {id});
      r := EndSession(r, id, now).0;
      remaining := remaining - {id};
    }
    removed := |stale|;
  }
}

=== FILE: text.dfy ===
/** The small slice of Python string behaviour the model relies on: truthiness,
    `str()` of an optional value, decimal rendering of integers, `strip()`,
    `lower()` and `startswith()`. */
module Text {
  import opened Wrappers

  /** An octet, the element type of Python `bytes`. */
  type byte = b: int | 0 <= b < 256

  /** Python truthiness of an optional string: present and non-empty. */
  predicate Truthy(s: Option<string>) {
    s.Some? && s.value != ""
  }

  /** How an f-string renders an optional string: `None` prints as "None". */
  function Show(s: Option<string>): string {
    match s
    case Some(v) => v
    case None => "None"
  }

  function DigitChar(d: nat): (c: char)
    requires d < 10
    ensures '0' <= c <= '9'
  {
    "0123456789"[d]
  }

  function DigitValue(c: char): nat
    requires '0' <= c <= '9'
  {
    (c as int - '0' as int) as nat
  }

  predicate AllDigits(s: string) {
    forall i :: 0 <= i < |s| ==> '0' <= s[i] <= '9'
  }

  /** Decimal rendering of a natural number, most significant digit first. */
  function NatToDecimal(n: nat): (r: string)
    ensures |r| > 0 && AllDigits(r)
    ensures n >= 10 ==> r[0] != '0'
    decreases n
  {
    if n < 10 then [DigitChar(n)] else NatToDecimal(n / 10) + [DigitChar(n % 10)]
  }

  /** Python's `str(n)` for an int: a minus sign for negative values. */
  function IntToDecimal(n: int): (r: string)
    ensures |r| > 0
    ensures n >= 0 <==> r[0] != '-'
  {
    if n < 0 then "-" + NatToDecimal(-n) else NatToDecimal(n)
  }

  /** The value a digit string denotes; the inverse of NatToDecimal. */
  function DecimalValue(s: string): nat
    requires AllDigits(s)
  {
    if s == [] then 0 else DecimalValue(s[..|s| - 1]) * 10 + DigitValue(s[|s| - 1])
  }

  lemma {:induction false} DecimalRoundTrip(n: nat)
    ensures DecimalValue(NatToDecimal(n)) == n
    decreases n
  {
    var s := NatToDecimal(n);
    if n >= 10 {
      assert s[..|s| - 1] == NatToDecimal(n / 10);
      DecimalRoundTrip(n / 10);
    }
  }

  /** Python's `str.isspace` on one character. */
  predicate IsSpace(c: char) {
    c == ' ' || '\t' <= c <= '\r' || '\U{1C}' <= c <= '\U{1F}' || c == '\U{85}' || c == '\U{A0}'
    || c == '\U{1680}' || '\U{2000}' <= c <= '\U{200A}' || c == '\U{2028}' || c == '\U{2029}'
    || c == '\U{202F}' || c == '\U{205F}' || c == '\U{3000}'
  }

  /** Leading whitespace removed: the longest suffix that does not start with a space. */
  function LStrip(s: string): (r: string)
    ensures |r| <= |s| && r == s[|s| - |r|..]
    ensures forall i :: 0 <= i < |s| - |r| ==> IsSpace(s[i])
    ensures r != [] ==> !IsSpace(r[0])
  {
    if s != [] && IsSpace(s[0]) then LStrip(s[1..]) else s
  }

  /** Trailing whitespace removed: the longest prefix that does not end with a space. */
  function RStrip(s: string): (r: string)
    ensures |r| <= |s| && r == s[..|r|]
    ensures forall i :: |r| <= i < |s| ==> IsSpace(s[i])
    ensures r != [] ==> !IsSpace(r[|r| - 1])
  {
    if s != [] && IsSpace(s[|s| - 1]) then RStrip(s[..|s| - 1]) else s
  }

  /** Python's `str.strip()` with no argument. */
  function Strip(s: string): string {
    RStrip(LStrip(s))
  }

  function LowerChar(c: char): char {
    if 'A' <= c <= 'Z' then (c as int + 32) as char else c
  }

  /** ASCII lower-casing. It agrees with Python's `str.lower()` on every
      comparison the model makes against a lower-case ASCII literal. */
  function Lower(s: string): (r: string)
    ensures |r| == |s|
    ensures forall i :: 0 <= i < |s| ==> r[i] == LowerChar(s[i])
  {
    seq(|s|, i requires 0 <= i < |s| => LowerChar(s[i]))
  }

  predicate StartsWith(s: string, prefix: string) {
    |prefix| <= |s| && s[..|prefix|] == prefix
  }
}

=== FILE: wrappers.dfy ===
/** Option and Result, the two failure-compatible wrappers the rest of the model uses
    for Python's `None` returns and raised exceptions. */
module Wrappers {

  datatype Option<+T> = None | Some(value: T) {

    /** The wrapped value, or `default` for None (Python's `d.get(k, default)`). */
    function GetOr(default: T): T {
      match this
      case Some(v) => v
      case None => default
    }
  }

  datatype Result<+T, +E> = Success(value: T) | Failure(error: E) {

    predicate IsFailure() {
      Failure?
    }

    function PropagateFailure<U>(): Result<U, E>
      requires Failure?
    {
      Failure(error)
    }

    function Extract(): T
      requires Success?
    {
      value
    }
  }
}
